=== FILE: README.md ===
# Panel nesting for cabinet parts, modelled in Dafny

The repository nests rectangular cabinet panels onto stock sheets. It does this in three programs, and this project models the core of each one.

- **The guillotine beam-saw engine** (`BeamSawNestingAlgorithm` in `test_nesting.py`).
  - It sorts the panels by a chosen strategy.
  - It places each panel at the origin of the smallest free sub-sheet of the current sheet that accepts it. "Accepts" means the panel fits within a 1e-6 tolerance and its orientation agrees with the panel's grain constraint. The unrotated orientation is tried first; the rotated one only when the panel may be rotated.
  - After each placement it makes a guillotine cut that splits the rest of the sub-sheet into at most two children, separated from the panel by the blade kerf.
  - A panel that fits nowhere on the current sheet gets exactly one fresh sheet and one more try. After that it is reported as too large.
  - Sheet count, overall efficiency and per-sheet utilisation are read off the final state.
- **The MaxRects packer** (`optimized_nesting_v2.py`).
  - Its panel adds the global kerf to its size when placed.
  - Its sheet keeps a list of free rectangles. After every placement that list is split around the placed footprint and pruned of contained rectangles.
  - Candidate positions are the corners of free rectangles that admit the panel, ranked by a heuristic score (the `balanced` quality mode).
  - The panel order is area, perimeter or mixed, largest first.
- **The hybrid packer** (`optimized_nesting_hybrid.py`).
  - It defines its own `Panel` and `Sheet` classes, but the modelled methods (`fits`, `place`, the free-rectangle update and prune, `efficiency`) are the same code in both packers, so one model serves both.
  - It gathers candidate positions from the skyline and from the corners of placed panels, sorts them bottom-left first and samples them down to 50.
  - It picks the first position and orientation with the lowest top edge.
  - Panels are processed tallest first.

Each engine's mutable object becomes an immutable value (`RunState`, `Sheet`, `Panel`), and each method becomes a pure function of that value. Lengths are `real`, so floating-point rounding is not modelled. The tolerance constants (1e-6) are kept exactly.

Python's `sorted` is stable, also with `reverse=True`. All sorts are therefore one stable insertion sort (`Sorting.SortBy`), proved to be a permutation, ordered by its key, and to keep equal-key elements in input order.

The main results:

- **Beam saw.**
  - `nest` handles every panel exactly once: each panel is either placed or reported.
  - Two panels placed on the same sheet never overlap, and every panel lies on its sheet up to the fit tolerance. This holds whenever the kerf is at least the tolerance.
  - Cut ids count up from 0, and every free sub-sheet names an earlier cut on its own sheet as its parent.
  - Placed panels appear in non-decreasing sheet order.
  - The overall efficiency is the mean of the per-sheet utilisations.
- **MaxRects sheet.**
  - Placement keeps the panels apart and the filled area exact.
  - The free-rectangle list stays an exact, antichain description of the free space.
  - Every MaxRects candidate passes `fits`.

**The fit tolerance is permissive.** `SubSheet.can_fit` (test_nesting.py:89-90) tests `needed <= available + 1e-6`, so a panel up to 1e-6 larger than its region fits; a strict test would use `- 1e-6`. The model follows the code (`BeamSawTypes.CanFitTolerance` pins down the direction). This is why the no-overlap result needs a kerf of at least 1e-6: with kerf 0, a panel that overhangs its sub-sheet by less than 1e-6 can overlap a neighbour placed earlier on the same sheet.

## Model

| member | source | states |
|---|---|---|
| BeamSawTypes.CanFitTolerance | test_nesting.py:89-90 | The fit test is permissive: a panel exactly the region's size fits, one larger by 1e-7 in both directions also fits, and one wider by 2e-6 does not |
| GrainRules.ValidateGrain | test_nesting.py:215-237 | An orientation is accepted exactly when "horizontal" (effective width at least effective height) agrees with the target grain (the sheet's grain for match-sheet, else the fixed one); the accepted result is that target grain |
| GrainRules.SquareIsHorizontal | test_nesting.py:217-218 | A square panel counts as horizontal both unrotated and rotated |
| GrainRules.RotationFlipsClassification | test_nesting.py:217-218 | For a non-square panel, rotating flips the horizontal classification |
| GrainRules.ExactlyOneOrientationPasses | test_nesting.py:215-237 | Of the two orientations of a non-square panel exactly one passes the grain check; for a square both or neither pass |
| GrainRules.SquareNeverVertical | test_nesting.py:215-237 | A square panel whose target grain is vertical is rejected in both orientations |
| Guillotine.HorizontalFirst | test_nesting.py:257-264 | The horizontal cut leads when the remaining height exceeds the remaining width by more than 1e-6, the vertical one when the width exceeds the height by more than that, and the preferred orientation decides within the tolerance |
| Guillotine.GuillotineCut | test_nesting.py:255-368 | One piece per remaining strip wider than 1e-6. Cut ids run on from the next id, each child names its own cut as parent, sits one level deeper on the same sheet and records the kerf. Two cuts always have different orientations |
| Guillotine.CutSpans | test_nesting.py:266-368 | Horizontal cuts lie at the panel's top and vertical ones at its right edge. The leading cut spans the whole sub-sheet and the other only the used strip. Each child starts one kerf past its cut, is as long as its cut and reaches the sub-sheet's far edge. The leading cut comes first |
| Guillotine.ChildrenInsideAndApart | test_nesting.py:255-368 | With non-negative kerf and positive sizes, each child lies inside the sub-sheet, misses the panel's footprint, has positive size, and the two children do not overlap, even though the panel may overhang by 1e-6 |
| Guillotine.ChildrenReachApart | test_nesting.py:255-368 | With kerf at least 1e-6, anything placed in a child (which may overhang it by 1e-6) can reach neither the placed panel nor the other child |
| BeamSawNesting.SortPanels | test_nesting.py:151-161 | The sorted panels are a permutation of the input |
| BeamSawNesting.SortPanelsOrdered | test_nesting.py:151-161 | Largest-first and smallest-first order by maximum dimension, the area strategies by area, each in its direction; equal keys keep input order |
| BeamSawNesting.OnSheet | test_nesting.py:173-174 | The filter keeps exactly the sub-sheets of the given sheet |
| BeamSawNesting.CandidateSubSheets | test_nesting.py:173-175 | The candidates are exactly the free sub-sheets of the current sheet |
| BeamSawNesting.CandidatesAscending | test_nesting.py:175 | The candidates are tried in order of non-decreasing area |
| BeamSawNesting.CanPlace | test_nesting.py:193-213 | A placement exists exactly when the candidate orientation passes the fit test and the grain check; it records the panel, sub-sheet, rotation, the swapped or unswapped size within 1e-6 of the region, and the target grain |
| BeamSawNesting.FindPlacement | test_nesting.py:177-191 | A found placement uses one of the given sub-sheets for this panel and is what the fit and grain check returns there |
| BeamSawNesting.FindPlacementSpec | test_nesting.py:177-191 | The search fails exactly when no sub-sheet accepts the panel in any allowed orientation; otherwise it returns the first accepting sub-sheet, unrotated before rotated |
| BeamSawNesting.RemoveFirst | test_nesting.py:252 | Removing a present element removes one occurrence of it; removing an absent one changes nothing |
| BeamSawNesting.PlacedOfFacts | test_nesting.py:241-250 | The placed record sits at the sub-sheet's origin, is rotated 90 degrees exactly when the placement is, keeps the panel's area and takes the sub-sheet's sheet index |
| BeamSawNesting.Attempt | test_nesting.py:171-191 | A chosen placement uses a free sub-sheet of the current sheet and passes the fit and grain check there |
| BeamSawNesting.AttemptChoice | test_nesting.py:171-191 | An attempt fails exactly when no current sub-sheet accepts the panel; otherwise it takes the first accepting one in smallest-area order |
| RunProperties.StepOnCurrentSheet | test_nesting.py:140-142 | A panel that fits on the current sheet is placed there and no sheet is opened |
| RunProperties.StepOnNewSheet | test_nesting.py:143-145 | A panel that fails on the current sheet but fits on a fresh one is placed there after opening exactly one sheet |
| RunProperties.StepWarns | test_nesting.py:143-149 | A panel that fits on neither leaves one new sheet opened and is reported |
| RunProperties.PlacePanelHandles | test_nesting.py:239-253 | Placing a panel adds exactly that panel to the placed-or-reported multiset |
| RunProperties.TryPlaceHandles | test_nesting.py:171-191 | A successful attempt adds the panel to the placed-or-reported multiset; a failed one adds nothing |
| RunProperties.StepHandlesPanel | test_nesting.py:140-149 | One iteration of the loop adds exactly its panel to the placed-or-reported multiset |
| RunProperties.NestFromHandles | test_nesting.py:140-149 | The loop adds exactly its panels, with multiplicity, to the placed-or-reported multiset |
| RunProperties.NestHandlesEveryPanel | test_nesting.py:135-149 | `nest` places or reports every input panel exactly once: the two lists together are a permutation of the input |
| RunProperties.InitialConsistent | test_nesting.py:115-138 | The first sheet of a fresh engine satisfies the bookkeeping invariant |
| RunProperties.AddNewSheetConsistent | test_nesting.py:163-169 | Opening a sheet keeps the bookkeeping invariant |
| RunProperties.PlacePanelConsistent | test_nesting.py:239-368 | Placing on the current sheet keeps cut ids equal to their positions, keeps every sub-sheet linked to an earlier cut on its own sheet, and keeps placed panels in sheet order |
| RunProperties.TryPlacePanelConsistent | test_nesting.py:171-191 | An attempt keeps the bookkeeping invariant |
| RunProperties.StepConsistent | test_nesting.py:140-149 | One loop iteration keeps the bookkeeping invariant |
| RunProperties.PlacePanelAppends | test_nesting.py:239-253 | A placement only appends: earlier placed panels and cuts are untouched and the new panel is on the current sheet |
| RunProperties.WarningAppends | test_nesting.py:143-149 | Opening a sheet and reporting a panel only appends |
| RunProperties.StepAppendsOnly | test_nesting.py:140-149 | An iteration only appends, opens at most one sheet, places at most one panel, and places it on the sheet current afterwards |
| RunProperties.NestFromConsistent | test_nesting.py:140-149 | The loop keeps the bookkeeping invariant |
| RunProperties.NestConsistent | test_nesting.py:135-149 | After `nest`, placed panels are on opened sheets in non-decreasing sheet order, cut k has id k and the next id counts the cuts, and every free sub-sheet is a full sheet or names an earlier cut on its own sheet as parent |
| RunGeometry.RemoveFirstNoDuplicates | test_nesting.py:252 | Removing a sub-sheet from a list without repeats leaves a list without repeats that holds exactly the other sub-sheets |
| RunGeometry.ChildFacts | test_nesting.py:255-368 | Each child of an admissible placement lies on the stock sheet with positive size, stays within its parent's reach, and its reach misses the placed panel |
| RunGeometry.PlacePlaced | test_nesting.py:239-253 | After an admissible placement every placed panel has positive size and lies on its sheet, and panels on one sheet do not overlap |
| RunGeometry.PlaceClear | test_nesting.py:239-368 | After an admissible placement no placed panel reaches into a free sub-sheet of its sheet |
| RunGeometry.PlacePanelSound | test_nesting.py:239-368 | An admissible placement keeps the geometric invariant: sub-sheets without repeats, inside the sheet, mutually apart and clear of placed panels, which do not overlap |
| RunGeometry.AddNewSheetSound | test_nesting.py:163-169 | Opening a sheet keeps the geometric invariant |
| RunGeometry.AttemptAdmissible | test_nesting.py:171-213 | The placement an attempt chooses is admissible: a free sub-sheet of the current sheet, the panel fitting within the tolerance |
| RunGeometry.TryPlaceSound | test_nesting.py:171-191 | An attempt keeps the geometric invariant |
| RunGeometry.WarnSound | test_nesting.py:147-149 | Reporting a panel keeps the geometric invariant |
| RunGeometry.StepSound | test_nesting.py:140-149 | One loop iteration keeps the geometric invariant |
| RunGeometry.NestFromSound | test_nesting.py:140-149 | The loop keeps the geometric invariant |
| RunGeometry.NestSound | test_nesting.py:135-149 | The run `nest` ends in satisfies the geometric invariant |
| RunGeometry.NestNoOverlap | test_nesting.py:135-149 | Panels `nest` places on the same sheet never overlap, and each lies on its sheet up to the 1e-6 tolerance |
| RunStatistics.PlacedAreaAppend | test_nesting.py:375 | The summed panel area is additive: the area of two lists laid end to end is the sum of their areas |
| RunStatistics.AreaOnSheet | test_nesting.py:383-384 | A sheet with no placed panel on it has zero used area |
| RunStatistics.PercentMeaning | test_nesting.py:376 | A percentage of a positive total, times that total, is 100 times the part; against a non-positive total it is 0 |
| RunStatistics.OverallEfficiency | test_nesting.py:373-376 | The efficiency is 0 when the sheet area is not positive or nothing is placed |
| RunStatistics.EfficiencyMeaning | test_nesting.py:373-376 | The efficiency times the area of all opened sheets is 100 times the placed area (0 for a non-positive sheet area) |
| RunStatistics.SheetUtilization | test_nesting.py:378-387 | There is one utilisation entry per opened sheet |
| RunStatistics.UtilizationFromAt | test_nesting.py:382-385 | Each entry of the per-sheet loop is the placed area on that sheet as a percentage of one sheet |
| RunStatistics.SheetUtilizationEntries | test_nesting.py:378-387 | Entry i is the percentage of sheet i that placed panels cover |
| RunStatistics.AreaOnSheetsPartition | test_nesting.py:375-384 | When every panel is on one of the first `count` sheets, the per-sheet areas add up to the whole placed area |
| RunStatistics.UtilizationSum | test_nesting.py:378-387 | The utilisations add up to the placed area as a percentage of one sheet |
| RunStatistics.UtilizationAverages | test_nesting.py:373-387 | When every panel is on an opened sheet, the sum of the utilisations is the sheet count times the overall efficiency |
| RunStatistics.NestUtilizationAverages | test_nesting.py:135-149 | After `nest`, the overall efficiency is the mean of the per-sheet utilisations |
| Sorting.SortBy | test_nesting.py:151-161 | Sorting keeps the length and is a permutation |
| Sorting.SortBySpec | test_nesting.py:151-161 | Python's stable `sorted`: a permutation, ordered by the key in the requested direction, with each class of equal keys in input order |
| Rectangles.IntersectsSymmetric | optimized_nesting_v2.py:155-160 | Overlap is symmetric |
| Rectangles.TouchingDoesNotIntersect | optimized_nesting_v2.py:155-160 | Rectangles that only share an edge or corner do not overlap |
| Rectangles.ContainsReflexive | optimized_nesting_v2.py:162-167 | Every free rectangle contains itself |
| Rectangles.ContainsTransitive | optimized_nesting_v2.py:162-167 | Containment is transitive |
| Rectangles.ContainsAntisymmetric | optimized_nesting_v2.py:162-167 | Two rectangles that contain each other are equal |
| Rectangles.IntersectsIffCommonPoint | optimized_nesting_v2.py:150-160 | Two rectangles of positive size overlap exactly when some point lies in both, with the half-open point test |
| KerfPanels.RotateInvolution | optimized_nesting_v2.py:105-110 | Rotating twice restores the panel |
| KerfPanels.RotatePreserves | optimized_nesting_v2.py:91-110 | Rotation keeps a panel well formed, and its area, perimeter and side lengths unchanged |
| KerfPanels.PlacedSizeAfterRotate | optimized_nesting_v2.py:105-122 | After a rotation the placed width is the old placed height and the other way round, so the size cache is never stale |
| KerfPanels.Copy | optimized_nesting_v2.py:124-129 | A copy is well formed, has the same original size, id, tag and rotation flag |
| KerfPanels.CopyIsIdentity | optimized_nesting_v2.py:124-129 | The copy of a well-formed panel equals it |
| KerfPanels.FitsInRectSound | optimized_nesting_v2.py:131-137 | A fit is reported exactly when the panel fits in some allowed orientation, and the reported rotation is one that fits |
| PackingSheet.NewSheetInvariant | optimized_nesting_v2.py:171-201 | A new sheet satisfies the panel, area and free-rectangle invariants |
| PackingSheet.Collides | optimized_nesting_v2.py:226-241 | The collision scan reports a hit exactly when some placed footprint overlaps the rectangle |
| PackingSheet.Fits | optimized_nesting_v2.py:217-243 | A position fits exactly when the placed footprint sticks out of the sheet by at most 1e-6 and overlaps no placed footprint |
| PackingSheet.EfficiencyMeaning | optimized_nesting_v2.py:551-555 | For a non-empty sheet whose filled area is tracked, the efficiency times the sheet area is the total placed area |
| PackingSheet.PlaceTracksArea | optimized_nesting_v2.py:245-261 | The filled area stays the sum of the placed footprints, kerf included |
| PackingSheet.PlaceAddsArea | optimized_nesting_v2.py:245-261 | One placement grows the filled area by exactly the placed width times the placed height |
| PackingSheet.PlaceKeepsPacked | optimized_nesting_v2.py:217-261 | Placing where `fits` holds keeps the panels within the tolerance and pairwise apart |
| PackingSheet.PlaceKeepsFreeSound | optimized_nesting_v2.py:245-261 | After a placement every free rectangle still lies on the sheet and overlaps no placed panel |
| PackingSheet.PlaceKeepsFreeCovers | optimized_nesting_v2.py:245-261 | After a placement every sheet point not covered by a panel still lies in some free rectangle |
| PackingSheet.PlaceKeepsFreeInvariant | optimized_nesting_v2.py:245-261 | A placement keeps the free rectangles an exact antichain description of the free space |
| PackingSheet.FitsAtFreeCorner | optimized_nesting_v2.py:217-243 | A panel whose placed size fits in a free rectangle passes `fits` at that rectangle's corner |
| FreeRects.Split | optimized_nesting_v2.py:300-327 | A hit rectangle yields at most four pieces |
| FreeRects.SplitPieces | optimized_nesting_v2.py:300-327 | Each piece lies inside the hit rectangle, misses the placed footprint and has positive size when the rectangle has |
| FreeRects.SplitCovers | optimized_nesting_v2.py:300-327 | The pieces cover every point of the hit rectangle outside the footprint |
| FreeRects.UpdateFreeRects | optimized_nesting_v2.py:292-329 | Every new free rectangle misses the footprint and lies inside an old one, every old rectangle the footprint misses is kept, and positive size is kept |
| FreeRects.UpdateCovers | optimized_nesting_v2.py:292-329 | A point of an old free rectangle outside the footprint lies in some new free rectangle |
| FreeRects.UpdateDistinct | optimized_nesting_v2.py:292-329 | Updating an antichain of free rectangles produces no rectangle twice |
| FreeRects.KeptFrom | optimized_nesting_v2.py:336-344 | The kept indices are increasing and are exactly the indices whose rectangle no other index contains |
| FreeRects.PruneSpec | optimized_nesting_v2.py:331-346 | The prune keeps, in input order, exactly the rectangles that no rectangle at another index contains (a list of at most one is kept as is) |
| FreeRects.PruneSubset | optimized_nesting_v2.py:331-346 | Every kept rectangle comes from the input |
| FreeRects.PruneAntichain | optimized_nesting_v2.py:331-346 | No kept rectangle contains another kept one |
| FreeRects.PruneDropsIdentical | optimized_nesting_v2.py:336-344 | Two identical rectangles at different indices contain each other, so both are dropped |
| FreeRects.PruneCovers | optimized_nesting_v2.py:331-346 | Pruning a list without repeats loses no free point |
| MaxRectsV2.Scored | optimized_nesting_v2.py:358-388 | The scan yields one scored corner for each free rectangle that admits the placed size unrotated, and nothing else |
| MaxRectsV2.CandidatePositions | optimized_nesting_v2.py:348-394 | At most 60 positions, each the lower-left corner of a free rectangle that admits the placed panel |
| MaxRectsV2.RankedFromFreeRects | optimized_nesting_v2.py:358-394 | Every ranked candidate is the scored corner of an admitting free rectangle |
| MaxRectsV2.RankedAscending | optimized_nesting_v2.py:390-394 | Candidates come in order of non-decreasing score |
| MaxRectsV2.RankedComplete | optimized_nesting_v2.py:390-394 | With at most 60 admitting rectangles no candidate is lost, and equal scores keep free-rectangle order |
| MaxRectsV2.CutKeepsLowest | optimized_nesting_v2.py:390-394 | Sorting by score and keeping the first 60 keeps min(n, 60) of the candidates, and every candidate dropped scores at least as high as every one kept |
| MaxRectsV2.RankedLowest | optimized_nesting_v2.py:390-394 | For any sheet, the kept candidates are the lowest-scoring admitting corners, as many as the limit allows |
| MaxRectsV2.CandidatesFit | optimized_nesting_v2.py:348-394 | On a sheet with sound free rectangles every candidate position passes `fits` |
| MaxRectsV2.SortPanels | optimized_nesting_v2.py:561-579 | The sorted panels are a permutation of the input |
| MaxRectsV2.SortPanelsOrdered | optimized_nesting_v2.py:561-579 | Scores (area, perimeter or mixed) are non-increasing, and equal scores keep input order |
| HybridPacker.SkylinePositions | optimized_nesting_hybrid.py:277-280 | Exactly the left ends of the segments, plus the right ends that lie left of the sheet edge |
| HybridPacker.CornerPositions | optimized_nesting_hybrid.py:283-294 | Exactly the five corner and edge positions of each placed panel |
| HybridPacker.KeepOnSheet | optimized_nesting_hybrid.py:297-298 | Exactly the positions with non-negative coordinates strictly inside the sheet's far edges |
| HybridPacker.Dedup | optimized_nesting_hybrid.py:274 | The same positions, each once |
| HybridPacker.CandidatePositions | optimized_nesting_hybrid.py:269-302 | The origin on an empty sheet; otherwise exactly the collected positions that lie on the sheet |
| HybridPacker.CandidatePositionsIncreasing | optimized_nesting_hybrid.py:300-302 | The positions are strictly increasing in (y, x): bottom first, then left, none twice |
| HybridPacker.Stride | optimized_nesting_hybrid.py:315 | A slice with a step takes only elements of the list, and nothing when it starts at or past its end |
| HybridPacker.StrideSpec | optimized_nesting_hybrid.py:315 | Entry k of `xs[from:to:step]` is `xs[from + k*step]`, and the slice stops at the first index reaching `to` |
| HybridPacker.Sample | optimized_nesting_hybrid.py:311-315 | At most 50 positions from the input; up to 50 are kept as is; a longer list gives exactly 50: its first 20, its last 10, then the head of the strided middle |
| HybridPacker.MiddleLong | optimized_nesting_hybrid.py:315 | For more than 50 positions the strided middle has at least 20 entries, so the cut to 50 is always reached |
| HybridPacker.SampleMiddle | optimized_nesting_hybrid.py:311-315 | Sampled entry 30 + j of a long list is its entry 20 + j*step, with step `max(1, (n-30)//20)` |
| HybridPacker.ChooseBest | optimized_nesting_hybrid.py:317-344 | Success exactly when some position fits in some orientation; then the choice is the first in scan order with the lowest top edge; otherwise (0, 0, unrotated) |
| HybridPacker.TryAddPanel | optimized_nesting_hybrid.py:304-344 | The same as `ChooseBest`, over the sampled candidate positions |
| HybridPacker.Add | optimized_nesting_hybrid.py:304-352 | Succeeds exactly when some tried position admits the panel in either orientation; on failure the sheet is unchanged; on success the first lowest-waste choice is placed, rotated exactly when that choice is, and the panel, area and free-rectangle invariants are kept |
| HybridPacker.NestOrder | optimized_nesting_hybrid.py:371-380 | No panels give no order; otherwise the order is a permutation of the input |
| HybridPacker.NestOrderSorted | optimized_nesting_hybrid.py:380 | Heights are non-increasing, widths non-increasing among equal heights, and equal sizes keep input order |

## Left out

- The Rhino/Grasshopper plumbing (input extraction, output geometry), the planar packer, and the demonstration `run_test`. None of these is part of the nesting logic.
- The collision grid of both packers. `PackingSheet.Fits` scans every placed panel, which gives the answer the grid lookup narrows down to.
- The skyline of both packers. Its maintenance (`_update_skyline`) is not modelled; the hybrid packer's candidate search takes the skyline as a parameter.
- The multi-sheet selection loops of both packers' `nest_panels`. Only the hybrid packer's empty-input guard and height-first sort are modelled (`HybridPacker.NestOrder`).
- The MaxRects packer's `find_best_position`, `_calculate_placement_score`, `get_candidate_positions_hybrid`, `try_add_panel`, `add` and `should_stop_adding`. Also the hybrid packer's `should_stop_adding`. These are the selection layer on top of the modelled candidate searches and sheet updates.
- `NestingConfig`: only the `balanced` mode is modelled, with multiple heuristics on, 60 candidate positions and MaxRects updates on. The `VERBOSE` logging is left out.
- The module-level `kerf` of both packers is an explicit parameter. The placed-size caches are left out; `KerfPanels.PlacedSizeAfterRotate` states why dropping them loses nothing.
- Panel mutation (`rotate` in place, then rotate back) is modelled with immutable values (`KerfPanels.Rotate`, `HybridPacker.Oriented`). The hybrid `try_add_panel` rotates back after its scan, so the caller's panel leaves it unchanged; with immutable values this holds by construction, and `KerfPanels.RotateInvolution` states that rotating twice restores the panel.
- The beam-saw engine's "too large" warning is printed in the original. Here it is an entry appended to `RunState.warnings`.
- Floating point is modelled as exact reals: no rounding, no infinities. The `float('inf')` start of the hybrid scan becomes a "nothing found yet" flag.
- The panel's `area`, `perimeter` and `aspect_ratio` attributes are derived from the original size in the constructor (`KerfPanels.Panel.Area` and the like). The MaxRects packer never builds a panel with a zero side, because its constructor divides by the short side. The hybrid packer's `Panel` has no perimeter or aspect ratio, so it can hold a zero side; the model's panel then carries the same fields with the derived attributes unused.
- MaxRectsV2.MixedScore: uses 0 for the aspect-ratio term of a panel with a zero side, which the original cannot construct.
- PackingSheet.Efficiency: requires a non-zero sheet area for a non-empty sheet; the original would raise a division error there.
- RunGeometry.NestNoOverlap: requires a kerf of at least 1e-6 and positive sheet and panel sizes. With kerf 0, the permissive fit tolerance lets a panel overhang its sub-sheet into a neighbour by less than 1e-6.
- RunGeometry.NestSound: has the same requirements as `RunGeometry.NestNoOverlap`, for the same reason.
- RunStatistics.SheetUtilization: its contract states only the length. The entries are stated by `RunStatistics.SheetUtilizationEntries`.
- RunStatistics.UtilizationAverages: requires every placed panel to be on an opened sheet; `RunProperties.NestConsistent` proves this for every result of `nest`.
- RunProperties.PlacePanelConsistent: requires the placement to be on the current sheet, as every placement `_try_place_panel` makes is.
- BeamSawNesting.SortPanels: the original's final `return panels` for an unknown strategy cannot be reached with the four-valued enum, so it is not modelled.
- BeamSawNesting.RemoveFirst: Python's `list.remove` raises `ValueError` for an absent element, where the model returns the list unchanged. The case cannot arise, because `_place_panel` is only called with a sub-sheet `_try_place_panel` took from that list.
- GrainRules.ValidateGrain: the original's `"Unknown"` branch cannot be reached with the three-valued grain enum, so it is not modelled.

=== FILE: beam_saw_nesting.dfy ===
/**
 * `BeamSawNestingAlgorithm`: sorting the panels, opening sheets, the best-fit
 * sub-sheet search and the placement that triggers the guillotine cut. The
 * object's mutable fields become one `RunState` value threaded through pure
 * functions; `nest` is a fold over the sorted panels.
 */
module BeamSawNesting {
  import opened Optional
  import opened Sorting
  import opened BeamSawTypes
  import opened GrainRules
  import opened Guillotine

  /**
   * The fields of a run. `warnings` records, in order, the panels for which
   * `nest` prints its "too large" warning; the original keeps no such list.
   */
  datatype RunState = RunState(
    placed: seq<PlacedPanel>,
    remaining: seq<SubSheet>,
    cuts: seq<CutLine>,
    currentSheet: nat,
    nextCutId: nat,
    warnings: seq<Panel>)

  /** The state right after construction. */
  const Initial: RunState := RunState([], [], [], 0, 0, [])

  // ---------------------------------------------------------------- sorting

  function PanelKey(strategy: PanelSortStrategy): Panel -> SortKey {
    match strategy
    case LargestFirst => (p: Panel) => SortKey(p.MaxDimension(), 0.0)
    case SmallestFirst => (p: Panel) => SortKey(p.MaxDimension(), 0.0)
    case AreaDescending => (p: Panel) => SortKey(p.Area(), 0.0)
    case AreaAscending => (p: Panel) => SortKey(p.Area(), 0.0)
  }

  predicate Descending(strategy: PanelSortStrategy) {
    strategy == LargestFirst || strategy == AreaDescending
  }

  /** `_sort_panels`: a stable sort by the strategy's key and direction. */
  function SortPanels(strategy: PanelSortStrategy, panels: seq<Panel>): (r: seq<Panel>)
    ensures multiset(r) == multiset(panels)
  {
    SortBy(panels, PanelKey(strategy), Descending(strategy))
  }

  /** `a` may precede `b` in the order of `strategy`. */
  predicate SortedPair(strategy: PanelSortStrategy, a: Panel, b: Panel) {
    match strategy
    case LargestFirst => a.MaxDimension() >= b.MaxDimension()
    case SmallestFirst => a.MaxDimension() <= b.MaxDimension()
    case AreaDescending => a.Area() >= b.Area()
    case AreaAscending => a.Area() <= b.Area()
  }

  /**
   * The sorted panels are a permutation of the input, ordered by the strategy's
   * key, and panels with equal keys keep their input order.
   */
  lemma SortPanelsOrdered(strategy: PanelSortStrategy, panels: seq<Panel>)
    ensures var r := SortPanels(strategy, panels);
      && multiset(r) == multiset(panels)
      && (forall i, j :: 0 <= i < j < |r| ==> SortedPair(strategy, r[i], r[j]))
      && (forall k :: KeyClass(r, PanelKey(strategy), k) == KeyClass(panels, PanelKey(strategy), k))
  {
    SortBySpec(panels, PanelKey(strategy), Descending(strategy));
    var r := SortPanels(strategy, panels);
    forall i, j | 0 <= i < j < |r|
      ensures SortedPair(strategy, r[i], r[j])
    {
      assert InOrder(PanelKey(strategy)(r[i]), PanelKey(strategy)(r[j]), Descending(strategy));
    }
  }

  // ---------------------------------------------------------------- sheets

  /** The full-sheet sub-sheet that opens sheet `index`. */
  function FullSheet(cfg: Config, index: nat): SubSheet {
    SubSheet(0.0, 0.0, cfg.sheetWidth, cfg.sheetHeight, 0, -1, index)
  }

  /**
   * `_add_new_sheet`: the sheet counter advances only when something already
   * exists (so the first call of a run opens sheet 0), and one full-sheet
   * sub-sheet is appended.
   */
  function AddNewSheet(cfg: Config, run: RunState): (r: RunState)
    ensures r.currentSheet == (if |run.remaining| > 0 || |run.placed| > 0 then run.currentSheet + 1 else run.currentSheet)
    ensures r.remaining == run.remaining + [FullSheet(cfg, r.currentSheet)]
    ensures r == run.(currentSheet := r.currentSheet, remaining := r.remaining)
  {
    var index := if |run.remaining| > 0 || |run.placed| > 0 then run.currentSheet + 1 else run.currentSheet;
    run.(currentSheet := index, remaining := run.remaining + [FullSheet(cfg, index)])
  }

  // ---------------------------------------------------------------- search

  /** The sub-sheets of sheet `index`, in list order. */
  function OnSheet(subs: seq<SubSheet>, index: nat): (r: seq<SubSheet>)
    ensures forall s :: s in r <==> s in subs && s.sheetIndex == index
    ensures |r| <= |subs|
  {
    if subs == [] then []
    else (if subs[0].sheetIndex == index then [subs[0]] else []) + OnSheet(subs[1..], index)
  }

  function AreaKey(s: SubSheet): SortKey {
    SortKey(s.Area(), 0.0)
  }

  /** The candidate sub-sheets of `_try_place_panel`: the current sheet's, smallest area first. */
  function CandidateSubSheets(run: RunState): (r: seq<SubSheet>)
    ensures forall s :: s in r <==> s in run.remaining && s.sheetIndex == run.currentSheet
  {
    var subs := OnSheet(run.remaining, run.currentSheet);
    var r := SortBy(subs, AreaKey, false);
    assert forall s :: s in r <==> s in subs by {
      forall s ensures s in r <==> s in subs {
        assert s in r <==> s in multiset(r);
        assert s in subs <==> s in multiset(subs);
      }
    }
    r
  }

  /** The candidates are tried in order of non-decreasing area. */
  lemma CandidatesAscending(run: RunState)
    ensures var r := CandidateSubSheets(run);
      forall i, j :: 0 <= i < j < |r| ==> r[i].Area() <= r[j].Area()
  {
    var r := CandidateSubSheets(run);
    SortByOrdered(OnSheet(run.remaining, run.currentSheet), AreaKey, false);
    forall i, j | 0 <= i < j < |r| ensures r[i].Area() <= r[j].Area() {
      assert InOrder(AreaKey(r[i]), AreaKey(r[j]), false);
    }
  }

  /** The effective width and height of the candidate orientation. */
  function CandidateWidth(p: Panel, rotate: bool): real {
    if rotate then p.height else p.width
  }

  function CandidateHeight(p: Panel, rotate: bool): real {
    if rotate then p.width else p.height
  }

  /** `_can_place_panel_in_sub_sheet`: the fit test, then the grain check. */
  function CanPlace(cfg: Config, p: Panel, sub: SubSheet, rotate: bool): (r: Option<PanelPlacement>)
    ensures r.Some? <==>
      sub.CanFit(CandidateWidth(p, rotate), CandidateHeight(p, rotate)) && ValidateGrain(p, rotate, cfg.sheetGrain).Some?
    ensures r.Some? ==>
      && r.value.panel == p && r.value.subSheet == sub && r.value.rotated == rotate
      && r.value.width <= sub.width + Epsilon && r.value.height <= sub.height + Epsilon
      && (r.value.width, r.value.height) == (if rotate then (p.height, p.width) else (p.width, p.height))
      && r.value.finalGrain == TargetGrain(p.grain, cfg.sheetGrain)
  {
    var w := CandidateWidth(p, rotate);
    var h := CandidateHeight(p, rotate);
    if !sub.CanFit(w, h) then None
    else
      match ValidateGrain(p, rotate, cfg.sheetGrain)
      case None => None
      case Some(g) => Some(PanelPlacement(p, sub, rotate, w, h, g))
  }

  /** The search tries `rotate` on `sub` and it is accepted there. */
  predicate Accepts(cfg: Config, p: Panel, sub: SubSheet, rotate: bool) {
    (rotate ==> p.rotation == Rotation90Allowed) && CanPlace(cfg, p, sub, rotate).Some?
  }

  /**
   * `pl` is what the search picks at position `k`: accepted there, nothing
   * earlier was accepted, and a rotated pick means the unrotated one failed.
   */
  predicate FirstAcceptedAt(cfg: Config, p: Panel, subs: seq<SubSheet>, k: int, pl: PanelPlacement) {
    && 0 <= k < |subs|
    && Accepts(cfg, p, subs[k], pl.rotated)
    && CanPlace(cfg, p, subs[k], pl.rotated) == Some(pl)
    && (pl.rotated ==> !Accepts(cfg, p, subs[k], false))
    && forall j :: 0 <= j < k ==> !Accepts(cfg, p, subs[j], false) && !Accepts(cfg, p, subs[j], true)
  }

  /** The loop of `_try_place_panel`: first sub-sheet, unrotated before rotated. */
  function FindPlacement(cfg: Config, p: Panel, subs: seq<SubSheet>): (r: Option<PanelPlacement>)
    ensures r.Some? ==> r.value.subSheet in subs && r.value.panel == p
    ensures r.Some? ==> CanPlace(cfg, p, r.value.subSheet, r.value.rotated) == r
  {
    if subs == [] then None
    else
      var plain := CanPlace(cfg, p, subs[0], false);
      if plain.Some? then plain
      else
        var turned := CanPlace(cfg, p, subs[0], true);
        if p.rotation == Rotation90Allowed && turned.Some? then turned
        else FindPlacement(cfg, p, subs[1..])
  }

  /**
   * The search fails exactly when no candidate accepts the panel in either
   * orientation, and otherwise returns the first accepted candidate.
   */
  lemma {:induction false} FindPlacementSpec(cfg: Config, p: Panel, subs: seq<SubSheet>)
    ensures var r := FindPlacement(cfg, p, subs);
      r.None? <==> forall k, rotate: bool :: 0 <= k < |subs| ==> !Accepts(cfg, p, subs[k], rotate)
    ensures var r := FindPlacement(cfg, p, subs);
      r.Some? ==> exists k :: FirstAcceptedAt(cfg, p, subs, k, r.value)
  {
    if subs != [] {
      var plain := CanPlace(cfg, p, subs[0], false);
      var turned := CanPlace(cfg, p, subs[0], true);
      if plain.Some? {
        assert FirstAcceptedAt(cfg, p, subs, 0, plain.value);
      } else if p.rotation == Rotation90Allowed && turned.Some? {
        assert FirstAcceptedAt(cfg, p, subs, 0, turned.value);
      } else {
        var r := FindPlacement(cfg, p, subs[1..]);
        FindPlacementSpec(cfg, p, subs[1..]);
        assert !Accepts(cfg, p, subs[0], false) && !Accepts(cfg, p, subs[0], true);
        if r.Some? {
          var k :| FirstAcceptedAt(cfg, p, subs[1..], k, r.value);
          assert FirstAcceptedAt(cfg, p, subs, k + 1, r.value);
        } else {
          forall k, rotate: bool | 1 <= k < |subs| ensures !Accepts(cfg, p, subs[k], rotate) {
            assert subs[k] == subs[1..][k - 1];
          }
        }
      }
    }
  }

  // ---------------------------------------------------------------- placing

  /** `list.remove(x)`: drops the first element equal to `x`, if any. */
  function RemoveFirst<T(==)>(s: seq<T>, x: T): (r: seq<T>)
    ensures x in s ==> multiset(r) == multiset(s) - multiset{x} && |r| == |s| - 1
    ensures x !in s ==> r == s
  {
    if s == [] then []
    else if s[0] == x then
      assert s == [s[0]] + s[1..];
      s[1..]
    else
      assert s == [s[0]] + s[1..];
      [s[0]] + RemoveFirst(s[1..], x)
  }

  /** The record `_place_panel` appends: the panel sits at the sub-sheet's origin. */
  function PlacedOf(pl: PanelPlacement): PlacedPanel {
    PlacedPanel(pl.panel, pl.subSheet.x, pl.subSheet.y, pl.width, pl.height,
                if pl.rotated then 90 else 0, pl.finalGrain, pl.subSheet.sheetIndex)
  }

  /** The pieces the guillotine cut of placement `pl` produces in state `run`. */
  function CutOf(cfg: Config, run: RunState, pl: PanelPlacement): seq<Piece> {
    GuillotineCut(pl.subSheet, pl.width, pl.height, cfg.kerf, cfg.preferredCut, run.nextCutId)
  }

  /**
   * `_place_panel`: record the placed panel, remove the chosen sub-sheet, then
   * append the cut lines and child sub-sheets of the guillotine cut.
   */
  function PlacePanel(cfg: Config, run: RunState, pl: PanelPlacement): (r: RunState)
    ensures r.placed == run.placed + [PlacedOf(pl)]
    ensures r.remaining == RemoveFirst(run.remaining, pl.subSheet) + Children(CutOf(cfg, run, pl))
    ensures r.cuts == run.cuts + Cuts(CutOf(cfg, run, pl))
    ensures r.nextCutId == run.nextCutId + |CutOf(cfg, run, pl)| && |CutOf(cfg, run, pl)| <= 2
    ensures r.currentSheet == run.currentSheet && r.warnings == run.warnings
  {
    var ps := CutOf(cfg, run, pl);
    RunState(
      run.placed + [PlacedOf(pl)],
      RemoveFirst(run.remaining, pl.subSheet) + Children(ps),
      run.cuts + Cuts(ps),
      run.currentSheet,
      run.nextCutId + |ps|,
      run.warnings)
  }

  /**
   * The placed record of a placement: at the sub-sheet's origin, rotated by 90
   * degrees exactly when the placement is rotated, with the panel's area and the
   * sub-sheet's sheet index.
   */
  lemma PlacedOfFacts(cfg: Config, p: Panel, sub: SubSheet, rotate: bool)
    requires CanPlace(cfg, p, sub, rotate).Some?
    ensures var pp := PlacedOf(CanPlace(cfg, p, sub, rotate).value);
      && pp.x == sub.x && pp.y == sub.y
      && (pp.rotationDegrees == 90 <==> rotate)
      && (pp.rotationDegrees == 0 <==> !rotate)
      && pp.width * pp.height == p.width * p.height
      && pp.sheetIndex == sub.sheetIndex
      && pp.panel == p
  {
  }

  /** The placement `_try_place_panel` settles on in state `run`, if any. */
  function Attempt(cfg: Config, run: RunState, p: Panel): (r: Option<PanelPlacement>)
    ensures r.Some? ==>
      && r.value.subSheet in run.remaining
      && r.value.subSheet.sheetIndex == run.currentSheet
      && r.value.panel == p
      && CanPlace(cfg, p, r.value.subSheet, r.value.rotated) == r
  {
    FindPlacement(cfg, p, CandidateSubSheets(run))
  }

  /**
   * The attempt fails exactly when no candidate sub-sheet of the current sheet
   * accepts the panel in either orientation; when it succeeds, the choice is the
   * first accepting candidate in smallest-area order, unrotated before rotated.
   */
  lemma AttemptChoice(cfg: Config, run: RunState, p: Panel)
    ensures var subs := CandidateSubSheets(run);
      Attempt(cfg, run, p).None? <==> forall k, rotate: bool :: 0 <= k < |subs| ==> !Accepts(cfg, p, subs[k], rotate)
    ensures var subs := CandidateSubSheets(run);
      Attempt(cfg, run, p).Some? ==> exists k :: FirstAcceptedAt(cfg, p, subs, k, Attempt(cfg, run, p).value)
    ensures var subs := CandidateSubSheets(run);
      forall i, j :: 0 <= i < j < |subs| ==> subs[i].Area() <= subs[j].Area()
  {
    FindPlacementSpec(cfg, p, CandidateSubSheets(run));
    CandidatesAscending(run);
  }

  /**
   * `_try_place_panel`: on success the state after the placement and true; on
   * failure the state unchanged and false.
   */
  function TryPlacePanel(cfg: Config, run: RunState, p: Panel): (r: (RunState, bool))
    ensures !r.1 ==> r.0 == run
    ensures r.1 <==> Attempt(cfg, run, p).Some?
    ensures r.1 ==> r.0 == PlacePanel(cfg, run, Attempt(cfg, run, p).value)
  {
    match Attempt(cfg, run, p)
    case None => (run, false)
    case Some(pl) => (PlacePanel(cfg, run, pl), true)
  }

  // ---------------------------------------------------------------- the run

  /**
   * One iteration of `nest`: try the current sheet; otherwise open exactly one
   * new sheet and retry once; otherwise warn.
   */
  function Step(cfg: Config, run: RunState, p: Panel): RunState {
    var first := TryPlacePanel(cfg, run, p);
    if first.1 then first.0
    else
      var second := TryPlacePanel(cfg, AddNewSheet(cfg, run), p);
      if second.1 then second.0
      else second.0.(warnings := second.0.warnings + [p])
  }

  function NestFrom(cfg: Config, run: RunState, panels: seq<Panel>): RunState
    decreases |panels|
  {
    if panels == [] then run
    else NestFrom(cfg, Step(cfg, run, panels[0]), panels[1..])
  }

  /** `nest` on a freshly constructed engine. */
  function Nest(cfg: Config, panels: seq<Panel>): RunState {
    NestFrom(cfg, AddNewSheet(cfg, Initial), SortPanels(cfg.sortStrategy, panels))
  }
}

=== FILE: beam_saw_types.dfy ===
/**
 * The records of the guillotine beam-saw nesting engine: the option enums, the
 * requested `Panel`, the free `SubSheet`, the emitted `CutLine`, the
 * `PlacedPanel` and the run configuration. Lengths are reals; the engine's fixed
 * floating-point tolerance of 1e-6 is `Epsilon`.
 */
module BeamSawTypes {
  import opened Rectangles

  /** The 1e-6 tolerance of the fit test, the cut-order tie and the cut emission. */
  const Epsilon: real := 0.000001

  datatype RotationConstraint = NoRotation | Rotation90Allowed

  datatype PanelGrainDirection = MatchSheet | FixedHorizontal | FixedVertical

  /**
   * A grain axis. It is both the sheet's grain and the final grain recorded for a
   * placed panel (the strings "Horizontal" and "Vertical" in the original).
   */
  datatype Grain = Horizontal | Vertical

  datatype CutOrientation = HorizontalCut | VerticalCut

  datatype PanelSortStrategy = LargestFirst | SmallestFirst | AreaDescending | AreaAscending

  datatype Panel = Panel(
    width: real,
    height: real,
    rotation: RotationConstraint,
    grain: PanelGrainDirection,
    id: int,
    tag: string)
  {
    function Area(): real {
      width * height
    }

    function MaxDimension(): real {
      if width >= height then width else height
    }

    function MinDimension(): real {
      if width <= height then width else height
    }
  }

  datatype PlacedPanel = PlacedPanel(
    panel: Panel,
    x: real,
    y: real,
    width: real,
    height: real,
    rotationDegrees: int,
    finalGrain: Grain,
    sheetIndex: nat)
  {
    function Footprint(): Rect {
      Rect(x, y, width, height)
    }
  }

  /** A free rectangular region of stock sheet `sheetIndex`. */
  datatype SubSheet = SubSheet(
    x: real,
    y: real,
    width: real,
    height: real,
    level: nat,
    parentCutId: int,
    sheetIndex: nat)
  {
    function Area(): real {
      width * height
    }

    function Region(): Rect {
      Rect(x, y, width, height)
    }

    /**
     * `SubSheet.can_fit`. The tolerance is permissive: a panel up to 1e-6 larger
     * than the region in either direction is accepted.
     */
    predicate CanFit(panelWidth: real, panelHeight: real) {
      panelWidth <= width + Epsilon && panelHeight <= height + Epsilon
    }
  }

  datatype CutLine = CutLine(
    id: nat,
    orientation: CutOrientation,
    position: real,
    start: real,
    end: real,
    kerf: real,
    sheetIndex: nat)

  /** A candidate the placement search accepted, before it is placed. */
  datatype PanelPlacement = PanelPlacement(
    panel: Panel,
    subSheet: SubSheet,
    rotated: bool,
    width: real,
    height: real,
    finalGrain: Grain)

  /** The constructor arguments of `BeamSawNestingAlgorithm`. */
  datatype Config = Config(
    sheetWidth: real,
    sheetHeight: real,
    sheetGrain: Grain,
    kerf: real,
    preferredCut: CutOrientation,
    sortStrategy: PanelSortStrategy)

  /**
   * The tolerance direction of `can_fit`: a panel exactly the size of the region
   * fits, and so does one that is larger by 1e-7.
   */
  lemma CanFitTolerance(s: SubSheet)
    ensures s.CanFit(s.width, s.height)
    ensures s.CanFit(s.width + 0.0000001, s.height + 0.0000001)
    ensures !s.CanFit(s.width + 0.000002, s.height)
  {
  }
}

=== FILE: free_rects.dfy ===
/**
 * The MaxRects free-rectangle bookkeeping shared by both packers:
 * `_update_free_rects` splits every free rectangle the placed rectangle hits into
 * up to four maximal pieces, and `_prune_free_rects` drops every rectangle that
 * another one contains.
 */
module FreeRects {
  import opened Rectangles

  // ------------------------------------------------------------ splitting

  function LeftPiece(rect: Rect, placed: Rect): Rect {
    Rect(rect.x, rect.y, placed.x - rect.x, rect.h)
  }

  function RightPiece(rect: Rect, placed: Rect): Rect {
    Rect(placed.x + placed.w, rect.y, rect.x + rect.w - (placed.x + placed.w), rect.h)
  }

  function BottomPiece(rect: Rect, placed: Rect): Rect {
    Rect(rect.x, rect.y, rect.w, placed.y - rect.y)
  }

  function TopPiece(rect: Rect, placed: Rect): Rect {
    Rect(rect.x, placed.y + placed.h, rect.w, rect.y + rect.h - (placed.y + placed.h))
  }

  /**
   * The pieces of `rect` left free around `placed`, in the order left, right,
   * bottom, top; a piece is produced only when `placed` leaves room on its side.
   */
  function Split(rect: Rect, placed: Rect): (r: seq<Rect>)
    ensures |r| <= 4
  {
    (if placed.x > rect.x then [LeftPiece(rect, placed)] else [])
    + (if placed.x + placed.w < rect.x + rect.w then [RightPiece(rect, placed)] else [])
    + (if placed.y > rect.y then [BottomPiece(rect, placed)] else [])
    + (if placed.y + placed.h < rect.y + rect.h then [TopPiece(rect, placed)] else [])
  }

  /**
   * Every piece of a rectangle that `placed` hits lies inside that rectangle and
   * is clear of `placed`; the pieces of a rectangle of positive size have
   * positive size.
   */
  lemma SplitPieces(rect: Rect, placed: Rect)
    requires Intersects(rect, placed)
    ensures forall q :: q in Split(rect, placed) ==>
      && Contains(rect, q) && !Intersects(q, placed)
      && (rect.w > 0.0 && rect.h > 0.0 ==> q.w > 0.0 && q.h > 0.0)
  {
    var pieces := Split(rect, placed);
    forall q | q in pieces
      ensures Contains(rect, q) && !Intersects(q, placed)
      ensures rect.w > 0.0 && rect.h > 0.0 ==> q.w > 0.0 && q.h > 0.0
    {
      if q == LeftPiece(rect, placed) && placed.x > rect.x {
      } else if q == RightPiece(rect, placed) && placed.x + placed.w < rect.x + rect.w {
      } else if q == BottomPiece(rect, placed) && placed.y > rect.y {
      } else {
        assert q == TopPiece(rect, placed) && placed.y + placed.h < rect.y + rect.h;
      }
    }
  }

  /** The pieces cover every point of `rect` that `placed` does not. */
  lemma SplitCovers(rect: Rect, placed: Rect, px: real, py: real)
    requires ContainsPoint(rect, px, py) && !ContainsPoint(placed, px, py)
    ensures exists q :: q in Split(rect, placed) && ContainsPoint(q, px, py)
  {
    var pieces := Split(rect, placed);
    if px < placed.x {
      assert LeftPiece(rect, placed) in pieces;
      assert ContainsPoint(LeftPiece(rect, placed), px, py);
    } else if px >= placed.x + placed.w {
      assert RightPiece(rect, placed) in pieces;
      assert ContainsPoint(RightPiece(rect, placed), px, py);
    } else if py < placed.y {
      assert BottomPiece(rect, placed) in pieces;
      assert ContainsPoint(BottomPiece(rect, placed), px, py);
    } else {
      assert TopPiece(rect, placed) in pieces;
      assert ContainsPoint(TopPiece(rect, placed), px, py);
    }
  }

  /** What one free rectangle turns into: itself when `placed` misses it, else its pieces. */
  function Block(rect: Rect, placed: Rect): seq<Rect> {
    if !Intersects(rect, placed) then [rect] else Split(rect, placed)
  }

  /**
   * `_update_free_rects`: a free rectangle clear of `placed` is kept as it is,
   * one that `placed` hits is replaced by its pieces (before the prune).
   */
  function UpdateFreeRects(rects: seq<Rect>, placed: Rect): (r: seq<Rect>)
    ensures forall q :: q in r ==> !Intersects(q, placed) && exists s :: s in rects && Contains(s, q)
    ensures forall s :: s in rects && !Intersects(s, placed) ==> s in r
    ensures (forall s :: s in rects ==> s.w > 0.0 && s.h > 0.0) ==> forall q :: q in r ==> q.w > 0.0 && q.h > 0.0
  {
    if rects == [] then []
    else
      var rest := UpdateFreeRects(rects[1..], placed);
      var rect := rects[0];
      if !Intersects(rect, placed) then
        ContainsReflexive(rect);
        Block(rect, placed) + rest
      else
        SplitPieces(rect, placed);
        Block(rect, placed) + rest
  }

  /** Every output rectangle comes from the block of some input rectangle. */
  lemma {:induction false} UpdateOrigin(rects: seq<Rect>, placed: Rect, q: Rect)
    requires q in UpdateFreeRects(rects, placed)
    ensures exists s :: s in rects && q in Block(s, placed)
  {
    if q !in Block(rects[0], placed) {
      UpdateOrigin(rects[1..], placed, q);
      var s :| s in rects[1..] && q in Block(s, placed);
      assert s in rects;
    }
  }

  /**
   * The update loses no free space: every point of a free rectangle that the
   * placed rectangle does not cover still lies in some free rectangle.
   */
  lemma {:induction false} UpdateCovers(rects: seq<Rect>, placed: Rect, px: real, py: real)
    requires exists s :: s in rects && ContainsPoint(s, px, py)
    requires !ContainsPoint(placed, px, py)
    ensures exists q :: q in UpdateFreeRects(rects, placed) && ContainsPoint(q, px, py)
  {
    var rect := rects[0];
    var r := UpdateFreeRects(rects, placed);
    var rest := UpdateFreeRects(rects[1..], placed);
    if ContainsPoint(rect, px, py) {
      if !Intersects(rect, placed) {
        assert rect in r;
      } else {
        SplitCovers(rect, placed, px, py);
        var q :| q in Split(rect, placed) && ContainsPoint(q, px, py);
        assert q in r;
      }
    } else {
      var s :| s in rects && ContainsPoint(s, px, py);
      assert s in rects[1..];
      UpdateCovers(rects[1..], placed, px, py);
      var q :| q in rest && ContainsPoint(q, px, py);
      assert q in r;
    }
  }

  // ------------------------------------------------------------ pruning

  /** Some rectangle at another index contains `rects[i]`. */
  predicate ContainedByOther(rects: seq<Rect>, i: nat)
    requires i < |rects|
  {
    exists j :: 0 <= j < |rects| && j != i && Contains(rects[j], rects[i])
  }

  /** The loop of `_prune_free_rects` from index `i` on. */
  function PruneFrom(rects: seq<Rect>, i: nat): seq<Rect>
    requires i <= |rects|
    decreases |rects| - i
  {
    if i == |rects| then []
    else (if ContainedByOther(rects, i) then [] else [rects[i]]) + PruneFrom(rects, i + 1)
  }

  /** `_prune_free_rects`. */
  function Prune(rects: seq<Rect>): seq<Rect> {
    if |rects| <= 1 then rects else PruneFrom(rects, 0)
  }

  /** The indices from `i` on whose rectangle no other index contains, in increasing order. */
  function KeptFrom(rects: seq<Rect>, i: nat): (r: seq<nat>)
    requires i <= |rects|
    ensures forall k :: 0 <= k < |r| ==> i <= r[k] < |rects| && !ContainedByOther(rects, r[k])
    ensures forall k, l :: 0 <= k < l < |r| ==> r[k] < r[l]
    ensures forall j :: i <= j < |rects| && !ContainedByOther(rects, j) ==> j in r
    decreases |rects| - i
  {
    if i == |rects| then []
    else (if ContainedByOther(rects, i) then [] else [i]) + KeptFrom(rects, i + 1)
  }

  /** One step of the prune loop keeps the result and the index list in step. */
  lemma KeepStep(rects: seq<Rect>, i: nat, dropped: bool, rest: seq<Rect>, keptRest: seq<nat>)
    requires i < |rects|
    requires |rest| == |keptRest| && forall k :: 0 <= k < |keptRest| ==> keptRest[k] < |rects| && rest[k] == rects[keptRest[k]]
    ensures var out := (if dropped then [] else [rects[i]]) + rest;
      var kept := (if dropped then [] else [i]) + keptRest;
      |out| == |kept| && forall k :: 0 <= k < |kept| ==> out[k] == rects[kept[k]]
  {
  }

  lemma {:induction false} PruneFromIsKept(rects: seq<Rect>, i: nat)
    requires i <= |rects|
    ensures var kept := KeptFrom(rects, i);
      |PruneFrom(rects, i)| == |kept| && forall k :: 0 <= k < |kept| ==> PruneFrom(rects, i)[k] == rects[kept[k]]
    decreases |rects| - i
  {
    if i < |rects| {
      PruneFromIsKept(rects, i + 1);
      KeepStep(rects, i, ContainedByOther(rects, i), PruneFrom(rects, i + 1), KeptFrom(rects, i + 1));
    }
  }

  /**
   * The prune keeps, in their input order, exactly the rectangles that no
   * rectangle at another index contains: the result is the input restricted to
   * the increasing index list `KeptFrom(rects, 0)`.
   */
  lemma PruneSpec(rects: seq<Rect>)
    ensures var kept := KeptFrom(rects, 0);
      && |Prune(rects)| == |kept|
      && (forall k :: 0 <= k < |kept| ==> Prune(rects)[k] == rects[kept[k]])
      && (forall k, l :: 0 <= k < l < |kept| ==> kept[k] < kept[l])
      && (forall i :: 0 <= i < |rects| ==> (i in kept <==> !ContainedByOther(rects, i)))
  {
    var kept := KeptFrom(rects, 0);
    PruneFromIsKept(rects, 0);
    if |rects| <= 1 {
      if |rects| == 1 {
        assert !ContainedByOther(rects, 0);
        assert 0 in kept;
        assert kept == [0];
      }
    }
  }

  /** Every rectangle the prune keeps comes from the input. */
  lemma PruneSubset(rects: seq<Rect>)
    ensures forall q :: q in Prune(rects) ==> q in rects
  {
    PruneSpec(rects);
    var kept := KeptFrom(rects, 0);
    forall q | q in Prune(rects) ensures q in rects {
      var k :| 0 <= k < |Prune(rects)| && Prune(rects)[k] == q;
      assert q == rects[kept[k]];
    }
  }

  /** No rectangle contains one at another index. */
  predicate Antichain(rects: seq<Rect>) {
    forall k, l :: 0 <= k < |rects| && 0 <= l < |rects| && k != l ==> !Contains(rects[l], rects[k])
  }

  /** No rectangle the prune keeps contains another one it keeps. */
  lemma PruneAntichain(rects: seq<Rect>)
    ensures Antichain(Prune(rects))
  {
    PruneSpec(rects);
    var kept := KeptFrom(rects, 0);
    var r := Prune(rects);
    forall k, l | 0 <= k < |r| && 0 <= l < |r| && k != l ensures !Contains(r[l], r[k]) {
      assert kept[k] != kept[l] by {
        if k < l { assert kept[k] < kept[l]; } else { assert kept[l] < kept[k]; }
      }
      assert !ContainedByOther(rects, kept[k]);
    }
  }

  /**
   * Two identical rectangles at different indices contain each other, so the
   * prune drops both.
   */
  lemma PruneDropsIdentical(rects: seq<Rect>, i: nat, j: nat)
    requires i < |rects| && j < |rects| && i != j && rects[i] == rects[j]
    ensures rects[i] !in Prune(rects)
  {
    PruneSpec(rects);
    var kept := KeptFrom(rects, 0);
    ContainsReflexive(rects[i]);
    forall m | 0 <= m < |rects| && rects[m] == rects[i] ensures ContainedByOther(rects, m) {
      var other := if m == i then j else i;
      assert Contains(rects[other], rects[m]);
    }
    forall k | 0 <= k < |Prune(rects)| ensures Prune(rects)[k] != rects[i] {
      assert !ContainedByOther(rects, kept[k]);
    }
  }

  /** No rectangle occurs twice. */
  predicate Distinct(rects: seq<Rect>) {
    forall i, j :: 0 <= i < j < |rects| ==> rects[i] != rects[j]
  }

  /** The other indices whose rectangle contains `rects[i]`. */
  function Containers(rects: seq<Rect>, i: nat): set<nat>
    requires i < |rects|
  {
    set k: nat | k < |rects| && k != i && Contains(rects[k], rects[i])
  }

  /**
   * In a list without repeats, every rectangle lies inside one that no other
   * contains: following containers strictly shrinks the set of containers.
   */
  lemma {:induction false} KeptContainer(rects: seq<Rect>, i: nat) returns (m: nat)
    requires Distinct(rects) && i < |rects|
    ensures m < |rects| && !ContainedByOther(rects, m) && Contains(rects[m], rects[i])
    decreases |Containers(rects, i)|
  {
    if !ContainedByOther(rects, i) {
      ContainsReflexive(rects[i]);
      return i;
    }
    var j :| 0 <= j < |rects| && j != i && Contains(rects[j], rects[i]);
    assert Containers(rects, j) < Containers(rects, i) by {
      forall k | k in Containers(rects, j) ensures k in Containers(rects, i) {
        ContainsTransitive(rects[k], rects[j], rects[i]);
        if k == i {
          assert false;
        }
      }
      assert j in Containers(rects, i) && j !in Containers(rects, j);
    }
    CardinalityShrinks(Containers(rects, j), Containers(rects, i));
    m := KeptContainer(rects, j);
    ContainsTransitive(rects[m], rects[j], rects[i]);
  }

  lemma CardinalityShrinks(a: set<nat>, b: set<nat>)
    requires a < b
    ensures |a| < |b|
  {
    var x :| x in b && x !in a;
    assert a <= b - {x};
    assert |b - {x}| == |b| - 1;
    SubsetCardinality(a, b - {x});
  }

  lemma {:induction false} SubsetCardinality(a: set<nat>, b: set<nat>)
    requires a <= b
    ensures |a| <= |b|
    decreases b
  {
    if a != {} {
      var x :| x in a;
      SubsetCardinality(a - {x}, b - {x});
    }
  }

  /**
   * Pruning a list without repeats loses no free space: a point of some input
   * rectangle lies in some kept rectangle.
   */
  lemma PruneCovers(rects: seq<Rect>, px: real, py: real)
    requires Distinct(rects)
    requires exists s :: s in rects && ContainsPoint(s, px, py)
    ensures exists q :: q in Prune(rects) && ContainsPoint(q, px, py)
  {
    var s :| s in rects && ContainsPoint(s, px, py);
    var i :| 0 <= i < |rects| && rects[i] == s;
    var m := KeptContainer(rects, i);
    PruneSpec(rects);
    var kept := KeptFrom(rects, 0);
    assert m in kept;
    var k :| 0 <= k < |kept| && kept[k] == m;
    assert Prune(rects)[k] == rects[m];
    assert ContainsPoint(rects[m], px, py);
  }

  // ------------------------------------------------------------ no repeats

  lemma AntichainDistinct(rects: seq<Rect>)
    requires Antichain(rects)
    ensures Distinct(rects)
  {
    forall i, j | 0 <= i < j < |rects| ensures rects[i] != rects[j] {
      ContainsReflexive(rects[i]);
      assert !Contains(rects[j], rects[i]);
    }
  }

  /** The pieces of one rectangle are pairwise different. */
  lemma SplitDistinct(rect: Rect, placed: Rect)
    requires Intersects(rect, placed)
    ensures Distinct(Split(rect, placed))
  {
  }

  /**
   * Two rectangles that `placed` hits and neither of which contains the other
   * have no piece in common. A common piece would be the same kind of piece of
   * both (a left piece of one is never a bottom piece of the other, since that
   * would put the other rectangle's edge on `placed`'s edge), so the two would
   * share three edges and one would contain the other.
   */
  lemma PiecesDisjoint(a: Rect, b: Rect, placed: Rect)
    requires Intersects(a, placed) && Intersects(b, placed)
    requires !Contains(a, b) && !Contains(b, a)
    ensures forall q :: q in Split(b, placed) ==> q !in Split(a, placed)
  {
    var pa := [LeftPiece(a, placed), RightPiece(a, placed), BottomPiece(a, placed), TopPiece(a, placed)];
    forall q | q in Split(b, placed) ensures q !in pa {
    }
  }

  /** Rectangles neither of which contains the other produce no common rectangle. */
  lemma BlocksDisjoint(a: Rect, b: Rect, placed: Rect)
    requires !Contains(a, b) && !Contains(b, a)
    ensures forall q :: q in Block(b, placed) ==> q !in Block(a, placed)
  {
    ContainsReflexive(a);
    if Intersects(a, placed) {
      SplitPieces(a, placed);
    }
    if Intersects(b, placed) {
      SplitPieces(b, placed);
    }
    if Intersects(a, placed) && Intersects(b, placed) {
      PiecesDisjoint(a, b, placed);
    }
  }

  lemma DistinctAppend(a: seq<Rect>, b: seq<Rect>)
    requires Distinct(a) && Distinct(b)
    requires forall q :: q in b ==> q !in a
    ensures Distinct(a + b)
  {
    var c := a + b;
    forall i, j | 0 <= i < j < |c| ensures c[i] != c[j] {
      if j >= |a| && i < |a| {
        assert c[j] == b[j - |a|] && c[j] in b;
        assert c[i] in a;
      } else if i >= |a| {
        assert c[i] == b[i - |a|] && c[j] == b[j - |a|];
      }
    }
  }

  /**
   * The update of a list in which no rectangle contains another never produces
   * the same rectangle twice, so the prune after it cannot drop both copies of a
   * repeated rectangle.
   */
  lemma {:induction false} UpdateDistinct(rects: seq<Rect>, placed: Rect)
    requires Antichain(rects)
    ensures Distinct(UpdateFreeRects(rects, placed))
  {
    if rects != [] {
      var r0 := rects[0];
      var rest := rects[1..];
      assert Antichain(rest) by {
        forall k, l | 0 <= k < |rest| && 0 <= l < |rest| && k != l ensures !Contains(rest[l], rest[k]) {
          assert rest[l] == rects[l + 1] && rest[k] == rects[k + 1];
        }
      }
      UpdateDistinct(rest, placed);
      if Intersects(r0, placed) {
        SplitDistinct(r0, placed);
      }
      forall q | q in UpdateFreeRects(rest, placed) ensures q !in Block(r0, placed) {
        UpdateOrigin(rest, placed, q);
        var s :| s in rest && q in Block(s, placed);
        var j :| 0 <= j < |rest| && rest[j] == s;
        assert rects[j + 1] == s;
        assert !Contains(rects[0], rects[j + 1]) && !Contains(rects[j + 1], rects[0]);
        BlocksDisjoint(r0, s, placed);
      }
      DistinctAppend(Block(r0, placed), UpdateFreeRects(rest, placed));
    }
  }
}

=== FILE: grain.dfy ===
/**
 * Grain validation of a candidate orientation (`_validate_grain_direction`).
 */
module GrainRules {
  import opened Optional
  import opened BeamSawTypes

  /**
   * The candidate orientation runs along the horizontal grain when its effective
   * width is at least its effective height. A square counts as horizontal in both
   * orientations.
   */
  predicate IsHorizontal(p: Panel, rotated: bool) {
    (!rotated && p.width >= p.height) || (rotated && p.height >= p.width)
  }

  /** The grain a placed panel ends up with, whatever the orientation. */
  function TargetGrain(constraint: PanelGrainDirection, sheetGrain: Grain): Grain {
    match constraint
    case MatchSheet => sheetGrain
    case FixedHorizontal => Horizontal
    case FixedVertical => Vertical
  }

  /**
   * `_validate_grain_direction`: the final grain, or `None` when the candidate
   * orientation contradicts the panel's grain constraint.
   */
  function ValidateGrain(p: Panel, rotated: bool, sheetGrain: Grain): (r: Option<Grain>)
    ensures r.Some? ==> r.value == TargetGrain(p.grain, sheetGrain)
    ensures r.Some? <==> (IsHorizontal(p, rotated) <==> TargetGrain(p.grain, sheetGrain) == Horizontal)
  {
    var isHorizontal := IsHorizontal(p, rotated);
    match p.grain
    case MatchSheet =>
      if sheetGrain == Horizontal && !isHorizontal then None
      else if sheetGrain == Vertical && isHorizontal then None
      else
        assert sheetGrain.Horizontal? || sheetGrain.Vertical?;
        Some(sheetGrain)
    case FixedHorizontal =>
      if !isHorizontal then None else Some(Horizontal)
    case FixedVertical =>
      if isHorizontal then None else Some(Vertical)
  }

  /** A square panel is horizontal both unrotated and rotated. */
  lemma SquareIsHorizontal(p: Panel)
    requires p.width == p.height
    ensures IsHorizontal(p, false) && IsHorizontal(p, true)
  {
  }

  /** For a non-square panel, rotating flips the classification. */
  lemma RotationFlipsClassification(p: Panel)
    requires p.width != p.height
    ensures IsHorizontal(p, true) <==> !IsHorizontal(p, false)
  {
  }

  /**
   * Of the two orientations of a non-square panel exactly one passes the grain
   * check; a square panel passes both or neither.
   */
  lemma ExactlyOneOrientationPasses(p: Panel, sheetGrain: Grain)
    ensures p.width != p.height ==>
      (ValidateGrain(p, false, sheetGrain).Some? <==> !ValidateGrain(p, true, sheetGrain).Some?)
    ensures p.width == p.height ==>
      (ValidateGrain(p, false, sheetGrain).Some? <==> ValidateGrain(p, true, sheetGrain).Some?)
  {
  }

  /** A square panel with a vertical target grain is rejected in both orientations. */
  lemma SquareNeverVertical(p: Panel, rotated: bool, sheetGrain: Grain)
    requires p.width == p.height
    requires TargetGrain(p.grain, sheetGrain) == Vertical
    ensures ValidateGrain(p, rotated, sheetGrain).None?
  {
  }
}

=== FILE: guillotine.dfy ===
/**
 * The guillotine cut of `_perform_guillotine_cut`: after a panel of
 * `usedWidth x usedHeight` is placed at the lower-left corner of a sub-sheet,
 * at most two straight cuts free the material to its top and to its right, each
 * producing one child sub-sheet that starts one kerf past its cut.
 */
module Guillotine {
  import opened Rectangles
  import opened BeamSawTypes

  /** One emitted cut together with the child sub-sheet it frees. */
  datatype Piece = Piece(cut: CutLine, child: SubSheet)

  function Abs(v: real): real {
    if v >= 0.0 then v else -v
  }

  function RemainingWidth(sub: SubSheet, usedWidth: real, kerf: real): real {
    sub.width - usedWidth - kerf
  }

  function RemainingHeight(sub: SubSheet, usedHeight: real, kerf: real): real {
    sub.height - usedHeight - kerf
  }

  /**
   * The cut-order decision: the first cut runs along the axis with more leftover
   * material; within 1e-6 the preferred orientation decides.
   */
  function HorizontalFirst(remainingWidth: real, remainingHeight: real, preferred: CutOrientation): (r: bool)
    ensures r ==> remainingHeight >= remainingWidth - Epsilon
    ensures !r ==> remainingWidth >= remainingHeight - Epsilon
    ensures Abs(remainingWidth - remainingHeight) > Epsilon ==> (r <==> remainingHeight > remainingWidth)
    ensures Abs(remainingWidth - remainingHeight) <= Epsilon ==> (r <==> preferred == HorizontalCut)
  {
    var horizontalFirst := preferred == HorizontalCut;
    if Abs(remainingWidth - remainingHeight) > Epsilon then remainingHeight > remainingWidth
    else horizontalFirst
  }

  /**
   * A horizontal cut at `sub.y + usedHeight` spanning `span` from `sub.x`, and the
   * sub-sheet above it.
   */
  function HorizontalPiece(sub: SubSheet, usedHeight: real, span: real, kerf: real, id: nat): Piece {
    var cutY := sub.y + usedHeight;
    Piece(
      CutLine(id, HorizontalCut, cutY, sub.x, sub.x + span, kerf, sub.sheetIndex),
      SubSheet(sub.x, cutY + kerf, span, RemainingHeight(sub, usedHeight, kerf), sub.level + 1, id, sub.sheetIndex))
  }

  /**
   * A vertical cut at `sub.x + usedWidth` spanning `span` from `sub.y`, and the
   * sub-sheet to its right.
   */
  function VerticalPiece(sub: SubSheet, usedWidth: real, span: real, kerf: real, id: nat): Piece {
    var cutX := sub.x + usedWidth;
    Piece(
      CutLine(id, VerticalCut, cutX, sub.y, sub.y + span, kerf, sub.sheetIndex),
      SubSheet(cutX + kerf, sub.y, RemainingWidth(sub, usedWidth, kerf), span, sub.level + 1, id, sub.sheetIndex))
  }

  /** The cuts of a list of pieces, in emission order. */
  function Cuts(ps: seq<Piece>): (r: seq<CutLine>)
    ensures |r| == |ps| && forall k :: 0 <= k < |ps| ==> r[k] == ps[k].cut
  {
    if ps == [] then [] else [ps[0].cut] + Cuts(ps[1..])
  }

  /** The child sub-sheets of a list of pieces, in emission order. */
  function Children(ps: seq<Piece>): (r: seq<SubSheet>)
    ensures |r| == |ps| && forall k :: 0 <= k < |ps| ==> r[k] == ps[k].child
  {
    if ps == [] then [] else [ps[0].child] + Children(ps[1..])
  }

  /** A cut-and-child `Piece` is emitted only when its remaining dimension exceeds 1e-6. */
  function EmitIf(remaining: real, p: Piece): seq<Piece> {
    if remaining > Epsilon then [p] else []
  }

  /**
   * `_perform_guillotine_cut`, with the cut ids starting at `nextId`. The cut in
   * the leading orientation spans the whole sub-sheet; the other one spans only
   * the strip the panel occupies.
   */
  function GuillotineCut(sub: SubSheet, usedWidth: real, usedHeight: real, kerf: real,
                         preferred: CutOrientation, nextId: nat): (r: seq<Piece>)
    ensures var rw := RemainingWidth(sub, usedWidth, kerf);
            var rh := RemainingHeight(sub, usedHeight, kerf);
            |r| == (if rw > Epsilon then 1 else 0) + (if rh > Epsilon then 1 else 0)
    ensures forall k :: 0 <= k < |r| ==>
      && r[k].cut.id == nextId + k
      && r[k].child.parentCutId == r[k].cut.id
      && r[k].child.level == sub.level + 1
      && r[k].child.sheetIndex == sub.sheetIndex
      && r[k].cut.sheetIndex == sub.sheetIndex
      && r[k].cut.kerf == kerf
    ensures |r| == 2 ==> r[0].cut.orientation != r[1].cut.orientation
  {
    var rw := RemainingWidth(sub, usedWidth, kerf);
    var rh := RemainingHeight(sub, usedHeight, kerf);
    if HorizontalFirst(rw, rh, preferred) then
      var top := EmitIf(rh, HorizontalPiece(sub, usedHeight, sub.width, kerf, nextId));
      top + EmitIf(rw, VerticalPiece(sub, usedWidth, usedHeight, kerf, nextId + |top|))
    else
      var right := EmitIf(rw, VerticalPiece(sub, usedWidth, sub.height, kerf, nextId));
      right + EmitIf(rh, HorizontalPiece(sub, usedHeight, usedWidth, kerf, nextId + |right|))
  }

  /** Whether the cut in orientation `o` is the leading, full-span one. */
  predicate Leads(o: CutOrientation, sub: SubSheet, usedWidth: real, usedHeight: real, kerf: real,
                  preferred: CutOrientation) {
    var hf := HorizontalFirst(RemainingWidth(sub, usedWidth, kerf), RemainingHeight(sub, usedHeight, kerf), preferred);
    (o == HorizontalCut) == hf
  }

  /**
   * Cut spans and child placement. A horizontal cut sits at `sub.y + usedHeight`
   * and a vertical one at `sub.x + usedWidth`; the leading cut spans the full
   * width (horizontal) or full height (vertical) of the sub-sheet and the other
   * cut spans exactly the used strip. Every child starts one kerf past its cut,
   * is as long as its cut and reaches the far edge of the sub-sheet. If both cuts
   * are emitted, the leading one comes first.
   */
  lemma CutSpans(sub: SubSheet, usedWidth: real, usedHeight: real, kerf: real,
                 preferred: CutOrientation, nextId: nat)
    ensures var r := GuillotineCut(sub, usedWidth, usedHeight, kerf, preferred, nextId);
      forall k :: 0 <= k < |r| ==>
        var c := r[k].cut;
        var ch := r[k].child;
        var full := Leads(c.orientation, sub, usedWidth, usedHeight, kerf, preferred);
        && (c.orientation == HorizontalCut ==>
              && RemainingHeight(sub, usedHeight, kerf) > Epsilon
              && c.position == sub.y + usedHeight
              && c.start == sub.x
              && c.end - c.start == (if full then sub.width else usedWidth)
              && ch.x == sub.x && ch.y == c.position + kerf
              && ch.width == c.end - c.start
              && ch.y + ch.height == sub.y + sub.height)
        && (c.orientation == VerticalCut ==>
              && RemainingWidth(sub, usedWidth, kerf) > Epsilon
              && c.position == sub.x + usedWidth
              && c.start == sub.y
              && c.end - c.start == (if full then sub.height else usedHeight)
              && ch.y == sub.y && ch.x == c.position + kerf
              && ch.height == c.end - c.start
              && ch.x + ch.width == sub.x + sub.width)
    ensures var r := GuillotineCut(sub, usedWidth, usedHeight, kerf, preferred, nextId);
      |r| == 2 ==> Leads(r[0].cut.orientation, sub, usedWidth, usedHeight, kerf, preferred)
  {
  }

  /** The footprint of the placed panel: the used corner of the sub-sheet. */
  function UsedRegion(sub: SubSheet, usedWidth: real, usedHeight: real): Rect {
    Rect(sub.x, sub.y, usedWidth, usedHeight)
  }

  /**
   * With a non-negative kerf, every child lies inside the sub-sheet, is apart from
   * the placed panel's footprint and from the other child, and has positive size.
   * This holds even though the fit test lets the panel exceed the sub-sheet by up
   * to 1e-6: a child on the side of an overhang is never emitted.
   */
  lemma {:induction false} ChildrenInsideAndApart(sub: SubSheet, usedWidth: real, usedHeight: real, kerf: real,
                                                  preferred: CutOrientation, nextId: nat)
    requires kerf >= 0.0 && usedWidth > 0.0 && usedHeight > 0.0
    requires sub.width > 0.0 && sub.height > 0.0
    ensures var r := GuillotineCut(sub, usedWidth, usedHeight, kerf, preferred, nextId);
      && (forall k :: 0 <= k < |r| ==>
            && Contains(sub.Region(), r[k].child.Region())
            && !Intersects(r[k].child.Region(), UsedRegion(sub, usedWidth, usedHeight))
            && r[k].child.width > 0.0 && r[k].child.height > 0.0)
      && (|r| == 2 ==> !Intersects(r[0].child.Region(), r[1].child.Region()))
  {
    var rw := RemainingWidth(sub, usedWidth, kerf);
    var rh := RemainingHeight(sub, usedHeight, kerf);
    var hf := HorizontalFirst(rw, rh, preferred);
    if hf {
      // a right child exists only if rw > 1e-6, and then rh > 0, so usedHeight < sub.height
      assert rw > Epsilon ==> usedHeight < sub.height;
    } else {
      assert rh > Epsilon ==> usedWidth < sub.width;
    }
  }

  /** A region enlarged by the fit tolerance on its far sides: where a panel placed in it can reach. */
  function Reach(r: Rect): Rect {
    Rect(r.x, r.y, r.w + Epsilon, r.h + Epsilon)
  }

  /**
   * With a kerf of at least 1e-6, panels later placed in the children (which may
   * overhang a child by up to 1e-6) can neither reach the placed panel nor each
   * other: the kerf gap absorbs the tolerance.
   */
  lemma {:induction false} ChildrenReachApart(sub: SubSheet, usedWidth: real, usedHeight: real, kerf: real,
                                              preferred: CutOrientation, nextId: nat)
    requires kerf >= Epsilon && usedWidth > 0.0 && usedHeight > 0.0
    ensures var r := GuillotineCut(sub, usedWidth, usedHeight, kerf, preferred, nextId);
      && (forall k :: 0 <= k < |r| ==>
            !Intersects(Reach(r[k].child.Region()), UsedRegion(sub, usedWidth, usedHeight)))
      && (|r| == 2 ==> !Intersects(Reach(r[0].child.Region()), Reach(r[1].child.Region())))
  {
    var rw := RemainingWidth(sub, usedWidth, kerf);
    var rh := RemainingHeight(sub, usedHeight, kerf);
    if HorizontalFirst(rw, rh, preferred) {
      assert rw > Epsilon ==> usedHeight < sub.height;
    } else {
      assert rh > Epsilon ==> usedWidth < sub.width;
    }
  }
}

=== FILE: hybrid.dfy ===
/**
 * The placement search of the hybrid packer: candidate positions from the
 * skyline and from the corners of placed panels, sorted bottom-left first and
 * sampled down to 50, then the position and orientation with the lowest top
 * edge win. The skyline itself is maintained by code outside this model, so it
 * enters as a parameter.
 */
module HybridPacker {
  import opened Sorting
  import opened KerfPanels
  import opened PackingSheet

  /** A skyline segment `(x, y, width)`. */
  datatype Segment = Segment(x: real, y: real, w: real)

  /** How many skyline segments contribute positions. */
  const SkylineScan: nat := 30

  /** The most positions `try_add_panel` tries. */
  const MaxPositions: nat := 50

  type Position = (real, real)

  // ------------------------------------------------------------ positions

  /** A segment offers its left end, and its right end when that is left of the sheet edge. */
  predicate Offers(s: Sheet, g: Segment, pos: Position) {
    pos == (g.x, g.y) || (g.x + g.w < s.w && pos == (g.x + g.w, g.y))
  }

  /** The positions the skyline segments offer, segment by segment. */
  function SkylinePositions(s: Sheet, segments: seq<Segment>): (r: seq<Position>)
    ensures forall pos :: pos in r <==> exists k :: 0 <= k < |segments| && Offers(s, segments[k], pos)
  {
    if segments == [] then []
    else
      var g := segments[0];
      var rest := SkylinePositions(s, segments[1..]);
      assert forall k :: 1 <= k < |segments| ==> segments[k] == segments[1..][k - 1];
      [(g.x, g.y)] + (if g.x + g.w < s.w then [(g.x + g.w, g.y)] else []) + rest
  }

  /** The five positions a placed panel offers: right, top, top-right, left edge, bottom edge. */
  function Corners(pl: Placement, kerf: real): seq<Position> {
    var right := pl.x + PlacedWidth(pl.panel, kerf);
    var top := pl.y + PlacedHeight(pl.panel, kerf);
    [(right, pl.y), (pl.x, top), (right, top), (0.0, top), (right, 0.0)]
  }

  function CornerPositions(panels: seq<Placement>, kerf: real): (r: seq<Position>)
    ensures forall pos :: pos in r <==> exists k :: 0 <= k < |panels| && pos in Corners(panels[k], kerf)
  {
    if panels == [] then []
    else
      var rest := CornerPositions(panels[1..], kerf);
      assert forall k :: 1 <= k < |panels| ==> panels[k] == panels[1..][k - 1];
      Corners(panels[0], kerf) + rest
  }

  /** Every position the two strategies collect, repeats included. */
  function RawPositions(s: Sheet, skyline: seq<Segment>, kerf: real): seq<Position> {
    var scanned := if |skyline| <= SkylineScan then skyline else skyline[..SkylineScan];
    SkylinePositions(s, scanned) + CornerPositions(s.panels, kerf)
  }

  /** The bounds filter: on the sheet, the far edges excluded. */
  predicate OnSheet(s: Sheet, pos: Position) {
    pos.0 >= 0.0 && pos.1 >= 0.0 && pos.0 < s.w && pos.1 < s.h
  }

  function KeepOnSheet(s: Sheet, xs: seq<Position>): (r: seq<Position>)
    ensures forall pos :: pos in r <==> pos in xs && OnSheet(s, pos)
  {
    if xs == [] then []
    else
      var rest := KeepOnSheet(s, xs[1..]);
      assert forall pos :: pos in xs <==> pos == xs[0] || pos in xs[1..];
      (if OnSheet(s, xs[0]) then [xs[0]] else []) + rest
  }

  predicate NoRepeats(xs: seq<Position>) {
    forall i, j :: 0 <= i < j < |xs| ==> xs[i] != xs[j]
  }

  /** The positions as a set: each one once. */
  function Dedup(xs: seq<Position>): (r: seq<Position>)
    ensures forall pos :: pos in r <==> pos in xs
    ensures NoRepeats(r)
    decreases |xs|
  {
    if xs == [] then []
    else
      var init := xs[..|xs| - 1];
      var last := xs[|xs| - 1];
      var d := Dedup(init);
      assert forall pos :: pos in xs <==> pos in init || pos == last by {
        assert xs == init + [last];
      }
      if last in d then d else d + [last]
  }

  /** `(y, x)`: the bottom-left order. */
  function PositionKey(pos: Position): SortKey {
    SortKey(pos.1, pos.0)
  }

  /**
   * `get_candidate_positions`: the origin on an empty sheet; otherwise the
   * collected positions that lie on the sheet, each once, sorted by `(y, x)`.
   */
  function CandidatePositions(s: Sheet, skyline: seq<Segment>, kerf: real): (r: seq<Position>)
    ensures s.panels == [] ==> r == [(0.0, 0.0)]
    ensures s.panels != [] ==> forall pos :: pos in r <==> pos in RawPositions(s, skyline, kerf) && OnSheet(s, pos)
  {
    if s.panels == [] then [(0.0, 0.0)]
    else
      var d := Dedup(KeepOnSheet(s, RawPositions(s, skyline, kerf)));
      var r := SortBy(d, PositionKey, false);
      assert forall pos :: pos in r <==> pos in d by {
        forall pos ensures pos in r <==> pos in d {
          assert pos in r <==> pos in multiset(r);
          assert pos in d <==> pos in multiset(d);
        }
      }
      r
  }

  lemma {:induction false} NoRepeatsCounts(xs: seq<Position>)
    requires NoRepeats(xs)
    ensures forall pos :: multiset(xs)[pos] <= 1
    decreases |xs|
  {
    if xs != [] {
      var init := xs[..|xs| - 1];
      var last := xs[|xs| - 1];
      assert NoRepeats(init) by {
        forall i, j | 0 <= i < j < |init| ensures init[i] != init[j] {
          assert init[i] == xs[i] && init[j] == xs[j];
        }
      }
      NoRepeatsCounts(init);
      assert xs == init + [last];
      assert last !in init by {
        forall i | 0 <= i < |init| ensures init[i] != last {
          assert init[i] == xs[i];
        }
      }
    }
  }

  lemma CountsNoRepeats(xs: seq<Position>)
    requires forall pos :: multiset(xs)[pos] <= 1
    ensures NoRepeats(xs)
  {
    forall i, j | 0 <= i < j < |xs| ensures xs[i] != xs[j] {
      var front := xs[..j];
      var back := xs[j..];
      assert xs == front + back;
      assert xs[i] == front[i];
      assert xs[j] == back[0];
      assert multiset(xs)[xs[j]] == multiset(front)[xs[j]] + multiset(back)[xs[j]];
      assert multiset(back)[xs[j]] >= 1;
      assert multiset(front)[xs[i]] >= 1;
    }
  }

  /** Sorting a list without repeats gives an ordered list without repeats. */
  lemma SortedNoRepeats(d: seq<Position>)
    requires NoRepeats(d)
    ensures NoRepeats(SortBy(d, PositionKey, false)) && Ordered(SortBy(d, PositionKey, false), PositionKey, false)
  {
    SortByOrdered(d, PositionKey, false);
    NoRepeatsCounts(d);
    CountsNoRepeats(SortBy(d, PositionKey, false));
  }

  /**
   * The candidate positions are strictly increasing in `(y, x)`: bottom-most
   * first, left-most among equal heights, and no position twice.
   */
  lemma CandidatePositionsIncreasing(s: Sheet, skyline: seq<Segment>, kerf: real)
    ensures var r := CandidatePositions(s, skyline, kerf);
      forall i, j :: 0 <= i < j < |r| ==> r[i].1 < r[j].1 || (r[i].1 == r[j].1 && r[i].0 < r[j].0)
  {
    if s.panels != [] {
      var d := Dedup(KeepOnSheet(s, RawPositions(s, skyline, kerf)));
      assert CandidatePositions(s, skyline, kerf) == SortBy(d, PositionKey, false);
      SortedNoRepeats(d);
      OrderedIncreasing(SortBy(d, PositionKey, false));
    }
  }

  lemma OrderedIncreasing(r: seq<Position>)
    requires NoRepeats(r) && Ordered(r, PositionKey, false)
    ensures forall i, j :: 0 <= i < j < |r| ==> r[i].1 < r[j].1 || (r[i].1 == r[j].1 && r[i].0 < r[j].0)
  {
    forall i, j | 0 <= i < j < |r| ensures r[i].1 < r[j].1 || (r[i].1 == r[j].1 && r[i].0 < r[j].0) {
      assert InOrder(PositionKey(r[i]), PositionKey(r[j]), false);
      assert r[i] != r[j];
    }
  }

  // ------------------------------------------------------------ sampling

  /** `xs[from:to:step]`. */
  function Stride(xs: seq<Position>, from: nat, to: nat, step: nat): (r: seq<Position>)
    requires step >= 1 && to <= |xs|
    ensures forall pos :: pos in r ==> pos in xs
    ensures from >= to ==> r == []
    decreases if from < to then to - from else 0
  {
    if from >= to then [] else [xs[from]] + Stride(xs, from + step, to, step)
  }

  /** Entry `k` of `r` is `xs[from + k * step]`, an index below `to`. */
  predicate Strided(r: seq<Position>, xs: seq<Position>, from: nat, to: nat, step: nat)
    requires to <= |xs|
  {
    forall k :: 0 <= k < |r| ==> from + k * step < to && r[k] == xs[from + k * step]
  }

  /**
   * Entry `k` of `xs[from:to:step]` is `xs[from + k * step]`, and the slice
   * runs exactly as long as those indices stay below `to`.
   */
  lemma {:induction false} StrideSpec(xs: seq<Position>, from: nat, to: nat, step: nat)
    requires step >= 1 && to <= |xs|
    ensures var r := Stride(xs, from, to, step);
      && Strided(r, xs, from, to, step)
      && (from < to ==> from + |r| * step >= to)
    decreases if from < to then to - from else 0
  {
    if from < to {
      var r := Stride(xs, from, to, step);
      var rest := Stride(xs, from + step, to, step);
      StrideSpec(xs, from + step, to, step);
      assert r == [xs[from]] + rest;
      forall k | 0 <= k < |r| ensures from + k * step < to && r[k] == xs[from + k * step] {
        if k > 0 {
          StepShift(from, step, k);
          assert r[k] == rest[k - 1];
          assert (from + step) + (k - 1) * step < to && rest[k - 1] == xs[(from + step) + (k - 1) * step];
        }
      }
      assert Strided(r, xs, from, to, step);
      StepShift(from, step, |r|);
    }
  }

  /** Entry `k` of a slice starting at `from` is entry `k - 1` of the slice starting one step later. */
  lemma StepShift(from: nat, step: nat, k: nat)
    requires k >= 1
    ensures (from + step) + (k - 1) * step == from + k * step
  {
    calc {
      (from + step) + (k - 1) * step;
      from + step + k * step - step;
    }
  }

  /** A slice whose steps cover twenty steps' distance has at least twenty entries. */
  lemma StepsAtLeast(m: nat, step: nat)
    requires step >= 1 && m * step >= 20 * step
    ensures m >= 20
  {
  }

  /** `max(1, (len(positions) - 30) // 20)`, the stride of the sampled middle. */
  function SampleStep(n: nat): (step: nat)
    ensures step >= 1
    ensures n > MaxPositions ==> 20 * step <= n - 30
  {
    if (n - 30) / 20 >= 1 then (n - 30) / 20 else 1
  }

  /** The middle of a list of more than 50 positions has at least 20 entries. */
  lemma MiddleLong(positions: seq<Position>)
    requires |positions| > MaxPositions
    ensures |Stride(positions, 20, |positions| - 10, SampleStep(|positions|))| >= 20
  {
    var n := |positions|;
    var step := SampleStep(n);
    var middle := Stride(positions, 20, n - 10, step);
    StrideSpec(positions, 20, n - 10, step);
    assert 20 + |middle| * step >= n - 10;
    StepsAtLeast(|middle|, step);
  }

  /**
   * The sampling of `try_add_panel`: more than 50 positions become the first
   * 20, the last 10 and every `step`-th one in between, cut to 50. The middle
   * always has at least 20 entries, so a long list gives exactly 50.
   */
  function Sample(positions: seq<Position>): (r: seq<Position>)
    ensures |r| <= MaxPositions
    ensures forall pos :: pos in r ==> pos in positions
    ensures |positions| <= MaxPositions ==> r == positions
    ensures |positions| > MaxPositions ==>
      && |r| == MaxPositions
      && r[..20] == positions[..20]
      && r[20..30] == positions[|positions| - 10..]
      && r[30..] <= Stride(positions, 20, |positions| - 10, SampleStep(|positions|))
  {
    if |positions| <= MaxPositions then positions
    else
      var n := |positions|;
      var middle := Stride(positions, 20, n - 10, SampleStep(n));
      MiddleLong(positions);
      var all := positions[..20] + positions[n - 10..] + middle;
      assert |positions[n - 10..]| == 10;
      assert all[..20] == positions[..20] && all[20..30] == positions[n - 10..];
      assert all[..MaxPositions][30..] == middle[..20];
      assert middle[..20] <= middle;
      all[..MaxPositions]
  }

  /** A sample whose tail is a prefix of the strided middle picks its entries at the stride. */
  lemma PrefixEntries(r: seq<Position>, middle: seq<Position>, positions: seq<Position>, step: nat)
    requires |r| == MaxPositions && |middle| >= 20 && r[30..] <= middle
    requires |positions| > MaxPositions && Strided(middle, positions, 20, |positions| - 10, step)
    ensures forall k :: 30 <= k < MaxPositions ==>
      20 + (k - 30) * step < |positions| - 10 && r[k] == positions[20 + (k - 30) * step]
  {
    forall k | 30 <= k < MaxPositions
      ensures 20 + (k - 30) * step < |positions| - 10 && r[k] == positions[20 + (k - 30) * step]
    {
      assert r[k] == r[30..][k - 30] == middle[k - 30];
    }
  }

  /** Entry `30 + j` of a long list's sample is entry `20 + j * step` of the list. */
  lemma SampleMiddle(positions: seq<Position>)
    requires |positions| > MaxPositions
    ensures forall k :: 30 <= k < MaxPositions ==>
      && 20 + (k - 30) * SampleStep(|positions|) < |positions| - 10
      && Sample(positions)[k] == positions[20 + (k - 30) * SampleStep(|positions|)]
  {
    var step := SampleStep(|positions|);
    MiddleLong(positions);
    StrideSpec(positions, 20, |positions| - 10, step);
    PrefixEntries(Sample(positions), Stride(positions, 20, |positions| - 10, step), positions, step);
  }

  // ------------------------------------------------------------ choosing

  /** The panel as tried: as it is, or rotated. */
  function Oriented(p: Panel, rotated: bool): Panel {
    if rotated then Rotate(p) else p
  }

  predicate Feasible(s: Sheet, p: Panel, pos: Position, rotated: bool, kerf: real) {
    Fits(s, Oriented(p, rotated), pos.0, pos.1, kerf)
  }

  /** The `waste` of a choice: the top edge of the placed panel. */
  function Waste(p: Panel, pos: Position, rotated: bool, kerf: real): real {
    pos.1 + PlacedHeight(Oriented(p, rotated), kerf)
  }

  /** The scan order: by position index, the unrotated try before the rotated one. */
  predicate TriedBefore(j: nat, rj: bool, i: nat, ri: bool) {
    j < i || (j == i && !rj && ri)
  }

  /**
   * Choice `(i, rotated)` is feasible, no feasible choice has a smaller waste,
   * and every feasible choice tried before it has a larger one: it is the first
   * minimum of the scan.
   */
  ghost predicate FirstBest(s: Sheet, p: Panel, positions: seq<Position>, kerf: real, i: nat, rotated: bool) {
    && i < |positions|
    && Feasible(s, p, positions[i], rotated, kerf)
    && forall j, rj :: 0 <= j < |positions| && Feasible(s, p, positions[j], rj, kerf) ==>
         && Waste(p, positions[j], rj, kerf) >= Waste(p, positions[i], rotated, kerf)
         && (TriedBefore(j, rj, i, rotated) ==> Waste(p, positions[j], rj, kerf) > Waste(p, positions[i], rotated, kerf))
  }

  /**
   * The scan of `try_add_panel` over the given positions: at each one the
   * unrotated and then the rotated panel, keeping a choice only when its waste
   * is strictly lower than the best so far.
   */
  method ChooseBest(s: Sheet, p: Panel, positions: seq<Position>, kerf: real)
    returns (success: bool, x: real, y: real, rotated: bool)
    ensures success <==> exists j, rj :: 0 <= j < |positions| && Feasible(s, p, positions[j], rj, kerf)
    ensures !success ==> x == 0.0 && y == 0.0 && !rotated
    ensures success ==> exists i :: 0 <= i < |positions| && positions[i] == (x, y) && FirstBest(s, p, positions, kerf, i, rotated)
  {
    var found := false;
    var best: nat := 0;
    var bestRotated := false;
    var bestWaste := 0.0;
    for i := 0 to |positions|
      invariant !found ==> forall j, rj :: 0 <= j < i ==> !Feasible(s, p, positions[j], rj, kerf)
      invariant found ==> && best < i && Feasible(s, p, positions[best], bestRotated, kerf)
                          && bestWaste == Waste(p, positions[best], bestRotated, kerf)
      invariant found ==> forall j, rj :: 0 <= j < i && Feasible(s, p, positions[j], rj, kerf) ==>
                            && Waste(p, positions[j], rj, kerf) >= bestWaste
                            && (TriedBefore(j, rj, best, bestRotated) ==> Waste(p, positions[j], rj, kerf) > bestWaste)
    {
      var pos := positions[i];
      if Feasible(s, p, pos, false, kerf) {
        var waste := Waste(p, pos, false, kerf);
        if !found || waste < bestWaste {
          found, best, bestRotated, bestWaste := true, i, false, waste;
        }
      }
      if Feasible(s, p, pos, true, kerf) {
        var waste := Waste(p, pos, true, kerf);
        if !found || waste < bestWaste {
          found, best, bestRotated, bestWaste := true, i, true, waste;
        }
      }
    }
    if found {
      success, x, y, rotated := true, positions[best].0, positions[best].1, bestRotated;
      assert FirstBest(s, p, positions, kerf, best, rotated);
    } else {
      success, x, y, rotated := false, 0.0, 0.0, false;
    }
  }

  /** The positions `try_add_panel` tries. */
  function TriedPositions(s: Sheet, skyline: seq<Segment>, kerf: real): seq<Position> {
    Sample(CandidatePositions(s, skyline, kerf))
  }

  /** `try_add_panel`: `(success, x, y, rotated)` for the first lowest-waste choice. */
  method TryAddPanel(s: Sheet, p: Panel, skyline: seq<Segment>, kerf: real)
    returns (success: bool, x: real, y: real, rotated: bool)
    ensures var positions := TriedPositions(s, skyline, kerf);
      && (success <==> exists j, rj :: 0 <= j < |positions| && Feasible(s, p, positions[j], rj, kerf))
      && (!success ==> x == 0.0 && y == 0.0 && !rotated)
      && (success ==> exists i :: 0 <= i < |positions| && positions[i] == (x, y) && FirstBest(s, p, positions, kerf, i, rotated))
  {
    success, x, y, rotated := ChooseBest(s, p, TriedPositions(s, skyline, kerf), kerf);
  }

  /**
   * `add`: places the panel, rotated exactly when the chosen choice is, at the
   * position `try_add_panel` chooses, and succeeds exactly when some tried
   * position fits in some orientation. The result keeps the panels apart, the filled area exact and the free
   * rectangles an exact description of the free space.
   */
  method Add(s: Sheet, p: Panel, skyline: seq<Segment>, kerf: real) returns (r: Sheet, success: bool)
    ensures var positions := TriedPositions(s, skyline, kerf);
      success <==> exists j, rj :: 0 <= j < |positions| && Feasible(s, p, positions[j], rj, kerf)
    ensures !success ==> r == s
    ensures success ==> exists i: nat, rotated: bool ::
      && FirstBest(s, p, TriedPositions(s, skyline, kerf), kerf, i, rotated)
      && r == Place(s, Oriented(p, rotated), TriedPositions(s, skyline, kerf)[i].0, TriedPositions(s, skyline, kerf)[i].1, kerf)
    ensures Packed(s, kerf) ==> Packed(r, kerf)
    ensures AreaTracked(s, kerf) ==> AreaTracked(r, kerf)
    ensures FreeInvariant(s, kerf) ==> FreeInvariant(r, kerf)
  {
    var x, y, rotated;
    success, x, y, rotated := TryAddPanel(s, p, skyline, kerf);
    if success {
      var positions := TriedPositions(s, skyline, kerf);
      ghost var i :| 0 <= i < |positions| && positions[i] == (x, y) && FirstBest(s, p, positions, kerf, i, rotated);
      var q := Oriented(p, rotated);
      r := Place(s, q, x, y, kerf);
      assert Fits(s, q, x, y, kerf);
      if Packed(s, kerf) { PlaceKeepsPacked(s, q, x, y, kerf); }
      if AreaTracked(s, kerf) { PlaceTracksArea(s, q, x, y, kerf); }
      if FreeInvariant(s, kerf) { PlaceKeepsFreeInvariant(s, q, x, y, kerf); }
    } else {
      r := s;
    }
  }

  // ------------------------------------------------------------ panel order

  /** `(h, w)`: the height-first key. */
  function HeightKey(p: Panel): SortKey {
    SortKey(p.h, p.w)
  }

  /** The order of `nest_panels`: nothing for no panels, else tallest first, then widest. */
  function NestOrder(panels: seq<Panel>): (r: seq<Panel>)
    ensures panels == [] ==> r == []
    ensures multiset(r) == multiset(panels)
  {
    if panels == [] then [] else SortBy(panels, HeightKey, true)
  }

  /**
   * The nesting order is a permutation that is non-increasing in height and,
   * among equal heights, in width; panels of equal size keep their input order.
   */
  lemma NestOrderSorted(panels: seq<Panel>)
    ensures var r := NestOrder(panels);
      && (forall i, j :: 0 <= i < j < |r| ==> r[i].h > r[j].h || (r[i].h == r[j].h && r[i].w >= r[j].w))
      && (forall k :: KeyClass(r, HeightKey, k) == KeyClass(panels, HeightKey, k))
  {
    SortBySpec(panels, HeightKey, true);
    var r := NestOrder(panels);
    forall i, j | 0 <= i < j < |r| ensures r[i].h > r[j].h || (r[i].h == r[j].h && r[i].w >= r[j].w) {
      assert InOrder(HeightKey(r[i]), HeightKey(r[j]), true);
    }
  }
}

=== FILE: kerf_panels.dfy ===
/**
 * The `Panel` of the two MaxRects packers. A panel remembers its original size,
 * carries its current orientation in `w`/`h` and `rotated`, and is placed with
 * the global blade `kerf` added to both sides. The kerf is a parameter here; the
 * original reads it from a module-level input.
 *
 * Both packers define the same class and derive `area` at construction; the
 * MaxRects packer also derives `perimeter` and `aspect_ratio` there, all from
 * the original size.
 */
module KerfPanels {

  datatype Panel = Panel(
    origW: real,
    origH: real,
    w: real,
    h: real,
    rotated: bool,
    id: int,
    tag: string)
  {
    /** The current size is the original one, swapped exactly when rotated. */
    predicate WellFormed() {
      if rotated then w == origH && h == origW else w == origW && h == origH
    }

    /** `area`, fixed at construction. */
    function Area(): real {
      origW * origH
    }

    /** `perimeter`, fixed at construction. */
    function Perimeter(): real {
      2.0 * (origW + origH)
    }

    function LongSide(): real {
      if origW >= origH then origW else origH
    }

    function ShortSide(): real {
      if origW <= origH then origW else origH
    }

    /**
     * `aspect_ratio = max(w, h) / min(w, h)`, fixed at construction. The
     * constructor divides by the short side, so a panel with a zero side is never
     * built.
     */
    function AspectRatio(): real
      requires ShortSide() != 0.0
    {
      LongSide() / ShortSide()
    }
  }

  /** `Panel(w, h, id, tag)`: unrotated, current size equal to the original. */
  function NewPanel(w: real, h: real, id: int, tag: string): (r: Panel)
    ensures r.WellFormed() && !r.rotated
    ensures r.origW == w && r.origH == h && r.id == id && r.tag == tag
  {
    Panel(w, h, w, h, false, id, tag)
  }

  /** `rotate`: swaps the current width and height and toggles `rotated`. */
  function Rotate(p: Panel): (r: Panel)
    ensures r.w == p.h && r.h == p.w && r.rotated == !p.rotated
    ensures r.origW == p.origW && r.origH == p.origH && r.id == p.id && r.tag == p.tag
  {
    p.(w := p.h, h := p.w, rotated := !p.rotated)
  }

  /** `get_placed_width`: the current width plus the kerf. */
  function PlacedWidth(p: Panel, kerf: real): real {
    p.w + kerf
  }

  /** `get_placed_height`: the current height plus the kerf. */
  function PlacedHeight(p: Panel, kerf: real): real {
    p.h + kerf
  }

  /** Rotating twice restores the panel. */
  lemma RotateInvolution(p: Panel)
    ensures Rotate(Rotate(p)) == p
  {
  }

  /** Rotation keeps a panel well formed and leaves its derived attributes alone. */
  lemma RotatePreserves(p: Panel)
    ensures p.WellFormed() <==> Rotate(p).WellFormed()
    ensures Rotate(p).Area() == p.Area() && Rotate(p).Perimeter() == p.Perimeter()
    ensures Rotate(p).ShortSide() == p.ShortSide() && Rotate(p).LongSide() == p.LongSide()
  {
  }

  /**
   * The placed size is recomputed from the current orientation after every
   * rotation (the original invalidates its cache): a rotated panel's placed
   * width is the unrotated panel's placed height and vice versa.
   */
  lemma PlacedSizeAfterRotate(p: Panel, kerf: real)
    ensures PlacedWidth(Rotate(p), kerf) == PlacedHeight(p, kerf)
    ensures PlacedHeight(Rotate(p), kerf) == PlacedWidth(p, kerf)
  {
  }

  /** `copy`: a fresh panel from the original size, rotated if the source is. */
  function Copy(p: Panel): (r: Panel)
    ensures r.WellFormed()
    ensures r.origW == p.origW && r.origH == p.origH && r.id == p.id && r.tag == p.tag
    ensures r.rotated == p.rotated
  {
    var made := NewPanel(p.origW, p.origH, p.id, p.tag);
    if p.rotated then Rotate(made) else made
  }

  /** The copy of a well-formed panel is equal to it, so it has the same current size. */
  lemma CopyIsIdentity(p: Panel)
    requires p.WellFormed()
    ensures Copy(p) == p
  {
  }

  /**
   * `fits_in_rect`: `(fits, rotated)`. The unrotated placed size is tried first;
   * the swapped one only if rotation is allowed.
   */
  function FitsInRect(p: Panel, w: real, h: real, allowRotation: bool, kerf: real): (r: (bool, bool))
    ensures r.1 ==> r.0
    ensures r == (true, false) <==> PlacedWidth(p, kerf) <= w && PlacedHeight(p, kerf) <= h
    ensures r == (true, true) <==>
      && !(PlacedWidth(p, kerf) <= w && PlacedHeight(p, kerf) <= h)
      && allowRotation && PlacedHeight(p, kerf) <= w && PlacedWidth(p, kerf) <= h
  {
    if PlacedWidth(p, kerf) <= w && PlacedHeight(p, kerf) <= h then (true, false)
    else if allowRotation && PlacedHeight(p, kerf) <= w && PlacedWidth(p, kerf) <= h then (true, true)
    else (false, false)
  }

  /**
   * `fits_in_rect` reports a fit exactly when the panel fits in some allowed
   * orientation, and a reported rotation means the rotated panel fits.
   */
  lemma FitsInRectSound(p: Panel, w: real, h: real, allowRotation: bool, kerf: real)
    ensures var r := FitsInRect(p, w, h, allowRotation, kerf);
      && (r.0 <==> (PlacedWidth(p, kerf) <= w && PlacedHeight(p, kerf) <= h)
                   || (allowRotation && PlacedWidth(Rotate(p), kerf) <= w && PlacedHeight(Rotate(p), kerf) <= h))
      && (r.0 && r.1 ==> PlacedWidth(Rotate(p), kerf) <= w && PlacedHeight(Rotate(p), kerf) <= h)
      && (r.0 && !r.1 ==> PlacedWidth(p, kerf) <= w && PlacedHeight(p, kerf) <= h)
  {
  }
}

=== FILE: maxrects_v2.dfy ===
/**
 * The MaxRects candidate search and the panel sort of the second packer: a
 * candidate position is the lower-left corner of a free rectangle the placed
 * panel fits in, ranked by a heuristic score. The configuration is the
 * `balanced` quality mode, which weighs several heuristics together and keeps
 * at most 60 candidates.
 */
module MaxRectsV2 {
  import opened Rectangles
  import opened Sorting
  import opened KerfPanels
  import opened PackingSheet

  /** `USE_MULTIPLE_HEURISTICS` of the `balanced` mode. */
  const UseMultipleHeuristics: bool := true

  /** `MAX_CANDIDATE_POSITIONS` of the `balanced` mode. */
  const MaxCandidatePositions: nat := 60

  /** The `heuristic` argument; any name other than the four behaves as `BottomLeft`. */
  datatype Heuristic = All | BestShortSideFit | BestLongSideFit | BestAreaFit | BottomLeft

  function Min(a: real, b: real): real {
    if a <= b then a else b
  }

  function Max(a: real, b: real): real {
    if a >= b then a else b
  }

  /** The score of a free rectangle for a placed size `pw` x `ph`; lower is better. */
  function Score(rect: Rect, pw: real, ph: real, heuristic: Heuristic): real {
    var leftoverHorizontal := rect.w - pw;
    var leftoverVertical := rect.h - ph;
    var leftoverShort := Min(leftoverHorizontal, leftoverVertical);
    var leftoverLong := Max(leftoverHorizontal, leftoverVertical);
    var leftoverArea := rect.Area() - pw * ph;
    if UseMultipleHeuristics && heuristic == All then
      leftoverShort * 1.0 + leftoverLong * 0.5 + leftoverArea * 0.001 + rect.y * 0.1 + rect.x * 0.01
    else if heuristic == BestShortSideFit then leftoverShort * 10000.0 + rect.y * 100.0 + rect.x
    else if heuristic == BestLongSideFit then leftoverLong * 10000.0 + rect.y * 100.0 + rect.x
    else if heuristic == BestAreaFit then leftoverArea * 100.0 + rect.y * 10.0 + rect.x
    else rect.y * 10000.0 + rect.x
  }

  /** A `(x, y, score)` entry. */
  datatype Candidate = Candidate(x: real, y: real, score: real)

  /** The placed panel fits in `rect` without rotation (no tolerance here). */
  predicate Admits(rect: Rect, pw: real, ph: real) {
    pw <= rect.w && ph <= rect.h
  }

  function CandidateOf(rect: Rect, pw: real, ph: real, heuristic: Heuristic): Candidate {
    Candidate(rect.x, rect.y, Score(rect, pw, ph, heuristic))
  }

  /** The scan over the free rectangles, in list order. */
  function Scored(rects: seq<Rect>, pw: real, ph: real, heuristic: Heuristic): (r: seq<Candidate>)
    ensures forall c :: c in r <==> exists q :: q in rects && Admits(q, pw, ph) && c == CandidateOf(q, pw, ph, heuristic)
    ensures |r| <= |rects|
  {
    if rects == [] then []
    else
      var rest := Scored(rects[1..], pw, ph, heuristic);
      assert forall q :: q in rects <==> q == rects[0] || q in rects[1..];
      (if Admits(rects[0], pw, ph) then [CandidateOf(rects[0], pw, ph, heuristic)] else []) + rest
  }

  function ScoreKey(c: Candidate): SortKey {
    SortKey(c.score, 0.0)
  }

  /** Candidates stably sorted by ascending score and cut to the limit. */
  function Cut(scored: seq<Candidate>): seq<Candidate> {
    var all := SortBy(scored, ScoreKey, false);
    if |all| <= MaxCandidatePositions then all else all[..MaxCandidatePositions]
  }

  /** The scored candidates of the sheet's free rectangles, ranked and cut. */
  function Ranked(s: Sheet, p: Panel, kerf: real, heuristic: Heuristic): seq<Candidate> {
    Cut(Scored(s.freeRects, PlacedWidth(p, kerf), PlacedHeight(p, kerf), heuristic))
  }

  /** `get_candidate_positions_maxrects`: the `(x, y)` of the ranked candidates. */
  function CandidatePositions(s: Sheet, p: Panel, kerf: real, heuristic: Heuristic): (r: seq<(real, real)>)
    ensures |r| <= MaxCandidatePositions
    ensures forall i :: 0 <= i < |r| ==>
      exists q :: q in s.freeRects && Admits(q, PlacedWidth(p, kerf), PlacedHeight(p, kerf)) && r[i] == (q.x, q.y)
  {
    var ranked := Ranked(s, p, kerf, heuristic);
    RankedFromFreeRects(s, p, kerf, heuristic);
    var r := seq(|ranked|, i requires 0 <= i < |ranked| => (ranked[i].x, ranked[i].y));
    assert forall i :: 0 <= i < |r| ==> r[i] == (ranked[i].x, ranked[i].y) && ranked[i] in ranked;
    r
  }

  /** Every ranked candidate is the scored corner of a free rectangle the panel fits in. */
  lemma RankedFromFreeRects(s: Sheet, p: Panel, kerf: real, heuristic: Heuristic)
    ensures forall c :: c in Ranked(s, p, kerf, heuristic) ==>
      exists q :: q in s.freeRects && Admits(q, PlacedWidth(p, kerf), PlacedHeight(p, kerf))
        && c == CandidateOf(q, PlacedWidth(p, kerf), PlacedHeight(p, kerf), heuristic)
  {
    var pw := PlacedWidth(p, kerf);
    var ph := PlacedHeight(p, kerf);
    var scored := Scored(s.freeRects, pw, ph, heuristic);
    var all := SortBy(scored, ScoreKey, false);
    var ranked := Ranked(s, p, kerf, heuristic);
    forall c | c in ranked
      ensures exists q :: q in s.freeRects && Admits(q, pw, ph) && c == CandidateOf(q, pw, ph, heuristic)
    {
      var i :| 0 <= i < |ranked| && ranked[i] == c;
      assert ranked[i] == all[i];
      assert all[i] in multiset(all);
      assert all[i] in multiset(scored);
      assert all[i] in scored;
    }
  }

  /** The candidates come in order of non-decreasing score. */
  lemma RankedAscending(s: Sheet, p: Panel, kerf: real, heuristic: Heuristic)
    ensures var ranked := Ranked(s, p, kerf, heuristic);
      forall i, j :: 0 <= i < j < |ranked| ==> ranked[i].score <= ranked[j].score
  {
    var scored := Scored(s.freeRects, PlacedWidth(p, kerf), PlacedHeight(p, kerf), heuristic);
    var all := SortBy(scored, ScoreKey, false);
    var ranked := Ranked(s, p, kerf, heuristic);
    SortByOrdered(scored, ScoreKey, false);
    forall i, j | 0 <= i < j < |ranked| ensures ranked[i].score <= ranked[j].score {
      assert ranked[i] == all[i] && ranked[j] == all[j];
      assert InOrder(ScoreKey(all[i]), ScoreKey(all[j]), false);
    }
  }

  /**
   * When no more free rectangles than the limit admit the panel, every one of
   * them contributes its candidate, and candidates with equal scores keep the
   * order of their free rectangles.
   */
  lemma RankedComplete(s: Sheet, p: Panel, kerf: real, heuristic: Heuristic)
    ensures var ranked := Ranked(s, p, kerf, heuristic);
      var scored := Scored(s.freeRects, PlacedWidth(p, kerf), PlacedHeight(p, kerf), heuristic);
      |scored| <= MaxCandidatePositions ==>
        multiset(ranked) == multiset(scored) && forall k :: KeyClass(ranked, ScoreKey, k) == KeyClass(scored, ScoreKey, k)
  {
    var scored := Scored(s.freeRects, PlacedWidth(p, kerf), PlacedHeight(p, kerf), heuristic);
    SortBySpec(scored, ScoreKey, false);
  }

  /**
   * The cut to the limit keeps the lowest scores: the kept candidates are
   * drawn from the scored ones, as many as the limit allows, and every
   * candidate left out scores at least as high as every one kept.
   */
  lemma CutKeepsLowest(scored: seq<Candidate>)
    ensures var ranked := Cut(scored);
      && multiset(ranked) <= multiset(scored)
      && |ranked| == (if |scored| <= MaxCandidatePositions then |scored| else MaxCandidatePositions)
      && forall c, i :: c in multiset(scored) - multiset(ranked) && 0 <= i < |ranked| ==> ranked[i].score <= c.score
  {
    var all := SortBy(scored, ScoreKey, false);
    var ranked := Cut(scored);
    var n := |ranked|;
    var rest := all[n..];
    SortByOrdered(scored, ScoreKey, false);
    assert all == ranked + rest;
    assert multiset(all) == multiset(ranked) + multiset(rest);
    forall c, i | c in multiset(scored) - multiset(ranked) && 0 <= i < n
      ensures ranked[i].score <= c.score
    {
      assert c in multiset(rest);
      var j :| 0 <= j < |rest| && rest[j] == c;
      assert all[n + j] == c;
      assert InOrder(ScoreKey(all[i]), ScoreKey(all[n + j]), false);
    }
  }

  /** The MaxRects candidates kept for a sheet are the lowest-scoring ones. */
  lemma RankedLowest(s: Sheet, p: Panel, kerf: real, heuristic: Heuristic)
    ensures var ranked := Ranked(s, p, kerf, heuristic);
      var scored := Scored(s.freeRects, PlacedWidth(p, kerf), PlacedHeight(p, kerf), heuristic);
      && multiset(ranked) <= multiset(scored)
      && |ranked| == (if |scored| <= MaxCandidatePositions then |scored| else MaxCandidatePositions)
      && forall c, i :: c in multiset(scored) - multiset(ranked) && 0 <= i < |ranked| ==> ranked[i].score <= c.score
  {
    CutKeepsLowest(Scored(s.freeRects, PlacedWidth(p, kerf), PlacedHeight(p, kerf), heuristic));
  }

  /**
   * On a sheet whose free rectangles are sound, every candidate position passes
   * `fits`: the panel lies inside the free rectangle, so on the sheet and clear
   * of every placed panel.
   */
  lemma CandidatesFit(s: Sheet, p: Panel, kerf: real, heuristic: Heuristic)
    requires FreeSound(s, kerf)
    ensures forall pos :: pos in CandidatePositions(s, p, kerf, heuristic) ==> Fits(s, p, pos.0, pos.1, kerf)
  {
    var r := CandidatePositions(s, p, kerf, heuristic);
    forall pos | pos in r ensures Fits(s, p, pos.0, pos.1, kerf) {
      var i :| 0 <= i < |r| && r[i] == pos;
      var q :| q in s.freeRects && Admits(q, PlacedWidth(p, kerf), PlacedHeight(p, kerf)) && r[i] == (q.x, q.y);
      FitsAtFreeCorner(s, p, q, kerf);
    }
  }

  // ------------------------------------------------------------ panel order

  /** The `strategy` of `sort_panels`; any other name sorts by area. */
  datatype SortStrategy = ByArea | ByPerimeter | Mixed | OtherStrategy

  /**
   * `area * (1 + 0.2 * aspect_ratio)`. The constructor cannot build a panel
   * with a zero side (its aspect ratio divides by it), so the 0 used for such
   * a panel here is never reached by a panel the program holds.
   */
  function MixedScore(p: Panel): real {
    p.Area() * (1.0 + 0.2 * (if p.ShortSide() != 0.0 then p.AspectRatio() else 0.0))
  }

  function StrategyScore(strategy: SortStrategy, p: Panel): real {
    match strategy
    case ByArea => p.Area()
    case ByPerimeter => p.Perimeter()
    case Mixed => MixedScore(p)
    case OtherStrategy => p.Area()
  }

  function StrategyKey(strategy: SortStrategy): Panel -> SortKey {
    (p: Panel) => SortKey(StrategyScore(strategy, p), 0.0)
  }

  /** `sort_panels`: a stable sort by the strategy's score, largest first. */
  function SortPanels(panels: seq<Panel>, strategy: SortStrategy): (r: seq<Panel>)
    ensures multiset(r) == multiset(panels)
  {
    SortBy(panels, StrategyKey(strategy), true)
  }

  /**
   * The sorted panels are a permutation of the input with non-increasing
   * scores, and panels with equal scores keep their input order.
   */
  lemma SortPanelsOrdered(panels: seq<Panel>, strategy: SortStrategy)
    ensures var r := SortPanels(panels, strategy);
      && multiset(r) == multiset(panels)
      && (forall i, j :: 0 <= i < j < |r| ==> StrategyScore(strategy, r[i]) >= StrategyScore(strategy, r[j]))
      && (forall k :: KeyClass(r, StrategyKey(strategy), k) == KeyClass(panels, StrategyKey(strategy), k))
  {
    SortBySpec(panels, StrategyKey(strategy), true);
    var r := SortPanels(panels, strategy);
    forall i, j | 0 <= i < j < |r|
      ensures StrategyScore(strategy, r[i]) >= StrategyScore(strategy, r[j])
    {
      assert InOrder(StrategyKey(strategy)(r[i]), StrategyKey(strategy)(r[j]), true);
    }
  }
}

=== FILE: optional.dfy ===
/** The optional value that the nesting code expresses as `None` or a record. */
module Optional {

  datatype Option<+T> = None | Some(value: T)
}

=== FILE: packing_sheet.dfy ===
/**
 * The `Sheet` of the two MaxRects packers, which define it identically as far
 * as this model goes: the placed panels with their positions, the filled area,
 * and the MaxRects list of free rectangles. The collision grid and the skyline
 * are not modelled; `fits` here looks at every placed panel, which is what the
 * grid lookup narrows down.
 */
module PackingSheet {
  import opened Rectangles
  import opened KerfPanels
  import opened FreeRects

  /** The `epsilon` of `fits`: a panel may stick out of the sheet by this much. */
  const FitEpsilon: real := 0.000001

  /** One `(panel, x, y)` entry of `panels`. */
  datatype Placement = Placement(panel: Panel, x: real, y: real)

  datatype Sheet = Sheet(w: real, h: real, panels: seq<Placement>, filledArea: real, freeRects: seq<Rect>)

  /** The sheet constructor: empty, with the whole sheet as the one free rectangle. */
  function NewSheet(w: real, h: real): (r: Sheet)
    ensures r.w == w && r.h == h && r.panels == [] && r.filledArea == 0.0
    ensures r.freeRects == [SheetRect(r)]
  {
    Sheet(w, h, [], 0.0, [Rect(0.0, 0.0, w, h)])
  }

  function SheetRect(s: Sheet): Rect {
    Rect(0.0, 0.0, s.w, s.h)
  }

  /** The space a placed panel takes, kerf included. */
  function Footprint(pl: Placement, kerf: real): Rect {
    Rect(pl.x, pl.y, PlacedWidth(pl.panel, kerf), PlacedHeight(pl.panel, kerf))
  }

  /** The boundary test of `fits`: the rectangle sticks out of the sheet by at most `FitEpsilon`. */
  predicate WithinTolerance(s: Sheet, rect: Rect) {
    !(rect.x + rect.w > s.w + FitEpsilon || rect.y + rect.h > s.h + FitEpsilon
      || rect.x < -FitEpsilon || rect.y < -FitEpsilon)
  }

  /** The collision scan of `fits`: some placed panel overlaps `rect`. */
  function Collides(panels: seq<Placement>, rect: Rect, kerf: real): (r: bool)
    ensures r <==> exists k :: 0 <= k < |panels| && Intersects(rect, Footprint(panels[k], kerf))
  {
    if panels == [] then false
    else if Intersects(rect, Footprint(panels[0], kerf)) then true
    else
      var rest := Collides(panels[1..], rect, kerf);
      assert forall k :: 1 <= k < |panels| ==> panels[k] == panels[1..][k - 1];
      rest
  }

  /** `fits`: the panel at `(x, y)` stays within the tolerance and overlaps no placed panel. */
  function Fits(s: Sheet, p: Panel, x: real, y: real, kerf: real): (r: bool)
    ensures var rect := Footprint(Placement(p, x, y), kerf);
      r <==> WithinTolerance(s, rect) && forall k :: 0 <= k < |s.panels| ==> !Intersects(rect, Footprint(s.panels[k], kerf))
  {
    var rect := Footprint(Placement(p, x, y), kerf);
    WithinTolerance(s, rect) && !Collides(s.panels, rect, kerf)
  }

  /**
   * `place`: records the panel, adds its placed area to the filled area and
   * updates and prunes the free rectangles around its footprint. It does not
   * check `fits`; callers do.
   */
  function Place(s: Sheet, p: Panel, x: real, y: real, kerf: real): (r: Sheet)
    ensures r.w == s.w && r.h == s.h && r.panels == s.panels + [Placement(p, x, y)]
  {
    var rect := Footprint(Placement(p, x, y), kerf);
    s.(panels := s.panels + [Placement(p, x, y)],
       filledArea := s.filledArea + rect.Area(),
       freeRects := Prune(UpdateFreeRects(s.freeRects, rect)))
  }

  /** `efficiency`: the filled area as a fraction of the sheet, 0 for an empty sheet. */
  function Efficiency(s: Sheet): (r: real)
    requires s.panels != [] ==> s.w * s.h != 0.0
    ensures s.panels == [] ==> r == 0.0
  {
    if s.panels == [] then 0.0 else s.filledArea / (s.w * s.h)
  }

  // ------------------------------------------------------------ invariants

  /** Sum of the placed areas, kerf included. */
  function FilledArea(panels: seq<Placement>, kerf: real): real {
    if panels == [] then 0.0
    else Footprint(panels[0], kerf).Area() + FilledArea(panels[1..], kerf)
  }

  /** `filled_area` is the total placed area. */
  ghost predicate AreaTracked(s: Sheet, kerf: real) {
    s.filledArea == FilledArea(s.panels, kerf)
  }

  /** Every placed panel is within the tolerance and no two overlap. */
  ghost predicate Packed(s: Sheet, kerf: real) {
    && (forall k :: 0 <= k < |s.panels| ==> WithinTolerance(s, Footprint(s.panels[k], kerf)))
    && (forall k, l :: 0 <= k < |s.panels| && 0 <= l < |s.panels| && k != l ==>
          !Intersects(Footprint(s.panels[k], kerf), Footprint(s.panels[l], kerf)))
  }

  /** Every free rectangle lies on the sheet and overlaps no placed panel. */
  ghost predicate FreeSound(s: Sheet, kerf: real) {
    forall q :: q in s.freeRects ==>
      Contains(SheetRect(s), q) && forall k :: 0 <= k < |s.panels| ==> !Intersects(q, Footprint(s.panels[k], kerf))
  }

  /** A point of the sheet that no placed panel covers. */
  predicate Uncovered(s: Sheet, kerf: real, px: real, py: real) {
    ContainsPoint(SheetRect(s), px, py) && forall k :: 0 <= k < |s.panels| ==> !ContainsPoint(Footprint(s.panels[k], kerf), px, py)
  }

  /** The free rectangles cover every point of the sheet that no panel covers. */
  ghost predicate FreeCovers(s: Sheet, kerf: real) {
    forall px, py :: Uncovered(s, kerf, px, py) ==> exists q :: q in s.freeRects && ContainsPoint(q, px, py)
  }

  /**
   * The MaxRects invariant: the free rectangles are exactly free space (on the
   * sheet, clear of every panel, covering every uncovered point), and none of
   * them contains another.
   */
  ghost predicate FreeInvariant(s: Sheet, kerf: real) {
    FreeSound(s, kerf) && FreeCovers(s, kerf) && Antichain(s.freeRects)
  }

  // ------------------------------------------------------------ lemmas

  /** A new sheet is empty space, described by its single free rectangle. */
  lemma NewSheetInvariant(w: real, h: real, kerf: real)
    ensures var s := NewSheet(w, h);
      Packed(s, kerf) && AreaTracked(s, kerf) && FreeInvariant(s, kerf)
  {
    var s := NewSheet(w, h);
    ContainsReflexive(SheetRect(s));
    forall px, py | Uncovered(s, kerf, px, py) ensures exists q :: q in s.freeRects && ContainsPoint(q, px, py) {
      assert SheetRect(s) in s.freeRects;
    }
  }

  lemma {:induction false} FilledAreaAppend(panels: seq<Placement>, pl: Placement, kerf: real)
    ensures FilledArea(panels + [pl], kerf) == FilledArea(panels, kerf) + Footprint(pl, kerf).Area()
  {
    if panels != [] {
      assert (panels + [pl])[1..] == panels[1..] + [pl];
      FilledAreaAppend(panels[1..], pl, kerf);
    }
  }

  /** `place` keeps `filled_area` equal to the total placed area. */
  lemma PlaceTracksArea(s: Sheet, p: Panel, x: real, y: real, kerf: real)
    requires AreaTracked(s, kerf)
    ensures AreaTracked(Place(s, p, x, y, kerf), kerf)
  {
    FilledAreaAppend(s.panels, Placement(p, x, y), kerf);
  }

  /**
   * `place` grows `filled_area` by exactly the area of the placed footprint,
   * which is the placed width by the placed height.
   */
  lemma PlaceAddsArea(s: Sheet, p: Panel, x: real, y: real, kerf: real)
    ensures var rect := Footprint(Placement(p, x, y), kerf);
      && rect.w == PlacedWidth(p, kerf) && rect.h == PlacedHeight(p, kerf)
      && Place(s, p, x, y, kerf).filledArea == s.filledArea + rect.Area()
  {
  }

  /** Placing where `fits` says yes keeps the panels within the tolerance and apart. */
  lemma PlaceKeepsPacked(s: Sheet, p: Panel, x: real, y: real, kerf: real)
    requires Packed(s, kerf) && Fits(s, p, x, y, kerf)
    ensures Packed(Place(s, p, x, y, kerf), kerf)
  {
    var r := Place(s, p, x, y, kerf);
    var n := |s.panels|;
    forall k, l | 0 <= k < |r.panels| && 0 <= l < |r.panels| && k != l
      ensures !Intersects(Footprint(r.panels[k], kerf), Footprint(r.panels[l], kerf))
    {
      if k == n {
        assert r.panels[l] == s.panels[l];
      } else if l == n {
        assert r.panels[k] == s.panels[k];
        IntersectsSymmetric(Footprint(r.panels[k], kerf), Footprint(r.panels[l], kerf));
      } else {
        assert r.panels[k] == s.panels[k] && r.panels[l] == s.panels[l];
      }
    }
    assert forall k :: 0 <= k < n ==> r.panels[k] == s.panels[k];
  }

  /**
   * `place` keeps the MaxRects invariant wherever the panel goes: the split
   * pieces avoid the new panel and lie in old free space, the update loses no
   * free point, and the prune loses none either because the update never
   * repeats a rectangle.
   */
  lemma PlaceKeepsFreeInvariant(s: Sheet, p: Panel, x: real, y: real, kerf: real)
    requires FreeInvariant(s, kerf)
    ensures FreeInvariant(Place(s, p, x, y, kerf), kerf)
  {
    PlaceKeepsFreeSound(s, p, x, y, kerf);
    PlaceKeepsFreeCovers(s, p, x, y, kerf);
    PruneAntichain(UpdateFreeRects(s.freeRects, Footprint(Placement(p, x, y), kerf)));
  }

  lemma PlaceKeepsFreeSound(s: Sheet, p: Panel, x: real, y: real, kerf: real)
    requires FreeSound(s, kerf)
    ensures FreeSound(Place(s, p, x, y, kerf), kerf)
  {
    var r := Place(s, p, x, y, kerf);
    var placed := Footprint(Placement(p, x, y), kerf);
    var updated := UpdateFreeRects(s.freeRects, placed);
    PruneSubset(updated);
    forall q | q in r.freeRects
      ensures Contains(SheetRect(r), q)
      ensures forall k :: 0 <= k < |r.panels| ==> !Intersects(q, Footprint(r.panels[k], kerf))
    {
      assert q in updated;
      var s0 :| s0 in s.freeRects && Contains(s0, q);
      ContainsTransitive(SheetRect(s), s0, q);
      forall k | 0 <= k < |r.panels| ensures !Intersects(q, Footprint(r.panels[k], kerf)) {
        if k < |s.panels| {
          assert r.panels[k] == s.panels[k];
          ApartShrinks(s0, q, Footprint(s.panels[k], kerf));
        }
      }
    }
  }

  lemma PlaceKeepsFreeCovers(s: Sheet, p: Panel, x: real, y: real, kerf: real)
    requires FreeCovers(s, kerf) && Antichain(s.freeRects)
    ensures FreeCovers(Place(s, p, x, y, kerf), kerf)
  {
    var r := Place(s, p, x, y, kerf);
    var placed := Footprint(Placement(p, x, y), kerf);
    var updated := UpdateFreeRects(s.freeRects, placed);
    UpdateDistinct(s.freeRects, placed);
    forall px, py | Uncovered(r, kerf, px, py) ensures exists q :: q in r.freeRects && ContainsPoint(q, px, py) {
      assert forall k :: 0 <= k < |s.panels| ==> r.panels[k] == s.panels[k];
      assert Uncovered(s, kerf, px, py);
      assert r.panels[|s.panels|] == Placement(p, x, y);
      UpdateCovers(s.freeRects, placed, px, py);
      PruneCovers(updated, px, py);
    }
  }

  /**
   * A panel whose placed size fits in a free rectangle fits at that rectangle's
   * corner: it lies inside the free rectangle, hence on the sheet and clear of
   * every placed panel.
   */
  lemma FitsAtFreeCorner(s: Sheet, p: Panel, q: Rect, kerf: real)
    requires FreeSound(s, kerf) && q in s.freeRects
    requires PlacedWidth(p, kerf) <= q.w && PlacedHeight(p, kerf) <= q.h
    ensures Fits(s, p, q.x, q.y, kerf)
  {
    var rect := Footprint(Placement(p, q.x, q.y), kerf);
    assert Contains(q, rect);
    forall k | 0 <= k < |s.panels| ensures !Intersects(rect, Footprint(s.panels[k], kerf)) {
      ApartShrinks(q, rect, Footprint(s.panels[k], kerf));
    }
  }

  /** The efficiency times the sheet area is the filled area, which is the placed area. */
  lemma EfficiencyMeaning(s: Sheet, kerf: real)
    requires AreaTracked(s, kerf) && s.panels != [] && s.w * s.h != 0.0
    ensures Efficiency(s) * (s.w * s.h) == FilledArea(s.panels, kerf)
  {
  }
}

=== FILE: rectangles.dfy ===
/**
 * Axis-aligned rectangles given by their lower-left corner and size, the
 * `FreeRectangle` of the MaxRects packers, with its overlap and containment
 * tests. The beam-saw engine's sub-sheets and panel footprints are compared
 * with the same two tests.
 */
module Rectangles {

  datatype Rect = Rect(x: real, y: real, w: real, h: real) {

    function Area(): real {
      w * h
    }

    function Right(): real {
      x + w
    }

    function Top(): real {
      y + h
    }
  }

  /**
   * `FreeRectangle.intersects`: the rectangles share interior. The comparisons
   * are `<=`, so rectangles that only touch along an edge do not intersect.
   */
  predicate Intersects(a: Rect, b: Rect) {
    !(a.x + a.w <= b.x || b.x + b.w <= a.x || a.y + a.h <= b.y || b.y + b.h <= a.y)
  }

  /** `FreeRectangle.contains`: `b` lies inside `a`, edges included. */
  predicate Contains(a: Rect, b: Rect) {
    b.x >= a.x && b.y >= a.y && b.x + b.w <= a.x + a.w && b.y + b.h <= a.y + a.h
  }

  /** `FreeRectangle.contains_point`: half-open membership of a point. */
  predicate ContainsPoint(a: Rect, px: real, py: real) {
    a.x <= px < a.x + a.w && a.y <= py < a.y + a.h
  }

  lemma IntersectsSymmetric(a: Rect, b: Rect)
    ensures Intersects(a, b) <==> Intersects(b, a)
  {
  }

  /** Two rectangles that share only an edge, or only a corner, do not intersect. */
  lemma TouchingDoesNotIntersect(a: Rect, b: Rect)
    requires b.x == a.x + a.w || b.y == a.y + a.h
    ensures !Intersects(a, b) && !Intersects(b, a)
  {
  }

  lemma ContainsReflexive(a: Rect)
    ensures Contains(a, a)
  {
  }

  lemma ContainsTransitive(a: Rect, b: Rect, c: Rect)
    requires Contains(a, b) && Contains(b, c)
    ensures Contains(a, c)
  {
  }

  /** Containment in both directions is equality. */
  lemma ContainsAntisymmetric(a: Rect, b: Rect)
    requires Contains(a, b) && Contains(b, a)
    ensures a == b
  {
  }

  /**
   * A rectangle that does not intersect `b` still does not after shrinking:
   * whatever lies inside a rectangle apart from `b` is apart from `b`.
   */
  lemma ApartShrinks(a: Rect, a': Rect, b: Rect)
    requires Contains(a, a')
    requires !Intersects(a, b)
    ensures !Intersects(a', b) && !Intersects(b, a')
  {
  }

  /**
   * `Intersects` agrees with the point view: two rectangles with positive size
   * intersect exactly when some point lies (half-open) inside both.
   */
  lemma IntersectsIffCommonPoint(a: Rect, b: Rect)
    requires a.w > 0.0 && a.h > 0.0 && b.w > 0.0 && b.h > 0.0
    ensures Intersects(a, b) <==>
      exists px: real, py: real :: ContainsPoint(a, px, py) && ContainsPoint(b, px, py)
  {
    if Intersects(a, b) {
      var px := if a.x >= b.x then a.x else b.x;
      var py := if a.y >= b.y then a.y else b.y;
      assert ContainsPoint(a, px, py) && ContainsPoint(b, px, py);
    }
  }
}

=== FILE: run_geometry.dfy ===
/**
 * The geometric soundness of a beam-saw run: placed panels on the same sheet
 * never overlap and stay on their sheet up to the 1e-6 fit tolerance.
 *
 * Because `can_fit` accepts a panel up to 1e-6 larger than its sub-sheet, a
 * placed panel may reach 1e-6 past the sub-sheet's far edges. The invariant
 * therefore keeps the "reach" of every free sub-sheet (the sub-sheet grown by
 * 1e-6 to the right and to the top) clear of every placed panel and of the
 * reach of every other free sub-sheet. The guillotine cut keeps this only when
 * the kerf is at least 1e-6: the kerf gap then absorbs the overhang.
 */
module RunGeometry {
  import opened Rectangles
  import opened BeamSawTypes
  import opened Guillotine
  import opened BeamSawNesting

  /** The whole stock sheet. */
  function SheetRect(cfg: Config): Rect {
    Rect(0.0, 0.0, cfg.sheetWidth, cfg.sheetHeight)
  }

  /** The run's settings under which the geometric guarantees hold. */
  predicate SaneConfig(cfg: Config) {
    cfg.sheetWidth > 0.0 && cfg.sheetHeight > 0.0 && cfg.kerf >= Epsilon
  }

  ghost predicate NoDuplicates(s: seq<SubSheet>) {
    forall x :: multiset(s)[x] <= 1
  }

  /** A free sub-sheet on a sheet opened so far, with positive size, inside the stock sheet. */
  ghost predicate GoodFree(cfg: Config, run: RunState, s: SubSheet) {
    && s.sheetIndex <= run.currentSheet
    && s.width > 0.0 && s.height > 0.0
    && Contains(SheetRect(cfg), s.Region())
  }

  /** A placed panel on a sheet opened so far, with positive size, on the sheet up to the tolerance. */
  ghost predicate GoodPlaced(cfg: Config, run: RunState, q: PlacedPanel) {
    && q.sheetIndex <= run.currentSheet
    && q.width > 0.0 && q.height > 0.0
    && Contains(Reach(SheetRect(cfg)), q.Footprint())
  }

  /** Two distinct free sub-sheets of one sheet: their reaches do not overlap. */
  ghost predicate FreeApart(a: SubSheet, b: SubSheet) {
    a != b && a.sheetIndex == b.sheetIndex ==> !Intersects(Reach(a.Region()), Reach(b.Region()))
  }

  /** A placed panel and a free sub-sheet of one sheet: the panel is clear of the sub-sheet's reach. */
  ghost predicate ClearOf(q: PlacedPanel, s: SubSheet) {
    q.sheetIndex == s.sheetIndex ==> !Intersects(q.Footprint(), Reach(s.Region()))
  }

  /** Two placed panels of one sheet do not overlap. */
  ghost predicate PlacedApart(a: PlacedPanel, b: PlacedPanel) {
    a.sheetIndex == b.sheetIndex ==> !Intersects(a.Footprint(), b.Footprint())
  }

  /** The geometric invariant of a run. */
  ghost predicate Sound(cfg: Config, run: RunState) {
    && NoDuplicates(run.remaining)
    && (forall s :: s in run.remaining ==> GoodFree(cfg, run, s))
    && (forall q :: q in run.placed ==> GoodPlaced(cfg, run, q))
    && (forall a, b :: a in run.remaining && b in run.remaining ==> FreeApart(a, b))
    && (forall q, s :: q in run.placed && s in run.remaining ==> ClearOf(q, s))
    && (forall i, j :: 0 <= i < j < |run.placed| ==> PlacedApart(run.placed[i], run.placed[j]))
  }

  // ------------------------------------------------------------ rectangle facts

  lemma ReachGrows(a: Rect, b: Rect)
    requires Contains(a, b)
    ensures Contains(Reach(a), Reach(b))
  {
  }

  /** A positive rectangle's reach overlaps itself, so two sub-sheets whose reaches are apart differ. */
  lemma ReachSelf(s: SubSheet)
    requires s.width > 0.0 && s.height > 0.0
    ensures Intersects(Reach(s.Region()), Reach(s.Region()))
  {
  }

  lemma NoDuplicatesAppend(a: seq<SubSheet>, b: seq<SubSheet>)
    requires NoDuplicates(a) && NoDuplicates(b)
    requires forall x :: x in a ==> x !in b
    ensures NoDuplicates(a + b)
  {
    forall x ensures multiset(a + b)[x] <= 1 {
      assert multiset(a + b)[x] == multiset(a)[x] + multiset(b)[x];
      if x in a {
        assert x !in multiset(b);
      } else {
        assert x !in multiset(a);
      }
    }
  }

  /** Removing `x` from a list without duplicates removes it entirely and keeps the rest. */
  lemma RemoveFirstNoDuplicates(s: seq<SubSheet>, x: SubSheet)
    requires NoDuplicates(s)
    ensures NoDuplicates(RemoveFirst(s, x))
    ensures x !in RemoveFirst(s, x)
    ensures forall y :: y in RemoveFirst(s, x) <==> y in s && y != x
  {
    var r := RemoveFirst(s, x);
    forall y ensures multiset(r)[y] <= 1 && (y in r <==> y in s && y != x) {
      assert y in r <==> y in multiset(r);
      assert y in s <==> y in multiset(s);
    }
  }

  // ------------------------------------------------------------ placing

  /** What the search guarantees about a placement, in geometric terms. */
  ghost predicate Admissible(cfg: Config, run: RunState, pl: PanelPlacement) {
    && pl.subSheet in run.remaining
    && pl.subSheet.sheetIndex == run.currentSheet
    && 0.0 < pl.width <= pl.subSheet.width + Epsilon
    && 0.0 < pl.height <= pl.subSheet.height + Epsilon
  }

  /** The children of the cut: inside the parent, positive, clear of the new panel and of each other. */
  lemma ChildFacts(cfg: Config, run: RunState, pl: PanelPlacement)
    requires SaneConfig(cfg) && Sound(cfg, run) && Admissible(cfg, run, pl)
    ensures var sub := pl.subSheet;
      var kids := Children(CutOf(cfg, run, pl));
      && |kids| <= 2
      && (forall c :: c in kids ==>
            && c.sheetIndex == sub.sheetIndex
            && c.width > 0.0 && c.height > 0.0
            && Contains(sub.Region(), c.Region())
            && Contains(Reach(sub.Region()), Reach(c.Region()))
            && !Intersects(Reach(c.Region()), PlacedOf(pl).Footprint()))
      && (|kids| == 2 ==> kids[0] != kids[1] && !Intersects(Reach(kids[0].Region()), Reach(kids[1].Region())))
  {
    var sub := pl.subSheet;
    var ps := CutOf(cfg, run, pl);
    var kids := Children(ps);
    assert GoodFree(cfg, run, sub);
    ChildrenInsideAndApart(sub, pl.width, pl.height, cfg.kerf, cfg.preferredCut, run.nextCutId);
    ChildrenReachApart(sub, pl.width, pl.height, cfg.kerf, cfg.preferredCut, run.nextCutId);
    forall c | c in kids
      ensures Contains(Reach(sub.Region()), Reach(c.Region()))
      ensures !Intersects(Reach(c.Region()), PlacedOf(pl).Footprint())
    {
      var k :| 0 <= k < |kids| && kids[k] == c;
      assert c == ps[k].child;
      ReachGrows(sub.Region(), c.Region());
      assert PlacedOf(pl).Footprint() == UsedRegion(sub, pl.width, pl.height);
    }
    if |kids| == 2 {
      ReachSelf(kids[0]);
    }
  }

  /** A child of the cut is apart from, and differs from, every other free sub-sheet of the run. */
  lemma KidsApartFromRest(cfg: Config, run: RunState, pl: PanelPlacement)
    requires SaneConfig(cfg) && Sound(cfg, run) && Admissible(cfg, run, pl)
    ensures var rest := RemoveFirst(run.remaining, pl.subSheet);
      var kids := Children(CutOf(cfg, run, pl));
      forall y, c :: y in rest && c in kids ==>
        y != c && (y.sheetIndex == c.sheetIndex ==> !Intersects(Reach(y.Region()), Reach(c.Region())))
  {
    var sub := pl.subSheet;
    var rest := RemoveFirst(run.remaining, sub);
    var kids := Children(CutOf(cfg, run, pl));
    ChildFacts(cfg, run, pl);
    RemoveFirstNoDuplicates(run.remaining, sub);
    // a child lies within the reach of `sub`, which every other free sub-sheet of its sheet keeps clear of
    forall y, c | y in rest && c in kids
      ensures y != c && (y.sheetIndex == c.sheetIndex ==> !Intersects(Reach(y.Region()), Reach(c.Region())))
    {
      assert FreeApart(y, sub);
      if y.sheetIndex == c.sheetIndex {
        ApartShrinks(Reach(sub.Region()), Reach(c.Region()), Reach(y.Region()));
        ReachSelf(c);
      }
    }
  }

  lemma PlaceNoDuplicates(cfg: Config, run: RunState, pl: PanelPlacement)
    requires SaneConfig(cfg) && Sound(cfg, run) && Admissible(cfg, run, pl)
    ensures NoDuplicates(PlacePanel(cfg, run, pl).remaining)
  {
    var sub := pl.subSheet;
    var rest := RemoveFirst(run.remaining, sub);
    var kids := Children(CutOf(cfg, run, pl));
    ChildFacts(cfg, run, pl);
    KidsApartFromRest(cfg, run, pl);
    RemoveFirstNoDuplicates(run.remaining, sub);
    assert NoDuplicates(kids) by {
      forall x ensures multiset(kids)[x] <= 1 {
        if |kids| == 2 {
          assert kids == [kids[0]] + [kids[1]];
        } else if |kids| == 1 {
          assert kids == [kids[0]];
        }
      }
    }
    NoDuplicatesAppend(rest, kids);
  }

  lemma PlaceGoodFree(cfg: Config, run: RunState, pl: PanelPlacement)
    requires SaneConfig(cfg) && Sound(cfg, run) && Admissible(cfg, run, pl)
    ensures var r := PlacePanel(cfg, run, pl);
      forall s :: s in r.remaining ==> GoodFree(cfg, r, s)
  {
    var r := PlacePanel(cfg, run, pl);
    var sub := pl.subSheet;
    var kids := Children(CutOf(cfg, run, pl));
    ChildFacts(cfg, run, pl);
    RemoveFirstNoDuplicates(run.remaining, sub);
    assert GoodFree(cfg, run, sub);
    forall s | s in r.remaining ensures GoodFree(cfg, r, s) {
      if s in kids {
        ContainsTransitive(SheetRect(cfg), sub.Region(), s.Region());
      } else {
        assert GoodFree(cfg, run, s);
      }
    }
  }

  /** The two children of one cut keep their reaches apart, in either order. */
  lemma KidsApart(cfg: Config, run: RunState, pl: PanelPlacement)
    requires SaneConfig(cfg) && Sound(cfg, run) && Admissible(cfg, run, pl)
    ensures var kids := Children(CutOf(cfg, run, pl));
      forall a, b :: a in kids && b in kids ==> FreeApart(a, b)
  {
    var kids := Children(CutOf(cfg, run, pl));
    ChildFacts(cfg, run, pl);
    forall a, b | a in kids && b in kids && a != b ensures FreeApart(a, b) {
      assert |kids| == 2;
      if a == kids[1] {
        IntersectsSymmetric(Reach(a.Region()), Reach(b.Region()));
      }
    }
  }

  lemma PlaceFreeApart(cfg: Config, run: RunState, pl: PanelPlacement)
    requires SaneConfig(cfg) && Sound(cfg, run) && Admissible(cfg, run, pl)
    ensures var r := PlacePanel(cfg, run, pl);
      forall a, b :: a in r.remaining && b in r.remaining ==> FreeApart(a, b)
  {
    var r := PlacePanel(cfg, run, pl);
    var rest := RemoveFirst(run.remaining, pl.subSheet);
    var kids := Children(CutOf(cfg, run, pl));
    assert r.remaining == rest + kids;
    KidsApart(cfg, run, pl);
    KidsApartFromRest(cfg, run, pl);
    RemoveFirstNoDuplicates(run.remaining, pl.subSheet);
    forall a, b | a in rest + kids && b in rest + kids ensures FreeApart(a, b) {
      if a in kids && b in rest {
        IntersectsSymmetric(Reach(a.Region()), Reach(b.Region()));
      } else if a in rest && b in rest {
        assert FreeApart(a, b);
      }
    }
  }

  lemma PlacePlaced(cfg: Config, run: RunState, pl: PanelPlacement)
    requires SaneConfig(cfg) && Sound(cfg, run) && Admissible(cfg, run, pl)
    ensures var r := PlacePanel(cfg, run, pl);
      && (forall q :: q in r.placed ==> GoodPlaced(cfg, r, q))
      && (forall i, j :: 0 <= i < j < |r.placed| ==> PlacedApart(r.placed[i], r.placed[j]))
  {
    var r := PlacePanel(cfg, run, pl);
    var sub := pl.subSheet;
    var f := PlacedOf(pl);
    assert GoodFree(cfg, run, sub);
    assert Contains(Reach(sub.Region()), f.Footprint());
    forall q | q in r.placed ensures GoodPlaced(cfg, r, q) {
      if q == f {
        ReachGrows(SheetRect(cfg), sub.Region());
        ContainsTransitive(Reach(SheetRect(cfg)), Reach(sub.Region()), f.Footprint());
      } else {
        assert q in run.placed;
        assert GoodPlaced(cfg, run, q);
      }
    }
    forall i, j | 0 <= i < j < |r.placed| ensures PlacedApart(r.placed[i], r.placed[j]) {
      if j == |run.placed| {
        var q := r.placed[i];
        assert q == run.placed[i] && r.placed[j] == f;
        assert ClearOf(q, sub);
        if q.sheetIndex == f.sheetIndex {
          ApartShrinks(Reach(sub.Region()), f.Footprint(), q.Footprint());
        }
      } else {
        assert r.placed[i] == run.placed[i] && r.placed[j] == run.placed[j];
      }
    }
  }

  lemma PlaceClear(cfg: Config, run: RunState, pl: PanelPlacement)
    requires SaneConfig(cfg) && Sound(cfg, run) && Admissible(cfg, run, pl)
    ensures var r := PlacePanel(cfg, run, pl);
      forall q, s :: q in r.placed && s in r.remaining ==> ClearOf(q, s)
  {
    var r := PlacePanel(cfg, run, pl);
    var sub := pl.subSheet;
    var f := PlacedOf(pl);
    var rest := RemoveFirst(run.remaining, sub);
    var kids := Children(CutOf(cfg, run, pl));
    assert r.remaining == rest + kids;
    ChildFacts(cfg, run, pl);
    RemoveFirstNoDuplicates(run.remaining, sub);
    assert GoodFree(cfg, run, sub);
    assert Contains(Reach(sub.Region()), f.Footprint());
    forall q, s | q in r.placed && s in r.remaining ensures ClearOf(q, s) {
      if q.sheetIndex == s.sheetIndex {
        if q == f && s in kids {
          IntersectsSymmetric(Reach(s.Region()), f.Footprint());
        } else if q == f {
          assert FreeApart(s, sub);
          ApartShrinks(Reach(sub.Region()), f.Footprint(), Reach(s.Region()));
        } else if s in kids {
          assert q in run.placed;
          assert ClearOf(q, sub);
          IntersectsSymmetric(q.Footprint(), Reach(sub.Region()));
          ApartShrinks(Reach(sub.Region()), Reach(s.Region()), q.Footprint());
        } else {
          assert q in run.placed;
          assert ClearOf(q, s);
        }
      }
    }
  }

  /** Placing an admissible placement keeps the run sound. */
  lemma PlacePanelSound(cfg: Config, run: RunState, pl: PanelPlacement)
    requires SaneConfig(cfg) && Sound(cfg, run) && Admissible(cfg, run, pl)
    ensures Sound(cfg, PlacePanel(cfg, run, pl))
  {
    PlaceNoDuplicates(cfg, run, pl);
    PlaceGoodFree(cfg, run, pl);
    PlaceFreeApart(cfg, run, pl);
    PlacePlaced(cfg, run, pl);
    PlaceClear(cfg, run, pl);
  }

  // ------------------------------------------------------------ the run

  /** Opening a sheet keeps the run sound: nothing else lies on the new sheet. */
  lemma AddNewSheetSound(cfg: Config, run: RunState)
    requires SaneConfig(cfg) && Sound(cfg, run)
    ensures Sound(cfg, AddNewSheet(cfg, run))
  {
    var r := AddNewSheet(cfg, run);
    var full := FullSheet(cfg, r.currentSheet);
    forall s | s in run.remaining ensures s != full && s.sheetIndex != full.sheetIndex {
      assert GoodFree(cfg, run, s);
    }
    NoDuplicatesAppend(run.remaining, [full]);
    forall s | s in r.remaining ensures GoodFree(cfg, r, s) {
      if s != full {
        assert GoodFree(cfg, run, s);
      }
    }
    forall q | q in r.placed ensures GoodPlaced(cfg, r, q) && q.sheetIndex != full.sheetIndex {
      assert GoodPlaced(cfg, run, q);
    }
  }

  /** A placement chosen by the search is admissible when the panel has positive size. */
  lemma AttemptAdmissible(cfg: Config, run: RunState, p: Panel)
    requires p.width > 0.0 && p.height > 0.0
    requires Attempt(cfg, run, p).Some?
    ensures Admissible(cfg, run, Attempt(cfg, run, p).value)
  {
  }

  /** A successful attempt leaves a sound run; a failed one leaves the run as it was. */
  lemma TryPlaceSound(cfg: Config, run: RunState, p: Panel)
    requires SaneConfig(cfg) && Sound(cfg, run)
    requires p.width > 0.0 && p.height > 0.0
    ensures Sound(cfg, TryPlacePanel(cfg, run, p).0)
  {
    if Attempt(cfg, run, p).Some? {
      AttemptAdmissible(cfg, run, p);
      PlacePanelSound(cfg, run, Attempt(cfg, run, p).value);
    }
  }

  /** The warning list plays no part in the invariant. */
  lemma WarnSound(cfg: Config, run: RunState, p: Panel)
    requires Sound(cfg, run)
    ensures Sound(cfg, run.(warnings := run.warnings + [p]))
  {
    var r := run.(warnings := run.warnings + [p]);
    forall s | s in r.remaining ensures GoodFree(cfg, r, s) {
      assert GoodFree(cfg, run, s);
    }
    forall q | q in r.placed ensures GoodPlaced(cfg, r, q) {
      assert GoodPlaced(cfg, run, q);
    }
  }

  lemma StepSound(cfg: Config, run: RunState, p: Panel)
    requires SaneConfig(cfg) && Sound(cfg, run)
    requires p.width > 0.0 && p.height > 0.0
    ensures Sound(cfg, Step(cfg, run, p))
  {
    var first := TryPlacePanel(cfg, run, p);
    TryPlaceSound(cfg, run, p);
    if !first.1 {
      var withSheet := AddNewSheet(cfg, run);
      AddNewSheetSound(cfg, run);
      TryPlaceSound(cfg, withSheet, p);
      var second := TryPlacePanel(cfg, withSheet, p);
      if !second.1 {
        WarnSound(cfg, second.0, p);
      }
    }
  }

  lemma {:induction false} NestFromSound(cfg: Config, run: RunState, panels: seq<Panel>)
    requires SaneConfig(cfg) && Sound(cfg, run)
    requires forall p :: p in panels ==> p.width > 0.0 && p.height > 0.0
    ensures Sound(cfg, NestFrom(cfg, run, panels))
    decreases |panels|
  {
    if panels != [] {
      StepSound(cfg, run, panels[0]);
      NestFromSound(cfg, Step(cfg, run, panels[0]), panels[1..]);
    }
  }

  /**
   * With positive sheet and panel sizes and a kerf of at least 1e-6, two panels
   * `nest` places on the same sheet never overlap, and every placed panel lies
   * on its sheet up to the 1e-6 fit tolerance.
   */
  lemma NestNoOverlap(cfg: Config, panels: seq<Panel>)
    requires SaneConfig(cfg)
    requires forall p :: p in panels ==> p.width > 0.0 && p.height > 0.0
    ensures var r := Nest(cfg, panels);
      && (forall i, j :: 0 <= i < j < |r.placed| && r.placed[i].sheetIndex == r.placed[j].sheetIndex ==>
            !Intersects(r.placed[i].Footprint(), r.placed[j].Footprint()))
      && (forall k :: 0 <= k < |r.placed| ==> Contains(Reach(SheetRect(cfg)), r.placed[k].Footprint()))
  {
    NestSound(cfg, panels);
    var r := Nest(cfg, panels);
    forall i, j | 0 <= i < j < |r.placed| && r.placed[i].sheetIndex == r.placed[j].sheetIndex
      ensures !Intersects(r.placed[i].Footprint(), r.placed[j].Footprint())
    {
      assert PlacedApart(r.placed[i], r.placed[j]);
    }
    forall k | 0 <= k < |r.placed| ensures Contains(Reach(SheetRect(cfg)), r.placed[k].Footprint()) {
      assert GoodPlaced(cfg, r, r.placed[k]);
    }
  }

  /** The run `nest` ends in is sound. */
  lemma NestSound(cfg: Config, panels: seq<Panel>)
    requires SaneConfig(cfg)
    requires forall p :: p in panels ==> p.width > 0.0 && p.height > 0.0
    ensures Sound(cfg, Nest(cfg, panels))
  {
    var sorted := SortPanels(cfg.sortStrategy, panels);
    forall p | p in sorted ensures p.width > 0.0 && p.height > 0.0 {
      assert p in multiset(sorted);
    }
    AddNewSheetSound(cfg, Initial);
    NestFromSound(cfg, AddNewSheet(cfg, Initial), sorted);
  }
}

=== FILE: run_properties.dfy ===
/**
 * Properties of a whole nesting run: every panel ends up placed or warned
 * about, the result lists only grow, placements never go back to an older
 * sheet, cut ids are consecutive and every sub-sheet names the cut that
 * produced it.
 */
module RunProperties {
  import opened Optional
  import opened BeamSawTypes
  import opened Guillotine
  import opened BeamSawNesting

  function PanelsOf(placed: seq<PlacedPanel>): (r: seq<Panel>)
    ensures |r| == |placed| && forall k :: 0 <= k < |placed| ==> r[k] == placed[k].panel
  {
    if placed == [] then [] else [placed[0].panel] + PanelsOf(placed[1..])
  }

  lemma {:induction false} PanelsOfAppend(a: seq<PlacedPanel>, b: seq<PlacedPanel>)
    ensures PanelsOf(a + b) == PanelsOf(a) + PanelsOf(b)
  {
    assert PanelsOf(a + b) == PanelsOf(a) + PanelsOf(b);
  }

  /** The panels a run has dealt with: placed or warned about. */
  function Handled(run: RunState): multiset<Panel> {
    multiset(PanelsOf(run.placed)) + multiset(run.warnings)
  }

  // The three outcomes of one iteration of `nest`.

  lemma StepOnCurrentSheet(cfg: Config, run: RunState, p: Panel)
    requires Attempt(cfg, run, p).Some?
    ensures Step(cfg, run, p) == PlacePanel(cfg, run, Attempt(cfg, run, p).value)
  {
  }

  lemma StepOnNewSheet(cfg: Config, run: RunState, p: Panel)
    requires Attempt(cfg, run, p).None? && Attempt(cfg, AddNewSheet(cfg, run), p).Some?
    ensures Step(cfg, run, p) == PlacePanel(cfg, AddNewSheet(cfg, run), Attempt(cfg, AddNewSheet(cfg, run), p).value)
  {
  }

  lemma StepWarns(cfg: Config, run: RunState, p: Panel)
    requires Attempt(cfg, run, p).None? && Attempt(cfg, AddNewSheet(cfg, run), p).None?
    ensures Step(cfg, run, p) == AddNewSheet(cfg, run).(warnings := run.warnings + [p])
  {
  }

  /** Appending one placed record hands that record's panel over. */
  lemma AppendHandles(run: RunState, r: RunState, q: PlacedPanel)
    requires r.placed == run.placed + [q] && r.warnings == run.warnings
    ensures Handled(r) == Handled(run) + multiset{q.panel}
  {
    PanelsOfAppend(run.placed, [q]);
    assert PanelsOf([q]) == [q.panel];
    assert multiset(PanelsOf(r.placed)) == multiset(PanelsOf(run.placed)) + multiset{q.panel};
  }

  /** Appending one warning hands that panel over. */
  lemma WarnHandles(run: RunState, r: RunState, p: Panel)
    requires r.placed == run.placed && r.warnings == run.warnings + [p]
    ensures Handled(r) == Handled(run) + multiset{p}
  {
  }

  lemma PlacePanelHandles(cfg: Config, run: RunState, pl: PanelPlacement)
    ensures Handled(PlacePanel(cfg, run, pl)) == Handled(run) + multiset{pl.panel}
  {
    AppendHandles(run, PlacePanel(cfg, run, pl), PlacedOf(pl));
  }

  /** A successful attempt hands the panel over; a failed one changes nothing. */
  lemma TryPlaceHandles(cfg: Config, run: RunState, p: Panel)
    ensures var t := TryPlacePanel(cfg, run, p);
      Handled(t.0) == Handled(run) + (if t.1 then multiset{p} else multiset{})
  {
    if Attempt(cfg, run, p).Some? {
      PlacePanelHandles(cfg, run, Attempt(cfg, run, p).value);
    }
  }

  /** One iteration places the panel or warns about it, and forgets nothing. */
  lemma StepHandlesPanel(cfg: Config, run: RunState, p: Panel)
    ensures Handled(Step(cfg, run, p)) == Handled(run) + multiset{p}
  {
    var first := TryPlacePanel(cfg, run, p);
    TryPlaceHandles(cfg, run, p);
    if !first.1 {
      var withSheet := AddNewSheet(cfg, run);
      assert Handled(withSheet) == Handled(run);
      var second := TryPlacePanel(cfg, withSheet, p);
      TryPlaceHandles(cfg, withSheet, p);
      if !second.1 {
        WarnHandles(second.0, second.0.(warnings := second.0.warnings + [p]), p);
      }
    }
  }

  lemma ConsHandles(a: multiset<Panel>, b: multiset<Panel>, c: multiset<Panel>, panels: seq<Panel>)
    requires panels != []
    requires b == a + multiset{panels[0]} && c == b + multiset(panels[1..])
    ensures c == a + multiset(panels)
  {
    assert panels == [panels[0]] + panels[1..];
  }

  lemma {:induction false} NestFromHandles(cfg: Config, run: RunState, panels: seq<Panel>)
    ensures Handled(NestFrom(cfg, run, panels)) == Handled(run) + multiset(panels)
    decreases |panels|
  {
    if panels != [] {
      StepHandlesPanel(cfg, run, panels[0]);
      NestFromHandles(cfg, Step(cfg, run, panels[0]), panels[1..]);
      ConsHandles(Handled(run), Handled(Step(cfg, run, panels[0])),
                  Handled(NestFrom(cfg, Step(cfg, run, panels[0]), panels[1..])), panels);
    }
  }

  /**
   * No panel is lost or duplicated: the placed panels and the panels `nest` warned
   * about are together exactly the input panels.
   */
  lemma NestHandlesEveryPanel(cfg: Config, panels: seq<Panel>)
    ensures Handled(Nest(cfg, panels)) == multiset(panels)
    ensures |Nest(cfg, panels).placed| + |Nest(cfg, panels).warnings| == |panels|
  {
    var start := AddNewSheet(cfg, Initial);
    NestFromHandles(cfg, start, SortPanels(cfg.sortStrategy, panels));
    var r := Nest(cfg, panels);
    assert |Handled(r)| == |panels|;
  }

  // ------------------------------------------------------------ run invariant

  /**
   * The bookkeeping invariant of a run:
   * - every placed panel and free sub-sheet is on a sheet opened so far;
   * - placed panels are in non-decreasing sheet order (no sheet is revisited);
   * - cut `k` has id `k` and `next_cut_id` counts the cuts;
   * - a sub-sheet is either a full sheet (level 0, no parent cut) or names, as its
   *   parent, an earlier cut on its own sheet.
   */
  ghost predicate Consistent(run: RunState) {
    && (forall k :: 0 <= k < |run.placed| ==> run.placed[k].sheetIndex <= run.currentSheet)
    && (forall s :: s in run.remaining ==> s.sheetIndex <= run.currentSheet)
    && (forall i, j :: 0 <= i < j < |run.placed| ==> run.placed[i].sheetIndex <= run.placed[j].sheetIndex)
    && run.nextCutId == |run.cuts|
    && (forall k :: 0 <= k < |run.cuts| ==> run.cuts[k].id == k)
    && (forall s :: s in run.remaining ==> ParentLinked(run, s))
  }

  ghost predicate ParentLinked(run: RunState, s: SubSheet) {
    || (s.parentCutId == -1 && s.level == 0)
    || (&& 0 <= s.parentCutId < |run.cuts|
        && run.cuts[s.parentCutId].sheetIndex == s.sheetIndex
        && s.level >= 1)
  }

  lemma {:induction false} InitialConsistent(cfg: Config)
    ensures Consistent(AddNewSheet(cfg, Initial))
  {
  }

  lemma {:induction false} AddNewSheetConsistent(cfg: Config, run: RunState)
    requires Consistent(run)
    ensures Consistent(AddNewSheet(cfg, run))
  {
    var r := AddNewSheet(cfg, run);
    forall s | s in r.remaining ensures s.sheetIndex <= r.currentSheet && ParentLinked(r, s) {
      if s !in run.remaining {
        assert s == FullSheet(cfg, r.currentSheet);
      } else {
        assert ParentLinked(run, s);
      }
    }
  }

  lemma {:induction false} RemoveFirstSubset<T>(s: seq<T>, x: T, y: T)
    requires y in RemoveFirst(s, x)
    ensures y in s
  {
    if x in s {
      assert y in multiset(RemoveFirst(s, x));
      assert y in multiset(s);
    }
  }

  /** The pieces of one cut of `sub`, numbered from `nextId`, each child naming its own cut. */
  ghost predicate CutPieces(ps: seq<Piece>, sub: SubSheet, nextId: nat) {
    forall k :: 0 <= k < |ps| ==>
      && ps[k].cut.id == nextId + k
      && ps[k].child.parentCutId == ps[k].cut.id
      && ps[k].child.level == sub.level + 1
      && ps[k].child.sheetIndex == sub.sheetIndex
      && ps[k].cut.sheetIndex == sub.sheetIndex
  }

  /** Appending the cuts of one cut keeps the numbering of cuts. */
  lemma CutsStayNumbered(run: RunState, r: RunState, sub: SubSheet, ps: seq<Piece>)
    requires Consistent(run) && CutPieces(ps, sub, run.nextCutId)
    requires r.cuts == run.cuts + Cuts(ps) && r.nextCutId == run.nextCutId + |ps|
    ensures r.nextCutId == |r.cuts|
    ensures forall k :: 0 <= k < |r.cuts| ==> r.cuts[k].id == k
  {
    NumberedAppend(run.cuts, Cuts(ps));
  }

  lemma NumberedAppend(a: seq<CutLine>, b: seq<CutLine>)
    requires forall k :: 0 <= k < |a| ==> a[k].id == k
    requires forall k :: 0 <= k < |b| ==> b[k].id == |a| + k
    ensures forall k :: 0 <= k < |a + b| ==> (a + b)[k].id == k
  {
  }

  /** A child of the cut names the cut it came from, which lies on its sheet. */
  lemma ChildLinked(run: RunState, r: RunState, sub: SubSheet, ps: seq<Piece>, s: SubSheet)
    requires run.nextCutId == |run.cuts| && CutPieces(ps, sub, run.nextCutId)
    requires sub.sheetIndex <= r.currentSheet
    requires r.cuts == run.cuts + Cuts(ps)
    requires s in Children(ps)
    ensures s.sheetIndex <= r.currentSheet && ParentLinked(r, s)
  {
    var n := |run.cuts|;
    var kids := Children(ps);
    var k :| 0 <= k < |kids| && kids[k] == s;
    assert s == ps[k].child;
    assert r.cuts[n + k] == Cuts(ps)[k] == ps[k].cut;
  }

  /** A free sub-sheet that was linked stays linked when cuts are appended. */
  lemma OldLinked(run: RunState, r: RunState, s: SubSheet)
    requires s.sheetIndex <= run.currentSheet && ParentLinked(run, s)
    requires |run.cuts| <= |r.cuts| && r.cuts[..|run.cuts|] == run.cuts
    requires r.currentSheet == run.currentSheet
    ensures s.sheetIndex <= r.currentSheet && ParentLinked(r, s)
  {
    if s.parentCutId != -1 {
      assert r.cuts[s.parentCutId] == r.cuts[..|run.cuts|][s.parentCutId];
    }
  }

  /** Replacing `sub` by the children of its cut keeps every free sub-sheet linked to its parent cut. */
  lemma ChildrenStayLinked(run: RunState, r: RunState, sub: SubSheet, ps: seq<Piece>)
    requires Consistent(run) && CutPieces(ps, sub, run.nextCutId)
    requires sub.sheetIndex == run.currentSheet
    requires r.cuts == run.cuts + Cuts(ps) && r.currentSheet == run.currentSheet
    requires r.remaining == RemoveFirst(run.remaining, sub) + Children(ps)
    ensures forall s :: s in r.remaining ==> s.sheetIndex <= r.currentSheet && ParentLinked(r, s)
  {
    var kids := Children(ps);
    assert r.cuts[..|run.cuts|] == run.cuts;
    forall s | s in r.remaining ensures s.sheetIndex <= r.currentSheet && ParentLinked(r, s) {
      if s in kids {
        ChildLinked(run, r, sub, ps, s);
      } else {
        RemoveFirstSubset(run.remaining, sub, s);
        OldLinked(run, r, s);
      }
    }
  }

  /** Appending a panel on the current sheet keeps placements in sheet order and on opened sheets. */
  lemma PlacedStayOrdered(run: RunState, r: RunState, q: PlacedPanel)
    requires Consistent(run) && q.sheetIndex == run.currentSheet
    requires r.placed == run.placed + [q] && r.currentSheet == run.currentSheet
    ensures forall k :: 0 <= k < |r.placed| ==> r.placed[k].sheetIndex <= r.currentSheet
    ensures forall i, j :: 0 <= i < j < |r.placed| ==> r.placed[i].sheetIndex <= r.placed[j].sheetIndex
  {
    forall k | 0 <= k < |r.placed| ensures r.placed[k].sheetIndex <= r.currentSheet {
      if k < |run.placed| {
        assert r.placed[k] == run.placed[k];
      }
    }
    forall i, j | 0 <= i < j < |r.placed|
      ensures r.placed[i].sheetIndex <= r.placed[j].sheetIndex
    {
      assert r.placed[i] == run.placed[i];
      if j < |run.placed| {
        assert r.placed[j] == run.placed[j];
      }
    }
  }

  /** Placing on the current sheet keeps the invariant. */
  lemma PlacePanelConsistent(cfg: Config, run: RunState, pl: PanelPlacement)
    requires Consistent(run)
    requires pl.subSheet.sheetIndex == run.currentSheet
    ensures Consistent(PlacePanel(cfg, run, pl))
  {
    var r := PlacePanel(cfg, run, pl);
    var ps := CutOf(cfg, run, pl);
    assert CutPieces(ps, pl.subSheet, run.nextCutId);
    CutsStayNumbered(run, r, pl.subSheet, ps);
    ChildrenStayLinked(run, r, pl.subSheet, ps);
    PlacedStayOrdered(run, r, PlacedOf(pl));
  }

  lemma {:induction false} TryPlacePanelConsistent(cfg: Config, run: RunState, p: Panel)
    requires Consistent(run)
    ensures Consistent(TryPlacePanel(cfg, run, p).0)
  {
    var a := Attempt(cfg, run, p);
    if a.Some? {
      PlacePanelConsistent(cfg, run, a.value);
    }
  }

  lemma WarnConsistent(run: RunState, p: Panel)
    requires Consistent(run)
    ensures Consistent(run.(warnings := run.warnings + [p]))
  {
    var r := run.(warnings := run.warnings + [p]);
    forall s | s in r.remaining ensures ParentLinked(r, s) {
      assert ParentLinked(run, s);
    }
  }

  lemma StepConsistent(cfg: Config, run: RunState, p: Panel)
    requires Consistent(run)
    ensures Consistent(Step(cfg, run, p))
  {
    var first := TryPlacePanel(cfg, run, p);
    TryPlacePanelConsistent(cfg, run, p);
    if !first.1 {
      var withSheet := AddNewSheet(cfg, run);
      AddNewSheetConsistent(cfg, run);
      TryPlacePanelConsistent(cfg, withSheet, p);
      var second := TryPlacePanel(cfg, withSheet, p);
      if !second.1 {
        WarnConsistent(second.0, p);
      }
    }
  }

  /** The appends-only facts for one state change `run` to `r`. */
  ghost predicate AppendsOnly(run: RunState, r: RunState) {
    && |run.placed| <= |r.placed| <= |run.placed| + 1
    && |run.cuts| <= |r.cuts| && |run.warnings| <= |r.warnings|
    && r.placed[..|run.placed|] == run.placed
    && r.cuts[..|run.cuts|] == run.cuts
    && r.warnings[..|run.warnings|] == run.warnings
    && run.currentSheet <= r.currentSheet <= run.currentSheet + 1
    && (forall k :: |run.placed| <= k < |r.placed| ==> r.placed[k].sheetIndex == r.currentSheet)
  }

  lemma PlacePanelAppends(cfg: Config, run: RunState, pl: PanelPlacement)
    requires pl.subSheet.sheetIndex == run.currentSheet
    ensures AppendsOnly(run, PlacePanel(cfg, run, pl))
  {
    var r := PlacePanel(cfg, run, pl);
    assert r.placed[..|run.placed|] == run.placed;
    assert r.cuts[..|run.cuts|] == run.cuts;
  }

  lemma WarningAppends(cfg: Config, run: RunState, p: Panel)
    ensures AppendsOnly(run, AddNewSheet(cfg, run).(warnings := run.warnings + [p]))
  {
    var r := AddNewSheet(cfg, run).(warnings := run.warnings + [p]);
    assert r.warnings[..|run.warnings|] == run.warnings;
  }

  /** Opening a sheet first and then only appending is still only appending. */
  lemma NewSheetThenAppends(run: RunState, mid: RunState, r: RunState)
    requires mid.placed == run.placed && mid.cuts == run.cuts && mid.warnings == run.warnings
    requires run.currentSheet <= mid.currentSheet <= run.currentSheet + 1
    requires AppendsOnly(mid, r) && r.currentSheet == mid.currentSheet
    ensures AppendsOnly(run, r)
  {
  }

  /**
   * One iteration only appends: earlier placements, cuts and warnings are kept,
   * the sheet counter advances by at most one, and a panel placed in this
   * iteration lies on the sheet that is current afterwards.
   */
  lemma {:induction false} StepAppendsOnly(cfg: Config, run: RunState, p: Panel)
    ensures AppendsOnly(run, Step(cfg, run, p))
  {
    var first := TryPlacePanel(cfg, run, p);
    if first.1 {
      PlacePanelAppends(cfg, run, Attempt(cfg, run, p).value);
    } else {
      var withSheet := AddNewSheet(cfg, run);
      var second := TryPlacePanel(cfg, withSheet, p);
      if second.1 {
        PlacePanelAppends(cfg, withSheet, Attempt(cfg, withSheet, p).value);
        NewSheetThenAppends(run, withSheet, second.0);
      } else {
        WarningAppends(cfg, run, p);
      }
    }
  }

  lemma {:induction false} NestFromConsistent(cfg: Config, run: RunState, panels: seq<Panel>)
    requires Consistent(run)
    ensures Consistent(NestFrom(cfg, run, panels))
    decreases |panels|
  {
    if panels != [] {
      StepConsistent(cfg, run, panels[0]);
      NestFromConsistent(cfg, Step(cfg, run, panels[0]), panels[1..]);
    }
  }

  /**
   * The result of `nest`: every placement and free sub-sheet lies on one of the
   * `current_sheet_index + 1` sheets, placements come sheet by sheet, the cuts are
   * numbered 0, 1, 2, ... in emission order, and every non-root sub-sheet names a
   * cut on its own sheet as its parent.
   */
  lemma NestConsistent(cfg: Config, panels: seq<Panel>)
    ensures var r := Nest(cfg, panels);
      && (forall k :: 0 <= k < |r.placed| ==> r.placed[k].sheetIndex < r.currentSheet + 1)
      && (forall i, j :: 0 <= i < j < |r.placed| ==> r.placed[i].sheetIndex <= r.placed[j].sheetIndex)
      && (forall k :: 0 <= k < |r.cuts| ==> r.cuts[k].id == k)
      && r.nextCutId == |r.cuts|
      && (forall s :: s in r.remaining ==>
            || (s.parentCutId == -1 && s.level == 0)
            || (0 <= s.parentCutId < |r.cuts| && r.cuts[s.parentCutId].sheetIndex == s.sheetIndex))
  {
    InitialConsistent(cfg);
    NestFromConsistent(cfg, AddNewSheet(cfg, Initial), SortPanels(cfg.sortStrategy, panels));
  }
}

=== FILE: run_statistics.dfy ===
/**
 * The statistics getters of the beam-saw engine: the sheet count, the overall
 * efficiency and the per-sheet utilisation, all in percent.
 */
module RunStatistics {
  import opened BeamSawTypes
  import opened BeamSawNesting
  import RunProperties

  /** Sum of `width * height` over placed panels. */
  function PlacedArea(ps: seq<PlacedPanel>): (r: real)
    ensures ps == [] ==> r == 0.0
  {
    if ps == [] then 0.0 else ps[0].width * ps[0].height + PlacedArea(ps[1..])
  }

  /** The placed area of two lists laid end to end is the sum of their placed areas. */
  lemma {:induction false} PlacedAreaAppend(ps: seq<PlacedPanel>, qs: seq<PlacedPanel>)
    ensures PlacedArea(ps + qs) == PlacedArea(ps) + PlacedArea(qs)
  {
    if ps != [] {
      assert (ps + qs)[1..] == ps[1..] + qs;
      PlacedAreaAppend(ps[1..], qs);
    } else {
      assert ps + qs == qs;
    }
  }

  /** Sum of `width * height` over the placed panels of sheet `index`. */
  function AreaOnSheet(ps: seq<PlacedPanel>, index: int): (r: real)
    ensures (forall k :: 0 <= k < |ps| ==> ps[k].sheetIndex != index) ==> r == 0.0
  {
    if ps == [] then 0.0
    else (if ps[0].sheetIndex == index then ps[0].width * ps[0].height else 0.0) + AreaOnSheet(ps[1..], index)
  }

  function Sum(xs: seq<real>): real {
    if xs == [] then 0.0 else xs[0] + Sum(xs[1..])
  }

  /** `get_sheet_count`: the sheets opened so far. */
  function SheetCount(run: RunState): (r: nat)
    ensures r >= 1 && r - 1 == run.currentSheet
  {
    run.currentSheet + 1
  }

  function SheetArea(cfg: Config): real {
    cfg.sheetWidth * cfg.sheetHeight
  }

  /** `part / total * 100.0 if total > 0 else 0.0`, the percentage both getters compute. */
  function Percent(part: real, total: real): real {
    if total > 0.0 then part / total * 100.0 else 0.0
  }

  /** A percentage times its total is the part, scaled by 100. */
  lemma PercentMeaning(part: real, total: real)
    ensures total > 0.0 ==> Percent(part, total) * total == part * 100.0
    ensures total <= 0.0 ==> Percent(part, total) == 0.0
  {
  }

  /**
   * `get_overall_efficiency`: placed area over the area of all opened sheets, in
   * percent; 0 when that total area is not positive.
   */
  function OverallEfficiency(cfg: Config, run: RunState): (r: real)
    ensures SheetArea(cfg) <= 0.0 || run.placed == [] ==> r == 0.0
  {
    Percent(PlacedArea(run.placed), SheetCount(run) as real * SheetArea(cfg))
  }

  /**
   * The overall efficiency times the area of all opened sheets is 100 times the
   * placed area; it is 0 when the sheet area is not positive.
   */
  lemma EfficiencyMeaning(cfg: Config, run: RunState)
    ensures var total := SheetCount(run) as real * SheetArea(cfg);
      SheetArea(cfg) > 0.0 ==> OverallEfficiency(cfg, run) * total == PlacedArea(run.placed) * 100.0
    ensures SheetArea(cfg) <= 0.0 ==> OverallEfficiency(cfg, run) == 0.0
  {
    var total := SheetCount(run) as real * SheetArea(cfg);
    PercentMeaning(PlacedArea(run.placed), total);
  }

  /**
   * `get_sheet_utilization`: one entry per opened sheet, the placed area on it
   * over the sheet area, in percent; 0 when the sheet area is not positive.
   */
  function SheetUtilization(cfg: Config, run: RunState): (r: seq<real>)
    ensures |r| == SheetCount(run)
  {
    UtilizationFrom(cfg, run.placed, 0, SheetCount(run))
  }

  function UtilizationFrom(cfg: Config, ps: seq<PlacedPanel>, from: nat, count: nat): (r: seq<real>)
    requires from <= count
    ensures |r| == count - from
    decreases count - from
  {
    if from == count then []
    else [Percent(AreaOnSheet(ps, from), SheetArea(cfg))] + UtilizationFrom(cfg, ps, from + 1, count)
  }

  lemma {:induction false} UtilizationFromAt(cfg: Config, ps: seq<PlacedPanel>, from: nat, count: nat, i: nat)
    requires from <= count && i < count - from
    ensures UtilizationFrom(cfg, ps, from, count)[i] == Percent(AreaOnSheet(ps, from + i), SheetArea(cfg))
    decreases count - from
  {
    var rest := UtilizationFrom(cfg, ps, from + 1, count);
    assert UtilizationFrom(cfg, ps, from, count) == [Percent(AreaOnSheet(ps, from), SheetArea(cfg))] + rest;
    if i > 0 {
      UtilizationFromAt(cfg, ps, from + 1, count, i - 1);
      assert (from + 1) + (i - 1) == from + i;
    }
  }

  /** Entry `i` of the utilisation list is the percentage of sheet `i` that placed panels cover. */
  lemma SheetUtilizationEntries(cfg: Config, run: RunState)
    ensures var r := SheetUtilization(cfg, run);
      forall i :: 0 <= i < |r| ==> r[i] == Percent(AreaOnSheet(run.placed, i), SheetArea(cfg))
  {
    var r := SheetUtilization(cfg, run);
    assert r == UtilizationFrom(cfg, run.placed, 0, SheetCount(run));
    forall i | 0 <= i < |r| ensures r[i] == Percent(AreaOnSheet(run.placed, i), SheetArea(cfg)) {
      UtilizationFromAt(cfg, run.placed, 0, SheetCount(run), i);
    }
  }

  // ------------------------------------------------------------ the average

  /** Sum of `AreaOnSheet(ps, i)` for `from <= i < count`. */
  function AreaOnSheets(ps: seq<PlacedPanel>, from: nat, count: nat): real
    requires from <= count
    decreases count - from
  {
    if from == count then 0.0 else AreaOnSheet(ps, from) + AreaOnSheets(ps, from + 1, count)
  }

  lemma {:induction false} AreaOnSheetsCons(p: PlacedPanel, ps: seq<PlacedPanel>, from: nat, count: nat)
    requires from <= count
    ensures AreaOnSheets([p] + ps, from, count)
         == AreaOnSheets(ps, from, count) + (if from <= p.sheetIndex < count then p.width * p.height else 0.0)
    decreases count - from
  {
    if from < count {
      assert ([p] + ps)[1..] == ps;
      AreaOnSheetsCons(p, ps, from + 1, count);
    }
  }

  /**
   * When every panel lies on one of the sheets `0 .. count-1`, the per-sheet
   * areas add up to the whole placed area.
   */
  lemma {:induction false} AreaOnSheetsPartition(ps: seq<PlacedPanel>, count: nat)
    requires forall k :: 0 <= k < |ps| ==> ps[k].sheetIndex < count
    ensures AreaOnSheets(ps, 0, count) == PlacedArea(ps)
  {
    if ps == [] {
      AreaOnSheetsZero(count);
    } else {
      var p := ps[0];
      var tail := ps[1..];
      assert ps == [p] + tail;
      assert forall k :: 0 <= k < |tail| ==> tail[k] == ps[k + 1];
      AreaOnSheetsCons(p, tail, 0, count);
      AreaOnSheetsPartition(tail, count);
      assert PlacedArea(ps) == p.width * p.height + PlacedArea(tail);
    }
  }

  lemma {:induction false} AreaOnSheetsZero(count: nat)
    ensures forall from: nat :: from <= count ==> AreaOnSheets([], from, count) == 0.0
  {
    forall from: nat | from <= count ensures AreaOnSheets([], from, count) == 0.0 {
      AreaOnSheetsZeroFrom(from, count);
    }
  }

  lemma {:induction false} AreaOnSheetsZeroFrom(from: nat, count: nat)
    requires from <= count
    ensures AreaOnSheets([], from, count) == 0.0
    decreases count - from
  {
    if from < count {
      AreaOnSheetsZeroFrom(from + 1, count);
    }
  }

  lemma {:induction false} SumUtilizationFrom(cfg: Config, ps: seq<PlacedPanel>, from: nat, count: nat)
    requires from <= count
    ensures Sum(UtilizationFrom(cfg, ps, from, count)) == Percent(AreaOnSheets(ps, from, count), SheetArea(cfg))
    decreases count - from
  {
    var a := SheetArea(cfg);
    if from < count {
      var u := UtilizationFrom(cfg, ps, from, count);
      var rest := UtilizationFrom(cfg, ps, from + 1, count);
      assert u[1..] == rest;
      SumUtilizationFrom(cfg, ps, from + 1, count);
      PercentAdd(AreaOnSheet(ps, from), AreaOnSheets(ps, from + 1, count), a);
    }
  }

  /**
   * The overall efficiency is the mean of the per-sheet utilisations, provided
   * every placed panel lies on an opened sheet, as in every run of `nest`.
   */
  lemma UtilizationAverages(cfg: Config, run: RunState)
    requires forall k :: 0 <= k < |run.placed| ==> run.placed[k].sheetIndex <= run.currentSheet
    ensures Sum(SheetUtilization(cfg, run)) == SheetCount(run) as real * OverallEfficiency(cfg, run)
  {
    UtilizationSum(cfg, run);
    MeanOfSum(cfg, run, Sum(SheetUtilization(cfg, run)));
  }

  /** A sum equal to the placed area as a percentage of one sheet is the sheet count times the efficiency. */
  lemma MeanOfSum(cfg: Config, run: RunState, sum: real)
    requires sum == Percent(PlacedArea(run.placed), SheetArea(cfg))
    ensures sum == SheetCount(run) as real * OverallEfficiency(cfg, run)
  {
    AverageOfPercents(sum, PlacedArea(run.placed), SheetArea(cfg), SheetCount(run), OverallEfficiency(cfg, run));
  }

  /** The utilisations add up to the placed area as a percentage of one sheet. */
  lemma UtilizationSum(cfg: Config, run: RunState)
    requires forall k :: 0 <= k < |run.placed| ==> run.placed[k].sheetIndex <= run.currentSheet
    ensures Sum(SheetUtilization(cfg, run)) == Percent(PlacedArea(run.placed), SheetArea(cfg))
  {
    SumUtilizationFrom(cfg, run.placed, 0, SheetCount(run));
    AreaOnSheetsPartition(run.placed, SheetCount(run));
  }

  lemma AverageOfPercents(sum: real, part: real, area: real, n: nat, overall: real)
    requires n >= 1
    requires sum == Percent(part, area)
    requires overall == Percent(part, n as real * area)
    ensures sum == n as real * overall
  {
    PercentOverCount(part, area, n);
  }

  lemma PercentAdd(x: real, y: real, total: real)
    ensures Percent(x + y, total) == Percent(x, total) + Percent(y, total)
  {
    if total > 0.0 {
      assert (x + y) / total == x / total + y / total;
    }
  }

  lemma PercentOverCount(x: real, area: real, n: nat)
    requires n >= 1
    ensures Percent(x, area) == n as real * Percent(x, n as real * area)
  {
    if area > 0.0 {
      var m := n as real;
      assert m * area > 0.0;
      assert x / area == m * (x / (m * area));
    } else {
      assert n as real * area <= 0.0;
    }
  }

  /** For the result of `nest`, the overall efficiency is the mean sheet utilisation. */
  lemma NestUtilizationAverages(cfg: Config, panels: seq<Panel>)
    ensures var r := Nest(cfg, panels);
      Sum(SheetUtilization(cfg, r)) == SheetCount(r) as real * OverallEfficiency(cfg, r)
  {
    RunProperties.NestConsistent(cfg, panels);
    UtilizationAverages(cfg, Nest(cfg, panels));
  }
}

=== FILE: sorting.dfy ===
/**
 * Stable sorting by a lexicographic key pair.
 *
 * Every sort in the nesting programs is Python's `sorted(xs, key=..., reverse=...)`,
 * which is stable in both directions: elements with equal keys keep their input
 * order, also when `reverse=True`. The model uses one insertion sort that inserts
 * each element after every element whose key it does not strictly precede, which
 * is exactly that behaviour. Keys are pairs compared lexicographically, so that the
 * tuple key `(h, w)` and the single keys (`area`, `max_dimension`, ...) share it;
 * a single key puts 0 in the secondary slot.
 */
module Sorting {

  datatype SortKey = SortKey(primary: real, secondary: real)

  /** Strict lexicographic order on keys, as Python orders tuples of floats. */
  predicate KeyLt(a: SortKey, b: SortKey) {
    a.primary < b.primary || (a.primary == b.primary && a.secondary < b.secondary)
  }

  /** `a` must come strictly before `b` in a sort with the given direction. */
  predicate StrictlyBefore(a: SortKey, b: SortKey, descending: bool) {
    if descending then KeyLt(b, a) else KeyLt(a, b)
  }

  /** `a` may come before `b`: it does not strictly follow it. */
  predicate InOrder(a: SortKey, b: SortKey, descending: bool) {
    !StrictlyBefore(b, a, descending)
  }

  ghost predicate Ordered<T>(s: seq<T>, key: T -> SortKey, descending: bool) {
    forall i, j :: 0 <= i < j < |s| ==> InOrder(key(s[i]), key(s[j]), descending)
  }

  /** The elements of `s` whose key is `k`, in their order in `s`. */
  function KeyClass<T>(s: seq<T>, key: T -> SortKey, k: SortKey): seq<T> {
    if s == [] then []
    else (if key(s[0]) == k then [s[0]] else []) + KeyClass(s[1..], key, k)
  }

  /** Inserts `x` into `s` in front of the first element that `x` strictly precedes. */
  function Insert<T>(s: seq<T>, x: T, key: T -> SortKey, descending: bool): (r: seq<T>)
    ensures |r| == |s| + 1
    ensures multiset(r) == multiset(s) + multiset{x}
  {
    if s == [] then [x]
    else if StrictlyBefore(key(x), key(s[0]), descending) then [x] + s
    else
      var rest := Insert(s[1..], x, key, descending);
      assert s == [s[0]] + s[1..];
      [s[0]] + rest
  }

  /** `sorted(xs, key=key, reverse=descending)`. */
  function SortBy<T>(xs: seq<T>, key: T -> SortKey, descending: bool): (r: seq<T>)
    ensures |r| == |xs|
    ensures multiset(r) == multiset(xs)
    decreases |xs|
  {
    if xs == [] then []
    else
      var init := xs[..|xs| - 1];
      assert xs == init + [xs[|xs| - 1]];
      Insert(SortBy(init, key, descending), xs[|xs| - 1], key, descending)
  }

  lemma OrderedTail<T>(s: seq<T>, key: T -> SortKey, descending: bool)
    requires Ordered(s, key, descending) && s != []
    ensures Ordered(s[1..], key, descending)
  {
    var tail := s[1..];
    forall i, j | 0 <= i < j < |tail|
      ensures InOrder(key(tail[i]), key(tail[j]), descending)
    {
      assert tail[i] == s[i + 1] && tail[j] == s[j + 1];
    }
  }

  /** Putting in front an element that may precede every element keeps the order. */
  lemma OrderedCons<T>(x: T, s: seq<T>, key: T -> SortKey, descending: bool)
    requires Ordered(s, key, descending)
    requires forall j :: 0 <= j < |s| ==> InOrder(key(x), key(s[j]), descending)
    ensures Ordered([x] + s, key, descending)
  {
    var r := [x] + s;
    forall i, j | 0 <= i < j < |r|
      ensures InOrder(key(r[i]), key(r[j]), descending)
    {
      if i == 0 {
        assert r[j] == s[j - 1];
      } else {
        assert r[i] == s[i - 1] && r[j] == s[j - 1];
      }
    }
  }

  /** Strict precedence followed by "may precede" is strict precedence. */
  lemma BeforeThenInOrder(a: SortKey, b: SortKey, c: SortKey, descending: bool)
    requires StrictlyBefore(a, b, descending) && InOrder(b, c, descending)
    ensures StrictlyBefore(a, c, descending) && InOrder(a, c, descending)
  {
  }

  lemma {:induction false} InsertOrdered<T>(s: seq<T>, x: T, key: T -> SortKey, descending: bool)
    requires Ordered(s, key, descending)
    ensures Ordered(Insert(s, x, key, descending), key, descending)
    decreases |s|
  {
    if s == [] {
    } else if StrictlyBefore(key(x), key(s[0]), descending) {
      forall j | 0 <= j < |s| ensures InOrder(key(x), key(s[j]), descending) {
        if j > 0 {
          assert InOrder(key(s[0]), key(s[j]), descending);
          BeforeThenInOrder(key(x), key(s[0]), key(s[j]), descending);
        }
      }
      OrderedCons(x, s, key, descending);
    } else {
      var tail := s[1..];
      OrderedTail(s, key, descending);
      InsertOrdered(tail, x, key, descending);
      var rest := Insert(tail, x, key, descending);
      assert multiset(rest) == multiset(tail) + multiset{x};
      forall j | 0 <= j < |rest|
        ensures InOrder(key(s[0]), key(rest[j]), descending)
      {
        assert rest[j] in multiset(rest);
        if rest[j] != x {
          assert rest[j] in multiset(tail);
          var k :| 0 <= k < |tail| && tail[k] == rest[j];
          assert tail[k] == s[k + 1];
        }
      }
      OrderedCons(s[0], rest, key, descending);
    }
  }

  /** The result of `SortBy` is ordered by the key in the requested direction. */
  lemma {:induction false} SortByOrdered<T>(xs: seq<T>, key: T -> SortKey, descending: bool)
    ensures Ordered(SortBy(xs, key, descending), key, descending)
    decreases |xs|
  {
    if xs != [] {
      var init := xs[..|xs| - 1];
      SortByOrdered(init, key, descending);
      InsertOrdered(SortBy(init, key, descending), xs[|xs| - 1], key, descending);
    }
  }

  lemma {:induction false} KeyClassAppend<T>(a: seq<T>, b: seq<T>, key: T -> SortKey, k: SortKey)
    ensures KeyClass(a + b, key, k) == KeyClass(a, key, k) + KeyClass(b, key, k)
    decreases |a|
  {
    if a == [] {
      assert a + b == b;
    } else {
      assert (a + b)[1..] == a[1..] + b;
      KeyClassAppend(a[1..], b, key, k);
    }
  }

  /** Nothing in an ordered sequence that `x` strictly precedes has the key of `x`. */
  lemma {:induction false} KeyClassEmptyAfter<T>(s: seq<T>, x: T, key: T -> SortKey, descending: bool)
    requires Ordered(s, key, descending)
    requires s != [] && StrictlyBefore(key(x), key(s[0]), descending)
    ensures KeyClass(s, key, key(x)) == []
    decreases |s|
  {
    var tail := s[1..];
    if tail != [] {
      assert InOrder(key(s[0]), key(tail[0]), descending);
      BeforeThenInOrder(key(x), key(s[0]), key(tail[0]), descending);
      OrderedTail(s, key, descending);
      KeyClassEmptyAfter(tail, x, key, descending);
    }
  }

  lemma {:induction false} KeyClassSingleton<T>(x: T, key: T -> SortKey, k: SortKey)
    ensures KeyClass([x], key, k) == (if key(x) == k then [x] else [])
  {
    assert [x][1..] == [];
  }

  /** Inserting `x` adds it at the end of its key class: insertion is stable. */
  lemma {:induction false} InsertStable<T>(s: seq<T>, x: T, key: T -> SortKey, descending: bool, k: SortKey)
    requires Ordered(s, key, descending)
    ensures KeyClass(Insert(s, x, key, descending), key, k)
         == KeyClass(s, key, k) + (if key(x) == k then [x] else [])
    decreases |s|
  {
    if s == [] {
      KeyClassSingleton(x, key, k);
      assert Insert(s, x, key, descending) == [x];
    } else if StrictlyBefore(key(x), key(s[0]), descending) {
      assert Insert(s, x, key, descending) == [x] + s;
      InsertFrontStable(s, x, key, descending, k);
    } else {
      OrderedTail(s, key, descending);
      InsertStable(s[1..], x, key, descending, k);
      InsertBehindStable(s, x, key, descending, k);
    }
  }

  /** When `x` goes behind the head, stability of the insertion into the tail carries over. */
  lemma InsertBehindStable<T>(s: seq<T>, x: T, key: T -> SortKey, descending: bool, k: SortKey)
    requires s != [] && !StrictlyBefore(key(x), key(s[0]), descending)
    requires KeyClass(Insert(s[1..], x, key, descending), key, k)
          == KeyClass(s[1..], key, k) + (if key(x) == k then [x] else [])
    ensures KeyClass(Insert(s, x, key, descending), key, k)
         == KeyClass(s, key, k) + (if key(x) == k then [x] else [])
  {
    var tail := s[1..];
    var rest := Insert(tail, x, key, descending);
    assert Insert(s, x, key, descending) == [s[0]] + rest;
    assert s == [s[0]] + tail;
    KeyClassConsStep(s[0], tail, rest, key, k, if key(x) == k then [x] else []);
  }

  /** Putting in front an element that strictly precedes an ordered sequence adds it at the end of its key class. */
  lemma InsertFrontStable<T>(s: seq<T>, x: T, key: T -> SortKey, descending: bool, k: SortKey)
    requires Ordered(s, key, descending)
    requires s != [] && StrictlyBefore(key(x), key(s[0]), descending)
    ensures KeyClass([x] + s, key, k) == KeyClass(s, key, k) + (if key(x) == k then [x] else [])
  {
    KeyClassSingleton(x, key, k);
    KeyClassAppend([x], s, key, k);
    if key(x) == k {
      KeyClassEmptyAfter(s, x, key, descending);
    }
  }

  /** Putting the same element in front of two sequences keeps a relation between their key classes. */
  lemma KeyClassConsStep<T>(h: T, tail: seq<T>, rest: seq<T>, key: T -> SortKey, k: SortKey, added: seq<T>)
    requires KeyClass(rest, key, k) == KeyClass(tail, key, k) + added
    ensures KeyClass([h] + rest, key, k) == KeyClass([h] + tail, key, k) + added
  {
    calc {
      KeyClass([h] + rest, key, k);
      { KeyClassAppend([h], rest, key, k); }
      KeyClass([h], key, k) + KeyClass(rest, key, k);
      KeyClass([h], key, k) + (KeyClass(tail, key, k) + added);
      { SeqAssociative(KeyClass([h], key, k), KeyClass(tail, key, k), added); }
      (KeyClass([h], key, k) + KeyClass(tail, key, k)) + added;
      { KeyClassAppend([h], tail, key, k); }
      KeyClass([h] + tail, key, k) + added;
    }
  }

  lemma SeqAssociative<T>(a: seq<T>, b: seq<T>, c: seq<T>)
    ensures a + (b + c) == (a + b) + c
  {
  }

  /**
   * Stability: for every key value, the elements carrying it appear in the sorted
   * result in the same order as in the input.
   */
  lemma {:induction false} SortByStable<T>(xs: seq<T>, key: T -> SortKey, descending: bool, k: SortKey)
    ensures KeyClass(SortBy(xs, key, descending), key, k) == KeyClass(xs, key, k)
    decreases |xs|
  {
    if xs != [] {
      var init := xs[..|xs| - 1];
      var last := xs[|xs| - 1];
      SortByStable(init, key, descending, k);
      InsertIntoSortedStable(init, last, key, descending, k);
      assert xs == init + [last];
      assert SortBy(xs, key, descending) == Insert(SortBy(init, key, descending), last, key, descending);
      KeyClassAppend(init, [last], key, k);
      KeyClassSingleton(last, key, k);
    }
  }

  lemma InsertIntoSortedStable<T>(init: seq<T>, x: T, key: T -> SortKey, descending: bool, k: SortKey)
    ensures KeyClass(Insert(SortBy(init, key, descending), x, key, descending), key, k)
         == KeyClass(SortBy(init, key, descending), key, k) + (if key(x) == k then [x] else [])
  {
    SortByOrdered(init, key, descending);
    InsertStable(SortBy(init, key, descending), x, key, descending, k);
  }

  /** A key-independent sort result: everything `SortBy` promises, in one place. */
  lemma SortBySpec<T>(xs: seq<T>, key: T -> SortKey, descending: bool)
    ensures var r := SortBy(xs, key, descending);
      && multiset(r) == multiset(xs)
      && Ordered(r, key, descending)
      && forall k :: KeyClass(r, key, k) == KeyClass(xs, key, k)
  {
    SortByOrdered(xs, key, descending);
    forall k ensures KeyClass(SortBy(xs, key, descending), key, k) == KeyClass(xs, key, k) {
      SortByStable(xs, key, descending, k);
    }
  }
}
